=== FILE: README.md ===
# Career-coach scoring core in Dafny

This project models the deterministic core of an AI career-coach web app. The app analyses an uploaded resume, grades mock-interview answers, fabricates job matches for a list of skills, and shows the results. Each piece of logic behind those screens is modelled as pure functions over immutable data, with its properties proved.

- **Resume engine** (`src/utils/geminiApi.js`):
  - A local classifier labels a text as `certificate`, `resume` or `other`, with strict first-match priority.
  - For a real resume, five additive and capped rubrics give the category scores. The overall score is their rounded mean, and there is a separate ATS score.
  - A rejected document gets penalty scores derived from a random base.
  - An AI verdict is post-processed by the local veto (`applyUltraStrictValidation`) and the range clamp (`sanitizeAnalysisData`). The clamp as written lets a score given as non-numeric text through as NaN. The verdict functions use the corrected clamp, which gives the default instead (see "## Findings"); the clamp as written is modelled beside it.
  - The entry point `analyzeResume` guards short input and caches reports under a 32-bit rolling hash of the text (`createTextHash`).
- **Strings and numbers as JavaScript sees them:** a string's `length` and `charCodeAt` count UTF-16 code units, so a character above U+FFFF counts twice; an AI score is the raw JSON value, which `||` and `Number` turn into a number or NaN.
- **Interview grader:**
  - answer scores in integer tenths of a point;
  - the feedback band;
  - contextual tips;
  - the routing between the AI and the local grader.
- **Job generation:** the level prefix, skill-driven job titles, the match percentage and the padded required-skills list.
- **App state** (`src/context/AppContext.js`): the initial state and the reducer.
- **Storage service** (`src/utils/localStorage.js`): browser storage modelled as a map from key to parsed JSON. It keeps newest-first capped histories, the saved job matches and the user preferences.
- **Job page** (`src/components/jobs/`):
  - the skill-tag list (add, remove, suggestions);
  - the stable job sort;
  - the work-type filter;
  - the empty-skills guard;
  - the active-filter count.
- **Score display** (`src/components/resume/ScoreDisplay.jsx`): label, colour and letter-grade banding, score formatting and the Sections tile.

**How the non-deterministic inputs are modelled.**
- Every `Math.random()` draw is a parameter of a bounded subset type, such as `Roll15` (0..14) or `Variation` (-5..4).
- Every AI call is represented by its outcome: not configured, failed, or the parsed answer.
- Timestamps and ids are parameters.
- Regular expressions become specific predicates on ASCII-lower-cased text, such as a substring set or a digit-run shape.

**Files.**

| file | contents |
|---|---|
| `wrappers.dfy`, `json.dfy`, `text.dfy` | Option/Result, JSON values with JavaScript truthiness, string helpers and UTF-16 code units |
| `js_number.dfy` | JavaScript's number conversion of JSON values, and the score clamp |
| `resume_features.dfy` | section detection, vocabularies, pattern counts |
| `resume_scoring.dfy` | the rubrics |
| `resume_feedback.dfy` | feedback lists |
| `resume_analysis.dfy` | classifier, local report, sanitizer, validator |
| `text_hash.dfy` | the hash |
| `resume_service.dfy` | the entry point and cache |
| `interview_grader.dfy` | the interview grader |
| `job_generation.dfy` | job generation |
| `app_state.dfy` | the reducer |
| `storage.dfy` | the storage service |
| `skills_input.dfy` | the skill-tag list |
| `job_matcher.dfy` | the job page |
| `score_display.dfy` | the score display |

## Model

| member | source | states |
|---|---|---|
| ResumeFeatures.SectionCount | src/utils/geminiApi.js:416 | the number of detected sections is at most eight |
| ResumeFeatures.ExtractSkills | src/utils/geminiApi.js:523-542 | a word is extracted exactly when it is in the skill vocabulary and occurs in the text; never more than the vocabulary |
| ResumeFeatures.ExtractKeywords | src/utils/geminiApi.js:544-551 | a keyword is extracted exactly when it is in the keyword vocabulary and occurs in the text |
| ResumeFeatures.CategoryCount | src/utils/geminiApi.js:553-573 | at most five skill categories are covered |
| ResumeFeatures.CountCoveredMonotone | src/utils/geminiApi.js:563-570 | a larger skill set never covers fewer categories |
| ResumeFeatures.EducationLevel | src/utils/geminiApi.js:575-581 | the points are one of 10/15/20/25/30, and 30 exactly when "phd" or "doctorate" occurs |
| ResumeFeatures.YearsMatchAt | src/utils/geminiApi.js:453 | a years match found at a position ends after it and within the text |
| ResumeFeatures.YearsPoints | src/utils/geminiApi.js:453-457 | the years contribution is capped at 20 |
| ResumeScoring.WordCountPoints | src/utils/geminiApi.js:409-413 | the word-count points are 5/10/15/20, and 20 exactly for 300..800 words |
| ResumeScoring.QualityScore | src/utils/geminiApi.js:406-428 | the quality score is at least the base 35 plus the word-count points and at most 95 |
| ResumeScoring.SkillsScore | src/utils/geminiApi.js:430-444 | the skills score lies in [25, 95] |
| ResumeScoring.SkillsScoreMonotone | src/utils/geminiApi.js:430-444 | adding skills never lowers the skills score |
| ResumeScoring.ExperienceScore | src/utils/geminiApi.js:446-464 | the experience score lies in [30, 95], and is at least 55 with an experience section |
| ResumeScoring.EducationScore | src/utils/geminiApi.js:466-477 | the education score lies in [45, 95], and is at least 75 exactly when an education section exists |
| ResumeScoring.FormattingScore | src/utils/geminiApi.js:479-493 | the format score lies in [50, 95], and is at most 80 without a section heading |
| ResumeScoring.EssentialSections | src/utils/geminiApi.js:502 | at most three essential sections |
| ResumeScoring.ATSScore | src/utils/geminiApi.js:495-506 | the ATS score lies in [50, 99], so its cap at 100 never binds, and it is at least 50 plus 8 per essential section |
| ResumeScoring.RoundDiv | src/utils/geminiApi.js:298 | the result is the nearest integer to n/d, with halves rounded up |
| ResumeScoring.Mean | src/utils/geminiApi.js:298 | the overall score is the rounded mean of the five category scores |
| ResumeScoring.MeanWithin | src/utils/geminiApi.js:298 | the rounded mean stays within any bounds the five scores share |
| ResumeFeedback.Fired | src/utils/geminiApi.js:613-625 | a message is emitted exactly when one of its rules holds; a single rule gives its message exactly when it holds |
| ResumeFeedback.FiredAppend | src/utils/geminiApi.js:613-625 | the messages of two runs of rules are those of the first followed by those of the second, so each holding rule adds one message, in rule order |
| ResumeFeedback.OrFallback | src/utils/geminiApi.js:636-637 | a feedback list is never empty after the fallback |
| ResumeFeedback.IntelligentFeedback | src/utils/geminiApi.js:607-640 | 1..5 strengths, 1..6 improvements and exactly the six recommendations in order; the strong-experience strength and the add-skills improvement appear when their conditions hold |
| ResumeFeedback.NonResumeFeedback | src/utils/geminiApi.js:340-355 | one strength, three improvements with the content type named first, the four fixed recommendations |
| TextHash.ToInt32 | src/utils/geminiApi.js:1020-1021 | the result is the signed 32-bit value congruent to the input modulo 2^32 |
| Text.Utf16RoundTrip | src/utils/geminiApi.js:1018-1019 | decoding the UTF-16 code units of a string gives the string back, so the units the hash reads determine the text |
| Text.LengthOfBasicText | src/utils/geminiApi.js:79 | for a text without characters above U+FFFF, `length` is the number of characters |
| Text.AstralCharCountsTwice | src/utils/geminiApi.js:79 | a character above U+FFFF counts 2 towards `length`, as its two surrogates |
| TextHash.FoldIsWrappedPoly | src/utils/geminiApi.js:1018-1022 | wrapping after every step equals wrapping the unwrapped base-31 polynomial once |
| TextHash.HashLoop | src/utils/geminiApi.js:1016-1022 | the loop computes the 32-bit wrap of the base-31 polynomial of the text's UTF-16 code units, one per `charCodeAt` |
| TextHash.NatToStringRoundTrip | src/utils/geminiApi.js:1023 | the decimal digits printed for a number parse back to it |
| TextHash.CreateTextHash | src/utils/geminiApi.js:1015-1024 | the hash is all digits and denotes the absolute value of the wrapped polynomial of the UTF-16 code units, at most 2^31 |
| TextHash.AstralCharHash | src/utils/geminiApi.js:1015-1024 | U+1D400 is hashed as its two surrogates 0xD835 and 0xDC00, giving "1772139" |
| ResumeAnalysis.Clamp | src/utils/geminiApi.js:370-373 | the clamped value lies in [lo, hi], equals the input inside the range and the nearer bound outside it |
| JsNumber.StringToNumber | src/utils/geminiApi.js:363 | blank text reads as 0, and text is NaN exactly when, trimmed, it is not a signed run of digits |
| JsNumber.ToNumber | src/utils/geminiApi.js:363 | a JSON number reads as itself and an object as NaN |
| JsNumber.ClampNumber | src/utils/geminiApi.js:363 | `Math.max(lo, Math.min(hi, x))` is NaN exactly for NaN, otherwise in [lo, hi] and unchanged inside it |
| JsNumber.ClampAsWritten | src/utils/geminiApi.js:363-373 | the clamp as written is NaN exactly for a truthy value that is not a number, and otherwise in range |
| JsNumber.ClampOrDefault | src/utils/geminiApi.js:363-373 | the intended clamp: in range, the default for a falsy or non-numeric value, a numeric value kept inside the range and the nearer bound outside it |
| JsNumber.AsWrittenAgreesOnNumbers | src/utils/geminiApi.js:363-373 | wherever the clamp as written gives a number, the intended clamp gives the same |
| JsNumber.QuotedScoreIsRead | src/utils/geminiApi.js:363 | the text "80" reads as the score 80 |
| JsNumber.WordScoreEscapesRange | src/utils/geminiApi.js:363-367 | the score "high" is NaN after the clamp as written, and takes the default as intended |
| ResumeAnalysis.Classify | src/utils/geminiApi.js:244-278 | a certificate exactly when a certificate word occurs; a resume exactly when none does and the four resume criteria hold; otherwise other |
| ResumeAnalysis.PenaltyScores | src/utils/geminiApi.js:299-308 | penalty scores stay in [15, 95] for an overall in [15, 29]; education is the overall plus 20 for a certificate; format is max(20, overall + 5) |
| ResumeAnalysis.RubricScores | src/utils/geminiApi.js:290-297 | every rubric score is at least its base and at most 95 |
| ResumeAnalysis.ResumeVerdict | src/utils/geminiApi.js:290-312 | a resume verdict is within the report ranges, its overall is the rounded mean and its ATS lies in [50, 100] |
| ResumeAnalysis.RejectionVerdict | src/utils/geminiApi.js:299-312 | a rejected verdict keeps the drawn overall, uses the penalty scores and has ATS = overall + 5 |
| ResumeAnalysis.LocalVerdict | src/utils/geminiApi.js:255-312 | the strict-priority classification with certificate overall in [15, 29], other in [18, 29], a resume's overall the rounded mean, every score within the report ranges |
| ResumeAnalysis.LocalStatsOf | src/utils/geminiApi.js:328-335 | the local statistics hold the section count (at most eight) and a certificate-word count that is positive exactly when a certificate word occurs |
| ResumeAnalysis.LocalFeedback | src/utils/geminiApi.js:316-318 | a resume gets the rule-based lists, anything else the non-resume lists |
| ResumeAnalysis.AnalyzeLocally | src/utils/geminiApi.js:235-338 | the local report carries the local verdict, non-empty feedback naming a rejected document's type, and the local statistics |
| ResumeAnalysis.CleanScore | src/utils/geminiApi.js:363-367 | a falsy score, or one that is not a number, takes the default; a number, or text that reads as one such as "80", is clamped into [15, 95]; where the code as written gives a number, it is this one |
| ResumeAnalysis.SanitizeScores | src/utils/geminiApi.js:362-368 | with the corrected clamp of the geminiApi.js:363-373 finding: all five scores lie in [15, 95]; each falsy or non-numeric one takes its branch default (as written, a non-numeric one is NaN); each numeric one in range is kept |
| ResumeAnalysis.SanitizeVerdict | src/utils/geminiApi.js:357-380 | with the corrected clamp of the geminiApi.js:363-373 finding: overall in [15, 95], ATS in [20, 100], isActualResume only for exactly true, numeric in-range scores kept, a falsy or non-numeric overall replaced by the rounded mean (as written, a non-numeric overall or ATS score is NaN) |
| ResumeAnalysis.SanitizeList | src/utils/geminiApi.js:381 | a given list is cut to its first five; a missing one takes the default |
| ResumeAnalysis.SanitizeFeedback | src/utils/geminiApi.js:381-392 | each list has at most five items and is a prefix of the given one, or a non-empty default naming a rejected document |
| ResumeAnalysis.Sanitize | src/utils/geminiApi.js:357-403 | the sanitized report carries the sanitized verdict and feedback and the detected-sections statistics |
| ResumeAnalysis.CertificateWordsAreStrict | src/utils/geminiApi.js:182-188 | every certificate word of the local classifier is also vetoed by the AI validation |
| ResumeAnalysis.Override | src/utils/geminiApi.js:196-224 | a certificate word forces certificate; a missing work marker or contact forces a non-resume with overall in [18, 29]; only a validated resume keeps its flag, with a numeric overall clamped into [50, 95], 50 for a missing one and NaN (kept as null) for text that is not a number; a locally valid answer that said false keeps its overall as given; the lists pass through |
| ResumeAnalysis.ValidatedOverall | src/utils/geminiApi.js:221-223 | a validated score is clamped into [50, 95] when it reads as a number and is NaN, kept as null, when it does not |
| ResumeAnalysis.ValidatedVerdict | src/utils/geminiApi.js:178-233 | the AI verdict after the veto and the corrected sanitizing of the geminiApi.js:363-373 finding: within ranges (as written, a non-numeric category score, or a non-numeric overall when the AI said false, is NaN), a resume exactly when the AI did not say false and the local checks pass, and then scored at least 50, except that an overall score given as text that is not a number ends as the mean |
| ResumeAnalysis.ValidateAi | src/utils/geminiApi.js:178-233 | the validated report carries the validated verdict, feedback lists cut to five, and flags a certificate exactly when a strict certificate word occurs |
| ResumeService.ClearOldCache | src/utils/geminiApi.js:1026-1035 | exactly the keys holding an old version tag are removed; the rest keep their values |
| ResumeService.CacheKeyIsCurrent | src/utils/geminiApi.js:83-87 | the current cache key never holds an old version tag, so clearing never drops it |
| ResumeService.Lookup | src/utils/geminiApi.js:89-111 | a readable cached report is returned as is; otherwise the new report is returned and stored, and only old-version keys disappear |
| ResumeService.LookupIdempotent | src/utils/geminiApi.js:89-99 | a second lookup returns the stored report and leaves the cache unchanged |
| ResumeService.LookupWithinRanges | src/utils/geminiApi.js:89-117 | if cached and new reports are within the ranges, so is everything handed out and stored |
| ResumeService.Compute | src/utils/geminiApi.js:101-117 | a new report is within the ranges under the corrected clamp of the geminiApi.js:363-373 finding (as written, a non-numeric AI score is NaN), rejects every text holding a certificate word, and is the validated AI verdict or the local one |
| ResumeService.AnalyzeResume | src/utils/geminiApi.js:74-119 | an error exactly for absent text or text shorter than 50 UTF-16 code units; otherwise the cache step, where a miss stores the validated AI verdict or the local one, within the ranges under the corrected clamp of the geminiApi.js:363-373 finding |
| InterviewGrader.WordCount | src/utils/geminiApi.js:785 | at least one word, and the token count for a non-blank answer |
| InterviewGrader.LengthPoints | src/utils/geminiApi.js:788-791 | 0/1.0/1.5/2.0 points; none under 15 words, 2.0 exactly for 50..200 words |
| InterviewGrader.ContentPoints | src/utils/geminiApi.js:793-798 | the content markers add at most 3.0 |
| InterviewGrader.StarPoints | src/utils/geminiApi.js:800-805 | the STAR markers add at most 2.0 |
| InterviewGrader.ClampScore | src/utils/geminiApi.js:807 | the score is kept within [1.0, 10.0] and unchanged inside it |
| InterviewGrader.AnswerScore | src/utils/geminiApi.js:783-808 | the score lies in [3.0, 10.0] in whole tenths, at least the base plus the length points, and at most 8.0 for a question that asks for no story |
| InterviewGrader.EmptyAnswerScoresBase | src/utils/geminiApi.js:783-808 | a blank answer scores exactly the base 3.0 |
| InterviewGrader.StoryQuestionAddsStarPoints | src/utils/geminiApi.js:801-805 | a story question adds exactly the STAR points to the same answer's score |
| InterviewGrader.FeedbackBand | src/utils/geminiApi.js:810-816 | five bands, the top from 8.5 and the bottom below 4.0 |
| InterviewGrader.FeedbackBandMonotone | src/utils/geminiApi.js:810-816 | a higher score never gets a lower band |
| InterviewGrader.SmartFeedback | src/utils/geminiApi.js:810-816 | the message is the one of the score's band |
| InterviewGrader.ContextualTips | src/utils/geminiApi.js:818-833 | four tips when a shortcoming is found, else exactly the three fixed ones; the fired tips first, position by position in rule order, then the fixed tips; an answer shorter than 150 code units is told to elaborate first |
| InterviewGrader.ShortAnswerWithoutExampleTips | src/utils/geminiApi.js:822-823 | a short answer without an example gets the elaboration tip and then the example tip |
| InterviewGrader.ConductInterview | src/utils/geminiApi.js:730-781 | with the corrected clamp of the geminiApi.js:765 finding, the score lies in [1.0, 10.0] (as written, a non-numeric AI score is NaN); the local grader answers without the AI, after its failure or for answers of 20 code units or fewer; otherwise the AI's score is read as AiScore states, its tips are cut to three and its feedback kept when given |
| InterviewGrader.AiScore | src/utils/geminiApi.js:765 | the AI score lies in [1.0, 10.0]; a falsy or non-numeric one gives 5.0; a numeric one in range is kept; where the code as written gives a number, it is this one |
| InterviewGrader.WordAiScoreEscapesRange | src/utils/geminiApi.js:765 | the score "great" is NaN after the clamp as written, and 5.0 as intended |
| JobGeneration.LevelPrefix | src/utils/geminiApi.js:915-922 | "Senior " for senior, "Junior " for entry, nothing otherwise |
| JobGeneration.Dedup | src/utils/geminiApi.js:912 | the same elements without repetition, never longer, in the order of their first occurrences |
| JobGeneration.DedupDistinct | src/utils/geminiApi.js:912 | a list without repetitions is kept as it is |
| JobGeneration.TitlesFor | src/utils/geminiApi.js:887-912 | between one and eight distinct titles, a title present exactly when its skill group is mentioned or, with none, when it is a general title, in the order the groups are pushed (frontend, backend, data, cloud; the general titles in their listed order) |
| JobGeneration.PushedInOrder | src/utils/geminiApi.js:887-909 | the titles are pushed in a strictly increasing push rank, so none repeats |
| JobGeneration.GenerateJobTitles | src/utils/geminiApi.js:885-913 | each title is the level prefix before a chosen title name, and no title repeats |
| JobGeneration.FrontendTitleIff | src/utils/geminiApi.js:890-891 | the frontend title appears exactly when some skill contains a frontend word |
| JobGeneration.CapitalizedSkillMissesFrontendTitles | src/utils/geminiApi.js:890 | the skill "React" yields no frontend title as written, but does when matched regardless of case |
| JobGeneration.GenerateJobTitlesIgnoringCase | src/utils/geminiApi.js:885-913 | distinct titles, with the frontend title present exactly when some skill contains a frontend word in any case |
| JobGeneration.BaseMatch | src/utils/geminiApi.js:941-947 | the base match is 75, 80 or 85 |
| JobGeneration.CalculateJobMatch | src/utils/geminiApi.js:940-952 | the match lies in [70, 98] and is base + min(2·skills, 15) + variation unless capped at 98 |
| JobGeneration.JobMatchMonotone | src/utils/geminiApi.js:948 | more skills never lower the match |
| JobGeneration.SelectRelevantSkills | src/utils/geminiApi.js:954-963 | the first six skills in order, padded from the three general skills up to five while any remain, with the exact resulting length |
| AppState.InitialState | src/context/AppContext.js:6-19 | dashboard tab, an entry-level user with empty name, email and skills, no analysis or session, no job matches, not loading, sidebar closed |
| AppState.Reduce | src/context/AppContext.js:21-42 | a setter writes its one field and leaves the others; UPDATE_USER merges the payload's keys over the user's; TOGGLE_SIDEBAR negates the flag's truthiness; an unknown action changes nothing |
| AppState.ToggleTwice | src/context/AppContext.js:35-36 | toggling twice restores a boolean sidebar flag and the whole state |
| AppState.SetterIdempotent | src/context/AppContext.js:23-32 | applying a setter twice is applying it once |
| AppState.UpdateUserIdempotent | src/context/AppContext.js:33-34 | repeating the same user update changes nothing more |
| AppState.FirstToggleOpensSidebar | src/context/AppContext.js:35-36 | from the initial state one toggle opens the sidebar and changes nothing else |
| Storage.GetAll | src/utils/localStorage.js:85-93 | an absent or unparsable history reads as the empty list; a parsed one as stored |
| Storage.ArrayLikeObjectIsRead | src/utils/localStorage.js:75-83 | a stored `{"length": 1, "0": "x"}` yields "x" |
| Storage.GetLatest | src/utils/localStorage.js:75-83 | the first entry of a non-empty stored list, the first character of non-empty stored text, null for empty stored text, the "0" field of an object whose `length` field reads as a positive number, and null for an empty list, an absent key, an object without a positive length, and any other value |
| Storage.Stamped | src/utils/localStorage.js:58-62 | the stored record holds the given fields, the id unless overridden, and the save time |
| Storage.Push | src/utils/localStorage.js:64-66 | the new entry is first, followed by the old list cut so the length is capped |
| Storage.SaveNewestFirst | src/utils/localStorage.js:64-68 | the history gains the entry at its head, keeps the older entries in order up to the cap, and no other key changes |
| Storage.SaveResumeAnalysis | src/utils/localStorage.js:55-73 | the latest analysis is the one just saved with its id, at most five are kept, other keys untouched |
| Storage.SaveInterviewSession | src/utils/localStorage.js:99-117 | the latest session is the one just saved with its id, at most ten are kept, other keys untouched |
| Storage.SaveAllPushes | src/utils/localStorage.js:55-73 | saving entries one after another pushes them onto the stored list |
| Storage.PushAllKeepsNewest | src/utils/localStorage.js:64-66 | pushing entries in a row onto an empty list keeps the newest ones, newest first, up to the cap |
| Storage.HistoryKeepsNewest | src/utils/localStorage.js:55-69 | a history filled by successive saves holds the newest entries, newest first, up to the cap |
| Storage.SaveJobMatches | src/utils/localStorage.js:15-28 | only the job-matches key is written |
| Storage.GetJobMatches | src/utils/localStorage.js:30-40 | null when the key is absent or unreadable; otherwise the saved matches themselves when they are truthy, and null when they are falsy or missing |
| Storage.JobMatchesRoundTrip | src/utils/localStorage.js:15-40 | saved matches are read back, or null when they are falsy |
| Storage.ClearJobMatches | src/utils/localStorage.js:42-49 | only the job-matches key is removed, and reading them gives null |
| Storage.ClearAllData | src/utils/localStorage.js:183-192 | exactly the four managed keys are removed; every other key keeps its value |
| Storage.ClearedGettersAreEmpty | src/utils/localStorage.js:183-192 | after clearing, every getter gives its empty or default answer |
| Storage.GetUserPreferences | src/utils/localStorage.js:143-163 | the default record when nothing readable is stored, the stored one otherwise |
| Storage.SaveUserPreferences | src/utils/localStorage.js:165-177 | only the preferences key is written |
| Storage.PreferencesRoundTrip | src/utils/localStorage.js:143-177 | saved preferences are read back with their update time |
| SkillsInput.AddSkill | src/components/jobs/SkillsInput.jsx:15-21 | the list grows by the trimmed skill exactly when it is non-blank and new, and otherwise stays the same; a list without duplicates keeps none |
| SkillsInput.AddSkillIdempotent | src/components/jobs/SkillsInput.jsx:17 | adding the same skill twice is adding it once |
| SkillsInput.RemoveSkill | src/components/jobs/SkillsInput.jsx:23-25 | every occurrence of the skill is removed and the other skills are kept with their multiplicities |
| SkillsInput.RemoveSkillAppend | src/components/jobs/SkillsInput.jsx:24 | removal distributes over concatenation, so the kept skills stay in order |
| SkillsInput.RemoveAbsent | src/components/jobs/SkillsInput.jsx:24 | removing a skill that is not there changes nothing |
| SkillsInput.RemoveUndoesAdd | src/components/jobs/SkillsInput.jsx:15-25 | removing a skill just added restores the list |
| SkillsInput.Matching | src/components/jobs/SkillsInput.jsx:34-37 | a suggestion is kept exactly when it contains the typed text in any case and is not chosen |
| SkillsInput.MatchingAppend | src/components/jobs/SkillsInput.jsx:34-37 | the filter distributes over concatenation, so suggestions keep their order |
| SkillsInput.FilteredSuggestions | src/components/jobs/SkillsInput.jsx:34-38 | at most six suggestions, the first of the matching ones in order, each offered and unchosen |
| SkillsInput.NothingTypedOffersFirstSix | src/components/jobs/SkillsInput.jsx:7-38 | with nothing typed or chosen, the first six suggestions are offered |
| SkillsInput.AllOffered | src/components/jobs/SkillsInput.jsx:34-37 | when every candidate qualifies the filter keeps them all in order |
| JobMatcher.FirstDigitFrom | src/components/jobs/JobMatcher.jsx:228 | the first digit at or after a position, or the end |
| JobMatcher.SalaryValue | src/components/jobs/JobMatcher.jsx:228-229 | a salary without digits sorts as 0 |
| JobMatcher.SalaryOfPrinted | src/components/jobs/JobMatcher.jsx:228-229 | a salary written like "$80k - $120k" sorts by its first number, 80 |
| JobMatcher.SortSorts | src/components/jobs/JobMatcher.jsx:223 | the sort orders the jobs by the comparator's key |
| JobMatcher.SortPermutes | src/components/jobs/JobMatcher.jsx:223 | the sort returns a permutation of the jobs |
| JobMatcher.SortIsStable | src/components/jobs/JobMatcher.jsx:223 | jobs with equal keys keep their relative order |
| JobMatcher.SortJobs | src/components/jobs/JobMatcher.jsx:222-238 | a permutation; match non-increasing, salary non-increasing, date non-decreasing; jobs with equal keys keep their order |
| JobMatcher.SortSortedIsIdentity | src/components/jobs/JobMatcher.jsx:223 | sorting an already ordered list leaves it as it is |
| JobMatcher.UnknownSortKeepsOrder | src/components/jobs/JobMatcher.jsx:234-235 | an unknown sort key leaves the list exactly as it was |
| JobMatcher.SortIdempotent | src/components/jobs/JobMatcher.jsx:222-238 | sorting twice by the same key is sorting once |
| JobMatcher.FilterWorkType | src/components/jobs/JobMatcher.jsx:108-114 | remote keeps every copy of each remote job and no other job, onsite the same for the on-site jobs, any other value keeps the list |
| JobMatcher.KeepRemote | src/components/jobs/JobMatcher.jsx:109-111 | every copy of a job is kept when its remote flag matches and none otherwise; a single job is kept or dropped, and KeepRemoteAppend fixes the order |
| JobMatcher.KeepRemoteAppend | src/components/jobs/JobMatcher.jsx:109-111 | the filter distributes over concatenation, so kept jobs keep their order |
| JobMatcher.KeepRemoteCounts | src/components/jobs/JobMatcher.jsx:109-111 | the filter keeps each matching job with its multiplicity and drops every other job |
| JobMatcher.KeptSubMultiset | src/components/jobs/JobMatcher.jsx:108-114 | the filter only drops jobs |
| JobMatcher.ActiveFiltersCount | src/components/jobs/JobMatcher.jsx:292-302 | at most seven, and zero exactly when no filter condition holds |
| JobMatcher.DefaultsCountZero | src/components/jobs/JobMatcher.jsx:245-263 | the default filters and criteria count zero active filters, whatever the skills and experience |
| JobMatcher.Search | src/components/jobs/JobMatcher.jsx:52-116 | an empty skill list aborts the search; otherwise the result holds exactly the matched jobs that pass the work-type filter, with their multiplicities, ordered by the chosen sort key, with jobs of equal key in their filtered order (the stable sort) |
| ScoreDisplay.FormatScore | src/components/resume/ScoreDisplay.jsx:160 | a missing score shows as 0, a present one as itself |
| ScoreDisplay.Band | src/components/resume/ScoreDisplay.jsx:150-158 | seven bands at 40/50/60/70/80/90, each ten points wide between the ends |
| ScoreDisplay.BandMonotone | src/components/resume/ScoreDisplay.jsx:150-158 | a higher score never falls in a lower band |
| ScoreDisplay.ScoreLabel | src/components/resume/ScoreDisplay.jsx:150-158 | the label is the one of the score's band |
| ScoreDisplay.LabelsDistinct | src/components/resume/ScoreDisplay.jsx:150-158 | no two bands share a label |
| ScoreDisplay.Grade | src/components/resume/ScoreDisplay.jsx:385-390 | the letter grade is the one of the score's band |
| ScoreDisplay.GradeMatchesLabel | src/components/resume/ScoreDisplay.jsx:385-390 | the grade is the n-th grade exactly when the label is the n-th label |
| ScoreDisplay.ScoreColor | src/components/resume/ScoreDisplay.jsx:136-141 | green from 80, yellow from 60, orange from 40, red below, each exactly on its range |
| ScoreDisplay.ColorFollowsBand | src/components/resume/ScoreDisplay.jsx:136-158 | green for the top two labels, yellow and orange for the next two each, red for the last |
| ScoreDisplay.SectionsCountAsWritten | src/components/resume/ScoreDisplay.jsx:163-169 | the tile counts the detected sections of an object and shows 0 for anything else, a number included |
| ScoreDisplay.SectionsCount | src/components/resume/ScoreDisplay.jsx:163-169 | the tile shows the detected sections of an object and the stored number itself |
| ScoreDisplay.LocalReportShowsNoSections | src/components/resume/ScoreDisplay.jsx:163-169 | a local report that found sections shows 0 as written and its count when corrected |
| ScoreDisplay.CheckedReportsAgree | src/components/resume/ScoreDisplay.jsx:163-169 | for the AI report's section object both readings agree |

## Left out

- The Gemini calls are not modelled: the SDK, prompt strings and JSON extraction from answers (`performAIAnalysisUltraStrict`, `conductAIInterview`, `generateAIInterviewQuestions`). They are asynchronous network calls, so only their outcome enters the model: `AiOutcome`, `AiEvaluation`, and the `AiData` fields after parsing.
- Interview question generation (`generateInterviewQuestions`, `generateFallbackQuestions`) is not part of this model. It is template text with no property to state.
- `Math.random` is not modelled as a generator. Each draw is a bounded parameter.
- The random job fabrication is not modelled: `generateMatchedJobs`, `generateSalaryRange`, `generateJobDescription`, `getGrowthPotential`, `generateMatchReason`, `generateBenefits`, `getCompanySize`, `generateFallbackJobs` and the sort in `matchJobs`. It is random text and floating-point salary arithmetic.
- `analyzeExperience`, `analyzeEducation` and `analyzeFormatting` are not modelled. Their results are passed to the rubrics, which never read them.
- `console` output, `new Date()` and `Date.now()` are left out. Timestamps and ids are parameters.
- Regular expressions are modelled as specific predicates. Case-insensitive matching is ASCII lower-casing; Unicode case mapping is not modelled. Substring tests and white-space splitting work on characters; no pattern of the code matches a surrogate, so this agrees with the code-unit view.
- `JSON.stringify`/`JSON.parse` are abstracted. A stored item is either the JSON value it parses to or unparsable text. Storage write failures (quota) are not modelled, so their caught errors never happen here.
- `AppState.Reduce`: spreading a string or an array payload into the user gives no keys. JavaScript would copy the indices as keys.
- `ResumeService.ClearOldCache` removes every key holding an old tag. The source's index loop over `localStorage` (geminiApi.js:1028-1032) can skip the key right after one it removes, depending on the browser's key order.
- InterviewGrader.AiScore: JSON numbers are whole here, so a fractional AI score such as 7.5, which the code keeps, is not representable.
- ResumeAnalysis.CleanScore: JSON numbers are whole here, so a fractional AI score such as 72.5, which the code keeps unrounded, is not representable. The same holds for ResumeAnalysis.SanitizeScores, ResumeAnalysis.SanitizeVerdict and ResumeAnalysis.Override.
- JsNumber.StringToNumber reads only a signed run of decimal digits. Decimal fractions, exponents, hexadecimal and `Infinity` read as NaN here, where `Number` gives a number.
- ResumeAnalysis.SanitizeVerdict takes `contentType` and `analysisMethod` as text or absent. The code keeps any truthy value there, text or not.
- Storage.GetLatest: for stored text whose first character lies above U+FFFF, `list[0]` is a lone surrogate, which is not a Dafny character. The model returns the whole first character.
- Storage.GetLatest: an object with a positive `length` but no "0" field yields `undefined` in the code. It is null here; both are falsy to every caller.
- ResumeAnalysis.SanitizeScores uses the corrected clamp of the geminiApi.js:363-373 finding. A truthy score that is not a number takes its branch default here, while the code as written yields NaN (JsNumber.ClampAsWritten, JsNumber.WordScoreEscapesRange).
- ResumeAnalysis.SanitizeVerdict uses the corrected clamp of the geminiApi.js:363-373 finding. A non-numeric overall takes the mean and a non-numeric ATS score its default here, while the code as written yields NaN.
- ResumeAnalysis.ValidatedVerdict is within the ranges only under the corrected clamp of the geminiApi.js:363-373 finding. As written, a non-numeric category score, or a non-numeric overall when the AI said `isActualResume: false`, is NaN.
- ResumeService.Compute promises the ranges under the corrected clamp of the geminiApi.js:363-373 finding. As written, a non-numeric AI score makes a NaN report.
- ResumeService.AnalyzeResume promises the ranges on a miss under the same corrected clamp. As written, the report can hold NaN.
- InterviewGrader.ConductInterview uses the corrected clamp of the geminiApi.js:765 finding (InterviewGrader.AiScore). As written, `"score": "great"` is NaN, outside [1.0, 10.0].
- ResumeAnalysis.AiData types `strengths`, `improvements` and `recommendations` as lists of text. The code keeps any JSON element (`slice(0, 5)`); no property depends on the element type. InterviewGrader's `Evaluated` narrows its `feedback` and `tips` the same way.
- ResumeAnalysis.ThisIsA prints a missing content type as "undefined", and a JSON null one the same way where the code would print "null". The validated path always sets the content type (geminiApi.js:226), so the difference is not reachable there.
- `InterviewGrader.AnswerScore` rounds exactly, in tenths. The floating-point rounding of `Math.round(score * 10) / 10` is not modelled.
- `ScoreDisplay.FormatScore` takes whole-number scores, so `Math.round` of a fractional score is not modelled. The same holds for the label, colour and grade functions.
- `JobMatcher.Search` receives the matched jobs already mapped into `Job` records. The default values filled in by the mapping (JobMatcher.jsx:89-103), including a random match percentage and `postedDays`, are not modelled.
- `JobMatcher.SortJobs` models the comparator sort of the copied list as a stable insertion sort, as `Array.prototype.sort` is stable. That the input list is not mutated holds by construction, since lists are values.
- `getScoreGradient`, the React rendering, animations and the other components are not modelled. So are the `useEffect` that clears results when skills change, `startNewSearch`, the scroll hooks and the Vite configuration.
- `isAvailable`, `getStorageInfo` and `formatBytes` in the storage service are not modelled. They probe the browser or use logarithms.

## Findings

| source | as written | input that shows it | evidently intended | confidence | as-written member | corrected member |
|---|---|---|---|---|---|---|
| src/components/resume/ScoreDisplay.jsx:163-169 | returns 0 unless `sectionsFound` is an object, but the local analysis stores a number there (src/utils/geminiApi.js:331) | a local report with `sectionsFound: 3` shows 0 on the Sections tile | show the stored number of sections | not executed; high | ScoreDisplay.LocalReportShowsNoSections | ScoreDisplay.SectionsCount |
| src/utils/geminiApi.js:890 | skills are matched case-sensitively against lower-case words, while the skill picker offers capitalised names (src/components/jobs/SkillsInput.jsx:8) | skills `["React"]` give no Frontend Developer title | match the skill groups regardless of case | not executed; medium | JobGeneration.CapitalizedSkillMissesFrontendTitles | JobGeneration.GenerateJobTitlesIgnoringCase |
| src/utils/geminiApi.js:363-373 | the clamp into [15, 95] lets a truthy score that is not a number through as NaN | an AI answer with `"scores": {"skills": "high"}` gets a skills score of NaN, outside [15, 95] | give such a score the default, as a missing one gets | not executed; medium | JsNumber.WordScoreEscapesRange | ResumeAnalysis.CleanScore |
| src/utils/geminiApi.js:765 | the clamp into [1, 10] lets a truthy score that is not a number through as NaN | an AI evaluation with `"score": "great"` gets the score NaN | score it 5, as a missing score | not executed; medium | InterviewGrader.WordAiScoreEscapesRange | InterviewGrader.AiScore |

=== FILE: app_state.dfy ===
/** The application state and its reducer (src/context/AppContext.js). An
    action is its type name and a JSON payload; an unknown type leaves the
    state as it is. */
module AppState {
  import opened Json
  import opened Wrappers

  datatype State = State(
    currentTab: Value,
    user: map<string, Value>,
    resumeAnalysis: Value,
    interviewSession: Value,
    jobMatches: Value,
    isLoading: Value,
    sidebarOpen: Value)

  datatype Action = Action(name: string, payload: Value)

  /** The fields of the state, for stating what an action leaves alone. */
  datatype Field = Tab | User | Analysis | Session | Jobs | Loading | Sidebar

  function Get(s: State, f: Field): Value {
    match f
    case Tab => s.currentTab
    case User => Obj(s.user)
    case Analysis => s.resumeAnalysis
    case Session => s.interviewSession
    case Jobs => s.jobMatches
    case Loading => s.isLoading
    case Sidebar => s.sidebarOpen
  }

  /** `initialState` */
  function InitialState(): (s: State)
    ensures s.currentTab == Str("dashboard")
    ensures s.user.Keys == {"name", "email", "skills", "experience"}
    ensures s.user["experience"] == Str("entry") && s.user["skills"] == Arr([])
    ensures !Truthy(s.user["name"]) && !Truthy(s.user["email"])
    ensures s.resumeAnalysis == Null && s.interviewSession == Null
    ensures s.jobMatches == Arr([])
    ensures !Truthy(s.isLoading) && !Truthy(s.sidebarOpen)
  {
    State(
      Str("dashboard"),
      map["name" := Str(""), "email" := Str(""), "skills" := Arr([]), "experience" := Str("entry")],
      Null, Null, Arr([]), Bool(false), Bool(false))
  }

  /** The field each plain setter writes its payload to. */
  function SetterField(name: string): Option<Field> {
    if name == "SET_TAB" then Some(Tab)
    else if name == "SET_LOADING" then Some(Loading)
    else if name == "SET_RESUME_ANALYSIS" then Some(Analysis)
    else if name == "SET_INTERVIEW_SESSION" then Some(Session)
    else if name == "SET_JOB_MATCHES" then Some(Jobs)
    else if name == "SET_SIDEBAR" then Some(Sidebar)
    else None
  }

  /** The keys an object spread `{...payload}` copies: an object's own
      fields; nothing for null, booleans and numbers. Strings and arrays are
      given no keys either, where JavaScript would copy their indices. */
  function Spread(payload: Value): map<string, Value> {
    if payload.Obj? then payload.fields else map[]
  }

  /** `appReducer(state, action)` */
  function Reduce(s: State, a: Action): (r: State)
    ensures SetterField(a.name).Some? ==>
      && Get(r, SetterField(a.name).value) == a.payload
      && forall f :: f != SetterField(a.name).value ==> Get(r, f) == Get(s, f)
    ensures a.name == "UPDATE_USER" ==>
      && (forall k :: k in r.user <==> k in s.user || k in Spread(a.payload))
      && (forall k :: k in Spread(a.payload) ==> r.user[k] == Spread(a.payload)[k])
      && (forall k :: k in s.user && k !in Spread(a.payload) ==> r.user[k] == s.user[k])
      && forall f :: f != User ==> Get(r, f) == Get(s, f)
    ensures a.name == "TOGGLE_SIDEBAR" ==>
      && (Truthy(r.sidebarOpen) <==> !Truthy(s.sidebarOpen))
      && forall f :: f != Sidebar ==> Get(r, f) == Get(s, f)
    ensures SetterField(a.name).None? && a.name != "UPDATE_USER" && a.name != "TOGGLE_SIDEBAR" ==> r == s
  {
    match a.name
    case "SET_TAB" => s.(currentTab := a.payload)
    case "SET_LOADING" => s.(isLoading := a.payload)
    case "SET_RESUME_ANALYSIS" => s.(resumeAnalysis := a.payload)
    case "SET_INTERVIEW_SESSION" => s.(interviewSession := a.payload)
    case "SET_JOB_MATCHES" => s.(jobMatches := a.payload)
    case "UPDATE_USER" => s.(user := s.user + Spread(a.payload))
    case "TOGGLE_SIDEBAR" => s.(sidebarOpen := Bool(!Truthy(s.sidebarOpen)))
    case "SET_SIDEBAR" => s.(sidebarOpen := a.payload)
    case _ => s
  }

  const Toggle := Action("TOGGLE_SIDEBAR", Null)

  /** Toggling twice restores a boolean sidebar flag, and with it the whole
      state; any other flag comes back as the boolean of its truthiness. */
  lemma ToggleTwice(s: State)
    ensures Reduce(Reduce(s, Toggle), Toggle) == s.(sidebarOpen := Bool(Truthy(s.sidebarOpen)))
    ensures s.sidebarOpen.Bool? ==> Reduce(Reduce(s, Toggle), Toggle) == s
  {
  }

  /** Applying a setter twice is the same as applying it once: the second
      write finds the field already holding the payload. */
  lemma SetterIdempotent(s: State, a: Action)
    requires SetterField(a.name).Some?
    ensures Reduce(Reduce(s, a), a) == Reduce(s, a)
  {
  }

  /** Updating the user with a payload and then with the same payload
      again changes nothing more. */
  lemma UpdateUserIdempotent(s: State, payload: Value)
    ensures var a := Action("UPDATE_USER", payload);
            Reduce(Reduce(s, a), a) == Reduce(s, a)
  {
    var a := Action("UPDATE_USER", payload);
    var once := Reduce(s, a);
    assert once.user + Spread(payload) == once.user;
  }

  /** From the initial state, one toggle opens the sidebar and leaves
      everything else as it was. */
  lemma FirstToggleOpensSidebar()
    ensures Reduce(InitialState(), Toggle) == InitialState().(sidebarOpen := Bool(true))
  {
  }
}

=== FILE: interview_grader.dfy ===
/** The interview-answer grader of src/utils/geminiApi.js:
    `calculateAnswerScore`, `generateSmartFeedback`, `generateContextualTips`
    and the routing of `conductInterview`. Every increment of the score is a
    multiple of 0.1, so scores are integers counting tenths of a point: 30
    is the base score 3.0 and 100 the top score 10.0. */
module InterviewGrader {
  import opened Wrappers
  import opened Text
  import opened ResumeFeedback
  import Json
  import JsNumber

  /** `answer.trim().split(/\s+/).length`: the number of words, or 1 for a
      blank answer, which splits into one empty string. */
  function WordCount(answer: string): (n: nat)
    ensures n >= 1
    ensures Tokens(answer) != [] ==> n == |Tokens(answer)|
  {
    if Tokens(answer) == [] then 1 else |Tokens(answer)|
  }

  /** Length points, in tenths: 2.0, 1.5 or 1.0 by word-count band. */
  function LengthPoints(wordCount: nat): (p: nat)
    ensures p in {0, 10, 15, 20}
    ensures p == 0 <==> wordCount < 15
    ensures p == 20 <==> 50 <= wordCount <= 200
  {
    if 50 <= wordCount <= 200 then 20
    else if 25 <= wordCount <= 300 then 15
    else if wordCount >= 15 then 10
    else 0
  }

  /** Points for each quality marker the answer holds. */
  function ContentPoints(answer: string): (p: nat)
    ensures p <= 30
  {
    var a := Lower(answer);
    (if Contains(a, "example") then 8 else 0)
    + (if Contains(a, "result") || Contains(a, "outcome") then 7 else 0)
    + (if Contains(a, "learned") || Contains(a, "experience") then 5 else 0)
    + (if HasDigit(answer) then 5 else 0)
    + (if Contains(a, "team") || Contains(a, "collaborate") then 5 else 0)
  }

  /** The question asks for a story, so the STAR markers earn points. */
  predicate AsksForStory(question: string) {
    var q := Lower(question);
    Contains(q, "tell me about") || Contains(q, "describe")
  }

  /** Points for the situation, action and result markers of the STAR method. */
  function StarPoints(answer: string): (p: nat)
    ensures p <= 20
  {
    var a := Lower(answer);
    (if Contains(a, "situation") || Contains(a, "when") then 5 else 0)
    + (if Contains(a, "action") || Contains(a, "did") || Contains(a, "approach") then 5 else 0)
    + (if Contains(a, "result") || Contains(a, "outcome") || Contains(a, "achieved") then 10 else 0)
  }

  /** `Math.max(1, Math.min(10, x))` in tenths. */
  function ClampScore(x: int): (r: int)
    ensures 10 <= r <= 100
    ensures 10 <= x <= 100 ==> r == x
  {
    if x < 10 then 10 else if x > 100 then 100 else x
  }

  /** `calculateAnswerScore(answer, question)`, in tenths. */
  function AnswerScore(answer: string, question: string): (score: int)
    ensures 30 <= score <= 100
    ensures score >= 30 + LengthPoints(WordCount(answer))
    ensures !AsksForStory(question) ==> score <= 80
  {
    ClampScore(30 + LengthPoints(WordCount(answer)) + ContentPoints(answer)
                  + (if AsksForStory(question) then StarPoints(answer) else 0))
  }

  /** No word of the empty string starts anywhere in it. */
  lemma EmptyContainsNothing(w: string)
    requires w != []
    ensures !Contains([], w)
  {
  }

  /** A blank answer earns the base score and nothing else: one "word", no
      marker, no digit. */
  lemma EmptyAnswerScoresBase(question: string)
    ensures AnswerScore("", question) == 30
  {
    assert Lower("") == "";
    assert Tokens("") == [];
    assert !HasDigit("");
    EmptyContainsNothing("example");
    EmptyContainsNothing("result");
    EmptyContainsNothing("outcome");
    EmptyContainsNothing("learned");
    EmptyContainsNothing("experience");
    EmptyContainsNothing("team");
    EmptyContainsNothing("collaborate");
    EmptyContainsNothing("situation");
    EmptyContainsNothing("when");
    EmptyContainsNothing("action");
    EmptyContainsNothing("did");
    EmptyContainsNothing("approach");
    EmptyContainsNothing("achieved");
  }

  /** A story question adds the STAR points to what the same answer earns
      for any other question; the clamp to 10.0 never binds. */
  lemma StoryQuestionAddsStarPoints(answer: string, story: string, other: string)
    requires AsksForStory(story) && !AsksForStory(other)
    ensures AnswerScore(answer, story) == AnswerScore(answer, other) + StarPoints(answer)
  {
  }

  // ---------------------------------------------------------------------------
  // Feedback

  /** The feedback band of a score: 4 from 8.5, 3 from 7.0, 2 from 5.5, 1
      from 4.0, 0 below. */
  function FeedbackBand(score: int): (b: nat)
    ensures b <= 4
    ensures b == 4 <==> score >= 85
    ensures b == 0 <==> score < 40
  {
    if score >= 85 then 4
    else if score >= 70 then 3
    else if score >= 55 then 2
    else if score >= 40 then 1
    else 0
  }

  /** A higher score never lands in a lower band. */
  lemma FeedbackBandMonotone(s: int, t: int)
    requires s <= t
    ensures FeedbackBand(s) <= FeedbackBand(t)
  {
  }

  const FeedbackMessages: seq<string> := [
    "Your response needs improvement. Consider using the STAR method and including specific examples with measurable results.",
    "Decent answer but could be enhanced. Focus on providing more detailed examples and clearer outcomes.",
    "Good response with solid content. Consider adding more specific examples and quantifiable results.",
    "Very good answer! Shows clear understanding with relevant examples and good structure.",
    "Excellent response! Comprehensive, well-structured, and demonstrates strong competency."]

  /** `generateSmartFeedback(answer, question, score)`: the message of the
      score's band; the answer and question play no part. */
  function SmartFeedback(score: int): (m: string)
    ensures m == FeedbackMessages[FeedbackBand(score)]
  {
    if score >= 85 then FeedbackMessages[4]
    else if score >= 70 then FeedbackMessages[3]
    else if score >= 55 then FeedbackMessages[2]
    else if score >= 40 then FeedbackMessages[1]
    else FeedbackMessages[0]
  }

  // ---------------------------------------------------------------------------
  // Tips

  const ElaborateTip := "Provide more comprehensive explanations with additional details"
  const ExampleTip := "Include specific, real-world examples from your experience"
  const MetricsTip := "Add quantifiable results and metrics when possible"
  const LearningTip := "Mention key learnings or insights gained"
  const StarTip := "Use the STAR method: Situation, Task, Action, Result"
  const EnthusiasmTip := "Show enthusiasm and genuine interest in the role"
  const CompanyTip := "Connect your experience to the company's needs and values"

  const FixedTips: seq<string> := [StarTip, EnthusiasmTip, CompanyTip]

  /** The conditional tips, each with the shortcoming that triggers it. */
  function TipRules(answer: string): seq<Rule> {
    var a := Lower(answer);
    [ Rule(Length(answer) < 150, ElaborateTip),
      Rule(!Contains(a, "example"), ExampleTip),
      Rule(!HasDigit(answer), MetricsTip),
      Rule(!Contains(a, "learn"), LearningTip) ]
  }

  predicate AnyShortcoming(answer: string) {
    exists k :: 0 <= k < 4 && TipRules(answer)[k].holds
  }

  /** `generateContextualTips(answer, question)`: the tips for the
      shortcomings found, then the three fixed tips, cut to four. */
  function ContextualTips(answer: string): (tips: seq<string>)
    ensures |tips| == if AnyShortcoming(answer) then 4 else 3
    ensures !AnyShortcoming(answer) ==> tips == FixedTips
    ensures |tips| <= |Fired(TipRules(answer))| + 3
    ensures Length(answer) < 150 ==> tips[0] == ElaborateTip
    ensures forall i :: 0 <= i < |tips| && i < |Fired(TipRules(answer))| ==>
      tips[i] == Fired(TipRules(answer))[i]
    ensures forall i :: |Fired(TipRules(answer))| <= i < |tips| ==>
      tips[i] == FixedTips[i - |Fired(TipRules(answer))|]
  {
    var rules := TipRules(answer);
    var conditional := Fired(rules);
    FiredEmpty(rules);
    assert rules[0].holds ==> conditional[0] == rules[0].message;
    (conditional + FixedTips)[..if conditional == [] then 3 else 4]
  }

  /** A short answer without an example gets the elaboration tip and then
      the example tip, in the order the rules are checked. */
  lemma ShortAnswerWithoutExampleTips(answer: string)
    requires Length(answer) < 150 && !Contains(Lower(answer), "example")
    ensures ContextualTips(answer)[..2] == [ElaborateTip, ExampleTip]
  {
    var rules := TipRules(answer);
    assert rules[0] == Rule(true, ElaborateTip) && rules[1] == Rule(true, ExampleTip);
    FirstTwoFired(rules);
    var tips := ContextualTips(answer);
    assert tips[0] == ElaborateTip && tips[1] == ExampleTip;
  }

  /** When the first two rules hold, their messages come first. */
  lemma FirstTwoFired(rules: seq<Rule>)
    requires |rules| >= 2 && rules[0].holds && rules[1].holds
    ensures |Fired(rules)| >= 2 && Fired(rules)[0] == rules[0].message && Fired(rules)[1] == rules[1].message
  {
    assert rules == [rules[0]] + [rules[1]] + rules[2..];
    FiredAppend([rules[0]] + [rules[1]], rules[2..]);
    FiredAppend([rules[0]], [rules[1]]);
  }

  /** No rule fires exactly when none holds. */
  lemma FiredEmpty(rules: seq<Rule>)
    ensures Fired(rules) == [] <==> forall k :: 0 <= k < |rules| ==> !rules[k].holds
    ensures |rules| > 0 && rules[0].holds ==> Fired(rules)[0] == rules[0].message
  {
    if exists k :: 0 <= k < |rules| && rules[k].holds {
      var k :| 0 <= k < |rules| && rules[k].holds;
      assert rules[k].message in Fired(rules);
    }
  }

  // ---------------------------------------------------------------------------
  // Routing

  /** What the AI evaluation produced: nothing (not configured), a failure,
      or the fields of its answer; the score is the raw JSON value, `Null`
      when absent, on the 1-10 scale the prompt asks for. The feedback and
      tips are taken to be text, where the code keeps any JSON value. */
  datatype AiEvaluation = NoAi | AiFailed | Evaluated(score: Json.Value, feedback: Option<string>, tips: Option<seq<string>>)

  datatype Assessment = Assessment(score: int, feedback: string, tips: seq<string>)

  /** `Math.max(1, Math.min(10, evaluation.score || 5))` in tenths, with a
      score that is not a number taking the default 5 instead of becoming
      NaN. */
  function AiScore(given: Json.Value): (score: int)
    ensures 10 <= score <= 100
    ensures !JsNumber.Usable(given) ==> score == 50
    ensures JsNumber.Usable(given) && 1 <= JsNumber.ToNumber(given).value <= 10 ==>
      score == 10 * JsNumber.ToNumber(given).value
    ensures JsNumber.ClampAsWritten(1, 10, given, 5).Int? ==>
      score == 10 * JsNumber.ClampAsWritten(1, 10, given, 5).value
  {
    JsNumber.AsWrittenAgreesOnNumbers(1, 10, given, 5);
    10 * JsNumber.ClampOrDefault(1, 10, given, 5)
  }

  /** As written, a word in place of the score is NaN after the clamp; the
      intended reading gives the default 5.0. */
  lemma WordAiScoreEscapesRange()
    ensures JsNumber.ClampAsWritten(1, 10, Json.Str("great"), 5) == JsNumber.NaN
    ensures AiScore(Json.Str("great")) == 50
  {
    assert HasNonSpace("great") by {
      assert !IsSpace("great"[0]);
    }
    assert TrimStartIndex("great") == 0;
    var t := Trim("great");
    assert t[0] == 'g';
    assert JsNumber.Unsigned(t) == t;
    assert !JsNumber.IsIntegerLiteral(t);
  }

  /** `conductInterview(question, answer, context)`: the AI is asked only
      about answers longer than 20 code units; otherwise, or when it is not
      configured or fails, the local grader answers. */
  function ConductInterview(question: string, answer: string, ai: AiEvaluation): (r: Assessment)
    ensures 10 <= r.score <= 100
    ensures (ai.NoAi? || ai.AiFailed? || Length(answer) <= 20) ==>
      r == Assessment(AnswerScore(answer, question), SmartFeedback(AnswerScore(answer, question)),
                      ContextualTips(answer))
    ensures ai.Evaluated? && Length(answer) > 20 ==>
      && r.score == AiScore(ai.score)
      && |r.tips| <= 3
      && (ai.tips.Some? ==> r.tips <= ai.tips.value)
      && (ai.tips.Some? && |ai.tips.value| <= 3 ==> r.tips == ai.tips.value)
      && (ai.feedback.Some? && ai.feedback.value != [] ==> r.feedback == ai.feedback.value)
  {
    if ai.Evaluated? && Length(answer) > 20 then
      Assessment(
        AiScore(ai.score),
        if ai.feedback.Some? && ai.feedback.value != [] then ai.feedback.value
        else "Good response with room for improvement.",
        if ai.tips.Some? then (if |ai.tips.value| <= 3 then ai.tips.value else ai.tips.value[..3])
        else ["Provide more specific examples", "Use the STAR method", "Show enthusiasm"])
    else
      var score := AnswerScore(answer, question);
      Assessment(score, SmartFeedback(score), ContextualTips(answer))
  }
}

=== FILE: job_generation.dfy ===
/** The deterministic parts of job generation in src/utils/geminiApi.js:
    `getLevelPrefix`, `generateJobTitles`, `calculateJobMatch` and
    `selectRelevantSkills`. The random draw of `calculateJobMatch` is a
    bounded parameter. */
module JobGeneration {
  import opened Text

  /** `getLevelPrefix(experienceLevel)` */
  function LevelPrefix(level: string): (p: string)
    ensures level == "senior" ==> p == "Senior "
    ensures level == "entry" ==> p == "Junior "
    ensures level != "senior" && level != "entry" ==> p == ""
  {
    if level == "senior" then "Senior "
    else if level == "entry" then "Junior "
    else ""
  }

  // ---------------------------------------------------------------------------
  // Titles

  /** The job titles `generateJobTitles` can produce, before the level prefix. */
  datatype Title =
    | FrontendDeveloper | ReactDeveloper
    | BackendDeveloper | FullStackDeveloper
    | DataAnalyst | DataScientist
    | DevOpsEngineer | CloudEngineer
    | SoftwareDeveloper | SoftwareEngineer

  function TitleName(t: Title): string {
    match t
    case FrontendDeveloper => "Frontend Developer"
    case ReactDeveloper => "React Developer"
    case BackendDeveloper => "Backend Developer"
    case FullStackDeveloper => "Full Stack Developer"
    case DataAnalyst => "Data Analyst"
    case DataScientist => "Data Scientist"
    case DevOpsEngineer => "DevOps Engineer"
    case CloudEngineer => "Cloud Engineer"
    case SoftwareDeveloper => "Software Developer"
    case SoftwareEngineer => "Software Engineer"
  }

  /** Different titles have different names. */
  lemma TitleNameInjective(a: Title, b: Title)
    requires a != b
    ensures TitleName(a) != TitleName(b)
  {
    var x, y := TitleName(a), TitleName(b);
    if |x| == |y| {
      assert x[0] != y[0];
    }
  }

  const FrontendWords: seq<string> := ["react", "angular", "vue"]
  const BackendWords: seq<string> := ["node", "python", "java"]
  const DataWords: seq<string> := ["data", "analytics", "sql"]
  const CloudWords: seq<string> := ["aws", "cloud", "devops"]

  /** `skills.some(s => s.includes(w1) || s.includes(w2) || ...)`, case-sensitive. */
  predicate SomeSkillMentions(skills: seq<string>, words: seq<string>) {
    exists i :: 0 <= i < |skills| && ContainsAny(skills[i], words)
  }

  /** The position of the first occurrence of `x` in `xs`. */
  function FirstIndex<T(==)>(xs: seq<T>, x: T): (i: nat)
    requires x in xs
    ensures i < |xs| && xs[i] == x && x !in xs[..i]
  {
    if xs[0] == x then 0
    else
      var k := FirstIndex(xs[1..], x);
      assert xs[..k + 1] == [xs[0]] + xs[1..][..k];
      k + 1
  }

  /** A first occurrence within a prefix is the first occurrence in the
      whole list. */
  lemma FirstIndexOfPrefix<T>(xs: seq<T>, k: nat, x: T)
    requires k <= |xs| && x in xs[..k]
    ensures FirstIndex(xs, x) == FirstIndex(xs[..k], x)
  {
    var i, i' := FirstIndex(xs[..k], x), FirstIndex(xs, x);
    assert xs[..k][..i] == xs[..i];
    assert forall m :: 0 <= m < i ==> xs[m] == xs[..i][m];
    assert forall m :: 0 <= m < i' ==> xs[m] == xs[..i'][m];
  }

  /** The first occurrence of each element, in order: `[...new Set(xs)]`.
      The elements come in the order of their first occurrences, which with
      the membership and distinctness clauses fixes the result; a list
      without repetitions is kept as it is. */
  function Dedup<T(==,!new)>(xs: seq<T>): (r: seq<T>)
    ensures forall x :: x in r <==> x in xs
    ensures forall i, j :: 0 <= i < j < |r| ==> r[i] != r[j]
    ensures forall i, j :: 0 <= i < j < |r| ==> FirstIndex(xs, r[i]) < FirstIndex(xs, r[j])
    ensures |r| <= |xs|
  {
    if xs == [] then []
    else
      var n := |xs| - 1;
      var front := xs[..n];
      var rest := Dedup(front);
      assert xs == front + [xs[n]];
      forall i | 0 <= i < |rest|
        ensures FirstIndex(xs, rest[i]) == FirstIndex(front, rest[i])
      {
        FirstIndexOfPrefix(xs, n, rest[i]);
      }
      if xs[n] in rest then rest
      else
        assert FirstIndex(xs, xs[n]) == n by {
          assert forall m :: 0 <= m < n ==> front[m] != xs[n];
        }
        rest + [xs[n]]
  }

  /** A list without repetitions is kept as it is. */
  lemma {:induction false} DedupDistinct<T(!new)>(xs: seq<T>)
    requires forall i, j :: 0 <= i < j < |xs| ==> xs[i] != xs[j]
    ensures Dedup(xs) == xs
    decreases |xs|
  {
    if xs != [] {
      var n := |xs| - 1;
      DedupDistinct(xs[..n]);
      assert xs[n] !in xs[..n];
      assert xs == xs[..n] + [xs[n]];
    }
  }

  /** The order in which `generateJobTitles` pushes the titles. The general
      titles are pushed only when no group is, so they rank first here. */
  function Rank(t: Title): int {
    match t
    case SoftwareDeveloper => -2
    case SoftwareEngineer => -1
    case FrontendDeveloper => 0
    case ReactDeveloper => 1
    case BackendDeveloper => 2
    case FullStackDeveloper => 3
    case DataAnalyst => 4
    case DataScientist => 5
    case DevOpsEngineer => 6
    case CloudEngineer => 7
  }

  predicate InPushOrder(ts: seq<Title>) {
    forall i, j :: 0 <= i < j < |ts| ==> Rank(ts[i]) < Rank(ts[j])
  }

  lemma InPushOrderAppend(a: seq<Title>, b: seq<Title>, bound: int)
    requires InPushOrder(a) && InPushOrder(b)
    requires forall x :: x in a ==> Rank(x) < bound
    requires forall y :: y in b ==> bound <= Rank(y)
    ensures InPushOrder(a + b)
  {
    forall i, j | 0 <= i < j < |a + b|
      ensures Rank((a + b)[i]) < Rank((a + b)[j])
    {
      if j < |a| {
        assert (a + b)[i] == a[i] && (a + b)[j] == a[j];
      } else if i < |a| {
        assert (a + b)[i] == a[i] && (a + b)[j] == b[j - |a|];
        assert a[i] in a && b[j - |a|] in b;
      } else {
        assert (a + b)[i] == b[i - |a|] && (a + b)[j] == b[j - |a|];
      }
    }
  }

  /** The two titles of a group when it is mentioned. */
  function Block(mentioned: bool, first: Title, second: Title): seq<Title> {
    if mentioned then [first, second] else []
  }

  /** The titles in the order `generateJobTitles` pushes them: two per
      mentioned group, or the three general titles when there is none. */
  function Pushed(frontend: bool, backend: bool, data: bool, cloud: bool): seq<Title> {
    var base :=
      Block(frontend, FrontendDeveloper, ReactDeveloper) + Block(backend, BackendDeveloper, FullStackDeveloper)
      + Block(data, DataAnalyst, DataScientist) + Block(cloud, DevOpsEngineer, CloudEngineer);
    if base == [] then [SoftwareDeveloper, SoftwareEngineer, FullStackDeveloper] else base
  }

  lemma BlockInOrder(mentioned: bool, first: Title, second: Title)
    requires Rank(first) < Rank(second)
    ensures InPushOrder(Block(mentioned, first, second))
    ensures forall t :: t in Block(mentioned, first, second) ==> Rank(first) <= Rank(t) <= Rank(second)
  {
  }

  lemma PushedInOrder(frontend: bool, backend: bool, data: bool, cloud: bool)
    ensures InPushOrder(Pushed(frontend, backend, data, cloud))
  {
    var f := Block(frontend, FrontendDeveloper, ReactDeveloper);
    var b := Block(backend, BackendDeveloper, FullStackDeveloper);
    var d := Block(data, DataAnalyst, DataScientist);
    var c := Block(cloud, DevOpsEngineer, CloudEngineer);
    var base := f + b + d + c;
    assert InPushOrder(base) by {
      BlockInOrder(frontend, FrontendDeveloper, ReactDeveloper);
      BlockInOrder(backend, BackendDeveloper, FullStackDeveloper);
      BlockInOrder(data, DataAnalyst, DataScientist);
      BlockInOrder(cloud, DevOpsEngineer, CloudEngineer);
      InPushOrderAppend(f, b, 2);
      InPushOrderAppend(f + b, d, 4);
      InPushOrderAppend(f + b + d, c, 6);
    }
    var general := [SoftwareDeveloper, SoftwareEngineer, FullStackDeveloper];
    assert InPushOrder(general);
    assert Pushed(frontend, backend, data, cloud) == if base == [] then general else base;
  }

  lemma PushedChosen(frontend: bool, backend: bool, data: bool, cloud: bool)
    ensures 0 < |Pushed(frontend, backend, data, cloud)| <= 8
    ensures forall t :: t in Pushed(frontend, backend, data, cloud) <==> Chosen(t, frontend, backend, data, cloud)
  {
    var f := Block(frontend, FrontendDeveloper, ReactDeveloper);
    var b := Block(backend, BackendDeveloper, FullStackDeveloper);
    var d := Block(data, DataAnalyst, DataScientist);
    var c := Block(cloud, DevOpsEngineer, CloudEngineer);
    var base := f + b + d + c;
    assert base == [] <==> !(frontend || backend || data || cloud);
    forall t ensures t in base <==> t in f || t in b || t in d || t in c {
    }
  }

  /** The titles, before the level prefix, for the skill groups that are
      mentioned: two per group, or the three general titles when there is
      none, in the order they are pushed, repetitions dropped. */
  function TitlesFor(frontend: bool, backend: bool, data: bool, cloud: bool): (r: seq<Title>)
    ensures r != [] && |r| <= 8
    ensures forall i, j :: 0 <= i < j < |r| ==> r[i] != r[j]
    ensures forall t :: t in r <==> Chosen(t, frontend, backend, data, cloud)
    ensures forall i, j :: 0 <= i < j < |r| ==> Rank(r[i]) < Rank(r[j])
  {
    var pushed := Pushed(frontend, backend, data, cloud);
    PushedInOrder(frontend, backend, data, cloud);
    PushedChosen(frontend, backend, data, cloud);
    DedupDistinct(pushed);
    Dedup(pushed)
  }

  /** Whether `t` belongs to a mentioned group, or is a general title when
      no group is mentioned. */
  predicate Chosen(t: Title, frontend: bool, backend: bool, data: bool, cloud: bool) {
    var none := !(frontend || backend || data || cloud);
    match t
    case FrontendDeveloper | ReactDeveloper => frontend
    case BackendDeveloper => backend
    case FullStackDeveloper => backend || none
    case DataAnalyst | DataScientist => data
    case DevOpsEngineer | CloudEngineer => cloud
    case SoftwareDeveloper | SoftwareEngineer => none
  }

  /** The titles of `generateJobTitles` for these skills, before the prefix. */
  function TitleKinds(skills: seq<string>): seq<Title> {
    TitlesFor(SomeSkillMentions(skills, FrontendWords), SomeSkillMentions(skills, BackendWords),
              SomeSkillMentions(skills, DataWords), SomeSkillMentions(skills, CloudWords))
  }

  /** `generateJobTitles(skills, experienceLevel)`: the titles, each behind
      the level prefix, without repetition. */
  function GenerateJobTitles(skills: seq<string>, level: string): (r: seq<string>)
    ensures |r| == |TitleKinds(skills)|
    ensures forall i :: 0 <= i < |r| ==> r[i] == LevelPrefix(level) + TitleName(TitleKinds(skills)[i])
    ensures forall i, j :: 0 <= i < j < |r| ==> r[i] != r[j]
  {
    var kinds := TitleKinds(skills);
    var p := LevelPrefix(level);
    var r := seq(|kinds|, i requires 0 <= i < |kinds| => p + TitleName(kinds[i]));
    forall i, j | 0 <= i < j < |r| ensures r[i] != r[j] {
      TitleNameInjective(kinds[i], kinds[j]);
      assert r[i][|p|..] == TitleName(kinds[i]);
      assert r[j][|p|..] == TitleName(kinds[j]);
    }
    r
  }

  /** The skills lower-cased, so that the group words match whatever the
      capitalization. */
  function LowerAll(skills: seq<string>): (r: seq<string>)
    ensures |r| == |skills|
    ensures forall i :: 0 <= i < |r| ==> r[i] == Lower(skills[i])
  {
    seq(|skills|, i requires 0 <= i < |skills| => Lower(skills[i]))
  }

  /** The prefixed frontend title is among the titles exactly when some
      skill mentions a frontend word. */
  lemma FrontendTitleIff(skills: seq<string>, level: string)
    ensures LevelPrefix(level) + TitleName(FrontendDeveloper) in GenerateJobTitles(skills, level)
            <==> SomeSkillMentions(skills, FrontendWords)
  {
    var r := GenerateJobTitles(skills, level);
    var kinds := TitleKinds(skills);
    var p := LevelPrefix(level);
    var front := SomeSkillMentions(skills, FrontendWords);
    assert FrontendDeveloper in kinds <==> front by {
      assert Chosen(FrontendDeveloper, front, SomeSkillMentions(skills, BackendWords),
                    SomeSkillMentions(skills, DataWords), SomeSkillMentions(skills, CloudWords)) == front;
    }
    if p + TitleName(FrontendDeveloper) in r {
      var i :| 0 <= i < |r| && r[i] == p + TitleName(FrontendDeveloper);
      assert r[i][|p|..] == TitleName(kinds[i]);
      if kinds[i] != FrontendDeveloper {
        TitleNameInjective(kinds[i], FrontendDeveloper);
      }
      assert kinds[i] == FrontendDeveloper;
    }
    if front {
      var k :| 0 <= k < |kinds| && kinds[k] == FrontendDeveloper;
      assert r[k] == p + TitleName(FrontendDeveloper);
    }
  }

  /** The titles with the skill groups matched regardless of case. */
  function GenerateJobTitlesIgnoringCase(skills: seq<string>, level: string): (r: seq<string>)
    ensures forall i, j :: 0 <= i < j < |r| ==> r[i] != r[j]
    ensures LevelPrefix(level) + TitleName(FrontendDeveloper) in r <==>
      exists i :: 0 <= i < |skills| && ContainsAny(Lower(skills[i]), FrontendWords)
  {
    var lowered := LowerAll(skills);
    FrontendTitleIff(lowered, level);
    assert SomeSkillMentions(lowered, FrontendWords) <==>
      exists i :: 0 <= i < |skills| && ContainsAny(Lower(skills[i]), FrontendWords);
    GenerateJobTitles(lowered, level)
  }

  /** "React", as the skills picker offers it, mentions none of the
      lower-case frontend words, so it never earns a frontend title; matched
      regardless of case it does. */
  lemma CapitalizedSkillMissesFrontendTitles()
    ensures !SomeSkillMentions(["React"], FrontendWords)
    ensures FrontendDeveloper !in TitleKinds(["React"])
    ensures "Frontend Developer" !in GenerateJobTitles(["React"], "mid")
    ensures "Frontend Developer" in GenerateJobTitlesIgnoringCase(["React"], "mid")
  {
    var skill := "React";
    forall k, i | 0 <= k < |FrontendWords| && 0 <= i <= |skill|
      ensures !StartsAt(skill, i, FrontendWords[k])
    {
      var w := FrontendWords[k];
      if i + |w| <= |skill| {
        if k == 0 {
          assert skill[i..i + |w|][0] != w[0];
        } else if k == 2 {
          assert skill[i..i + |w|][0] != w[0];
        }
      }
    }
    assert !ContainsAny(skill, FrontendWords);
    assert ["React"][0] == skill;
    FrontendTitleIff(["React"], "mid");
    assert Lower(skill) == "react";
    assert StartsAt(Lower(skill), 0, FrontendWords[0]);
    assert "" + TitleName(FrontendDeveloper) == "Frontend Developer";
  }

  // ---------------------------------------------------------------------------
  // Match percentage and required skills

  /** `Math.floor(Math.random() * 10) - 5` */
  type Variation = v: int | -5 <= v <= 4

  /** The base match of an experience level; any other level counts as entry. */
  function BaseMatch(level: string): (b: int)
    ensures b in {75, 80, 85}
  {
    if level == "senior" then 85 else if level == "mid" then 80 else 75
  }

  /** `calculateJobMatch(skills, experienceLevel)`: the level's base plus two
      points per skill (at most 15) plus the random variation, kept within
      [65, 98]. The lower bound never binds. */
  function CalculateJobMatch(skillCount: nat, level: string, variation: Variation): (r: int)
    ensures 70 <= r <= 98
    ensures r == 98 || r == BaseMatch(level) + Min(2 * skillCount, 15) + variation
  {
    var raw := BaseMatch(level) + Min(2 * skillCount, 15) + variation;
    if raw < 65 then 65 else if raw > 98 then 98 else raw
  }

  function Min(a: int, b: int): int {
    if a <= b then a else b
  }

  /** More skills never lower the match, all else equal. */
  lemma JobMatchMonotone(m: nat, n: nat, level: string, variation: Variation)
    requires m <= n
    ensures CalculateJobMatch(m, level, variation) <= CalculateJobMatch(n, level, variation)
  {
  }

  const ExtraSkills: seq<string> := ["Problem Solving", "Team Collaboration", "Agile Methodology"]

  /** `selectRelevantSkills(skills)`: the first six skills, padded to five
      from the three general skills while any remain. */
  method SelectRelevantSkills(skills: seq<string>) returns (selected: seq<string>)
    ensures |selected| == if |skills| >= 6 then 6 else if |skills| >= 2 then (if |skills| >= 5 then |skills| else 5) else |skills| + 3
    ensures selected[..Min(|skills|, 6)] == skills[..Min(|skills|, 6)]
    ensures forall i :: Min(|skills|, 6) <= i < |selected| ==> selected[i] == ExtraSkills[i - Min(|skills|, 6)]
  {
    var taken := Min(|skills|, 6);
    selected := skills[..taken];
    var extra := ExtraSkills;
    while |selected| < 5 && |extra| > 0
      invariant taken <= |selected| == taken + (3 - |extra|)
      invariant extra == ExtraSkills[3 - |extra|..]
      invariant selected[..taken] == skills[..taken]
      invariant selected[taken..] == ExtraSkills[..|selected| - taken]
      invariant |selected| <= 5 || |extra| == 3
      decreases |extra|
    {
      assert ExtraSkills[..|selected| - taken + 1] == ExtraSkills[..|selected| - taken] + [extra[0]];
      selected := selected + [extra[0]];
      extra := extra[1..];
    }
    assert forall i :: taken <= i < |selected| ==> selected[i] == selected[taken..][i - taken];
  }
}

=== FILE: job_matcher.dfy ===
/** The job list logic of src/components/jobs/JobMatcher.jsx: sorting a copy
    of the list by match, salary or posting date; the work-type filter; the
    count of active filters; and the search guard on an empty skill list.
    `Array.prototype.sort` is stable, so equal keys keep their order and an
    unknown sort key (a comparator that always answers 0) keeps the list as
    it is. */
module JobMatcher {
  import opened Wrappers
  import opened Text
  import opened ResumeFeatures
  import opened TextHash

  datatype Job = Job(title: string, salary: string, matchPercentage: int, postedDays: int, remote: bool)

  // ---------------------------------------------------------------------------
  // Sort keys

  /** The index of the first digit at or after `i`, or |s|. */
  function FirstDigitFrom(s: string, i: nat): (j: nat)
    requires i <= |s|
    ensures i <= j <= |s|
    ensures forall k :: i <= k < j ==> !IsDigit(s[k])
    ensures j < |s| ==> IsDigit(s[j])
    decreases |s| - i
  {
    if i == |s| || IsDigit(s[i]) then i else FirstDigitFrom(s, i + 1)
  }

  /** `parseInt(salary.match(/\d+/)?.[0] || '0')`: the first run of digits,
      or 0 when there is none. */
  function SalaryValue(salary: string): (n: nat)
    ensures !HasDigit(salary) ==> n == 0
  {
    var i := FirstDigitFrom(salary, 0);
    if i == |salary| then 0 else DigitsValue(salary[i..DigitRunEnd(salary, i)])
  }

  /** A salary written the way the page writes them, "$80k - $120k", sorts
      by its first number. */
  lemma SalaryOfPrinted(k: nat, rest: string)
    ensures SalaryValue("$" + NatToString(k) + "k" + rest) == k
  {
    var digits := NatToString(k);
    var s := "$" + digits + "k" + rest;
    assert !IsDigit(s[0]);
    assert forall m :: 0 <= m < |digits| ==> s[1 + m] == digits[m];
    assert FirstDigitFrom(s, 1) == 1;
    assert FirstDigitFrom(s, 0) == 1;
    assert s[1 + |digits|] == 'k';
    DigitRunOf(s, 1, 1 + |digits|);
    assert s[1..1 + |digits|] == digits;
    NatToStringRoundTrip(k);
  }

  /** A run of digits up to a non-digit ends there. */
  lemma {:induction false} DigitRunOf(s: string, i: nat, j: nat)
    requires i <= j < |s|
    requires forall m :: i <= m < j ==> IsDigit(s[m])
    requires !IsDigit(s[j])
    ensures DigitRunEnd(s, i) == j
    decreases j - i
  {
    if i < j {
      DigitRunOf(s, i + 1, j);
    }
  }

  /** The sort keys the page offers; anything else sorts nothing. */
  datatype SortBy = ByMatch | BySalary | ByDate | Unsorted

  function ParseSortBy(name: string): SortBy {
    if name == "match" then ByMatch
    else if name == "salary" then BySalary
    else if name == "date" then ByDate
    else Unsorted
  }

  /** The comparator as an ascending key: `b - a` on a field sorts by its
      negation, `a - b` by the field itself, a constant comparator by 0. */
  function Key(order: SortBy, job: Job): int {
    match order
    case ByMatch => -job.matchPercentage
    case BySalary => -(SalaryValue(job.salary) as int)
    case ByDate => job.postedDays
    case Unsorted => 0
  }

  predicate Sorted(key: Job -> int, jobs: seq<Job>) {
    forall i, j :: 0 <= i < j < |jobs| ==> key(jobs[i]) <= key(jobs[j])
  }

  /** The jobs whose key is `k`, in their order: a stable sort leaves this
      sequence the same for every key. */
  function WithKey(key: Job -> int, jobs: seq<Job>, k: int): (r: seq<Job>)
    ensures |r| <= |jobs|
  {
    if jobs == [] then []
    else WithKey(key, jobs[..|jobs| - 1], k)
         + (if key(jobs[|jobs| - 1]) == k then [jobs[|jobs| - 1]] else [])
  }

  lemma {:induction false} WithKeyAppend(key: Job -> int, a: seq<Job>, b: seq<Job>, k: int)
    ensures WithKey(key, a + b, k) == WithKey(key, a, k) + WithKey(key, b, k)
    decreases |b|
  {
    if b == [] {
      assert a + b == a;
    } else {
      var b' := b[..|b| - 1];
      assert (a + b)[..|a + b| - 1] == a + b';
      assert (a + b)[|a + b| - 1] == b[|b| - 1];
      WithKeyAppend(key, a, b', k);
    }
  }

  /** No job of `jobs` has key `k`. */
  lemma {:induction false} WithKeyNone(key: Job -> int, jobs: seq<Job>, k: int)
    requires forall i :: 0 <= i < |jobs| ==> key(jobs[i]) != k
    ensures WithKey(key, jobs, k) == []
    decreases |jobs|
  {
    if jobs != [] {
      WithKeyNone(key, jobs[..|jobs| - 1], k);
    }
  }

  // ---------------------------------------------------------------------------
  // Stable insertion

  /** Where a new last element goes: after every element whose key is not
      larger. */
  function InsertAt(key: Job -> int, sorted: seq<Job>, job: Job): (p: nat)
    ensures p <= |sorted|
    ensures forall i :: p <= i < |sorted| ==> key(job) < key(sorted[i])
    ensures p > 0 ==> key(sorted[p - 1]) <= key(job)
    decreases |sorted|
  {
    if sorted == [] || key(sorted[|sorted| - 1]) <= key(job) then |sorted|
    else InsertAt(key, sorted[..|sorted| - 1], job)
  }

  /** The sorted list with the job placed after every job whose key is not
      larger. */
  function Insert(key: Job -> int, sorted: seq<Job>, job: Job): (r: seq<Job>)
    ensures |r| == |sorted| + 1
  {
    var p := InsertAt(key, sorted, job);
    sorted[..p] + [job] + sorted[p..]
  }

  lemma InsertSorted(key: Job -> int, sorted: seq<Job>, job: Job)
    requires Sorted(key, sorted)
    ensures Sorted(key, Insert(key, sorted, job))
  {
    var p := InsertAt(key, sorted, job);
    var r := Insert(key, sorted, job);
    assert r == sorted[..p] + [job] + sorted[p..];
    forall i, j | 0 <= i < j < |r| ensures key(r[i]) <= key(r[j]) {
      if j < p {
        assert r[i] == sorted[i] && r[j] == sorted[j];
      } else if j == p {
        assert r[i] == sorted[i] && r[j] == job;
        assert key(sorted[i]) <= key(sorted[p - 1]);
      } else if i < p {
        assert r[i] == sorted[i] && r[j] == sorted[j - 1];
      } else if i == p {
        assert r[i] == job && r[j] == sorted[j - 1];
      } else {
        assert r[i] == sorted[i - 1] && r[j] == sorted[j - 1];
      }
    }
  }

  lemma InsertPermutes(key: Job -> int, sorted: seq<Job>, job: Job)
    ensures multiset(Insert(key, sorted, job)) == multiset(sorted) + multiset{job}
  {
    var p := InsertAt(key, sorted, job);
    assert sorted == sorted[..p] + sorted[p..];
  }

  /** Inserting splits the jobs with a key around the new job. */
  lemma InsertSplits(key: Job -> int, sorted: seq<Job>, job: Job, k: int)
    ensures var p := InsertAt(key, sorted, job);
      WithKey(key, Insert(key, sorted, job), k)
      == WithKey(key, sorted[..p], k) + WithKey(key, [job], k) + WithKey(key, sorted[p..], k)
  {
    var p := InsertAt(key, sorted, job);
    var front, back := sorted[..p], sorted[p..];
    assert Insert(key, sorted, job) == (front + [job]) + back;
    WithKeyAppend(key, front + [job], back, k);
    WithKeyAppend(key, front, [job], k);
  }

  /** The jobs with a key, split at any position. */
  lemma WithKeySplit(key: Job -> int, jobs: seq<Job>, p: nat, k: int)
    requires p <= |jobs|
    ensures WithKey(key, jobs, k) == WithKey(key, jobs[..p], k) + WithKey(key, jobs[p..], k)
  {
    assert jobs == jobs[..p] + jobs[p..];
    WithKeyAppend(key, jobs[..p], jobs[p..], k);
  }

  /** No job after the insertion point shares the new job's key. */
  lemma NoEqualKeyAfterInsertAt(key: Job -> int, sorted: seq<Job>, job: Job)
    ensures WithKey(key, sorted[InsertAt(key, sorted, job)..], key(job)) == []
  {
    var p := InsertAt(key, sorted, job);
    var back := sorted[p..];
    forall i | 0 <= i < |back|
      ensures key(back[i]) != key(job)
    {
      assert back[i] == sorted[p + i];
    }
    WithKeyNone(key, back, key(job));
  }

  /** Inserting after every element with a key that is not larger adds the
      job behind the others with its key. */
  lemma InsertKeepsKeyOrder(key: Job -> int, sorted: seq<Job>, job: Job, k: int)
    ensures WithKey(key, Insert(key, sorted, job), k) == WithKey(key, sorted, k) + WithKey(key, [job], k)
  {
    var p := InsertAt(key, sorted, job);
    InsertSplits(key, sorted, job, k);
    WithKeySplit(key, sorted, p, k);
    if k == key(job) {
      NoEqualKeyAfterInsertAt(key, sorted, job);
      assert WithKey(key, sorted[p..], k) == [];
    } else {
      assert WithKey(key, [job], k) == [] by {
        assert [job][..0] == [];
      }
    }
  }

  /** Stable insertion sort: each job is placed after the jobs before it
      with a key that is not larger. */
  function Sort(key: Job -> int, jobs: seq<Job>): (r: seq<Job>)
    ensures |r| == |jobs|
    decreases |jobs|
  {
    if jobs == [] then [] else Insert(key, Sort(key, jobs[..|jobs| - 1]), jobs[|jobs| - 1])
  }

  lemma {:induction false} SortSorts(key: Job -> int, jobs: seq<Job>)
    ensures Sorted(key, Sort(key, jobs))
    decreases |jobs|
  {
    if jobs != [] {
      SortSorts(key, jobs[..|jobs| - 1]);
      InsertSorted(key, Sort(key, jobs[..|jobs| - 1]), jobs[|jobs| - 1]);
    }
  }

  lemma {:induction false} SortPermutes(key: Job -> int, jobs: seq<Job>)
    ensures multiset(Sort(key, jobs)) == multiset(jobs)
    decreases |jobs|
  {
    if jobs != [] {
      var init, last := jobs[..|jobs| - 1], jobs[|jobs| - 1];
      SortPermutes(key, init);
      InsertPermutes(key, Sort(key, init), last);
      assert jobs == init + [last];
    }
  }

  /** Jobs with equal keys come out in the order they went in. */
  lemma {:induction false} SortIsStable(key: Job -> int, jobs: seq<Job>, k: int)
    ensures WithKey(key, Sort(key, jobs), k) == WithKey(key, jobs, k)
    decreases |jobs|
  {
    if jobs != [] {
      var init, last := jobs[..|jobs| - 1], jobs[|jobs| - 1];
      SortIsStable(key, init, k);
      InsertKeepsKeyOrder(key, Sort(key, init), last, k);
      assert jobs == init + [last];
      WithKeyAppend(key, init, [last], k);
    }
  }

  /** The comparator of a sort key name as an ascending key function. */
  function KeyOf(sortBy: string): Job -> int {
    var order := ParseSortBy(sortBy);
    j => Key(order, j)
  }

  /** `sortJobs(jobList, sortBy)`: a sorted copy; the input is a value and
      is not changed. */
  function SortJobs(jobs: seq<Job>, sortBy: string): (r: seq<Job>)
    ensures multiset(r) == multiset(jobs)
    ensures sortBy == "match" ==> forall i, j :: 0 <= i < j < |r| ==> r[i].matchPercentage >= r[j].matchPercentage
    ensures sortBy == "salary" ==> forall i, j :: 0 <= i < j < |r| ==> SalaryValue(r[i].salary) >= SalaryValue(r[j].salary)
    ensures sortBy == "date" ==> forall i, j :: 0 <= i < j < |r| ==> r[i].postedDays <= r[j].postedDays
    ensures forall k :: WithKey(KeyOf(sortBy), r, k) == WithKey(KeyOf(sortBy), jobs, k)
  {
    var r := Sort(KeyOf(sortBy), jobs);
    SortSorts(KeyOf(sortBy), jobs);
    SortPermutes(KeyOf(sortBy), jobs);
    forall k ensures WithKey(KeyOf(sortBy), r, k) == WithKey(KeyOf(sortBy), jobs, k) {
      SortIsStable(KeyOf(sortBy), jobs, k);
    }
    assert forall i, j :: 0 <= i < j < |r| ==> Key(ParseSortBy(sortBy), r[i]) <= Key(ParseSortBy(sortBy), r[j]);
    r
  }

  /** Sorting a list that is already in order leaves it as it is: each job
      goes back behind the ones before it. */
  lemma {:induction false} SortSortedIsIdentity(key: Job -> int, jobs: seq<Job>)
    requires Sorted(key, jobs)
    ensures Sort(key, jobs) == jobs
    decreases |jobs|
  {
    if jobs != [] {
      var init, last := jobs[..|jobs| - 1], jobs[|jobs| - 1];
      assert Sorted(key, init) by {
        assert forall i :: 0 <= i < |init| ==> init[i] == jobs[i];
      }
      SortSortedIsIdentity(key, init);
      assert init == [] || key(init[|init| - 1]) <= key(last);
      assert InsertAt(key, init, last) == |init|;
      assert jobs == init + [last];
    }
  }

  /** An unknown sort key leaves the list exactly as it was. */
  lemma UnknownSortKeepsOrder(jobs: seq<Job>, sortBy: string)
    requires sortBy != "match" && sortBy != "salary" && sortBy != "date"
    ensures SortJobs(jobs, sortBy) == jobs
  {
    SortSortedIsIdentity(KeyOf(sortBy), jobs);
  }

  /** Sorting what is already sorted by the same key changes nothing. */
  lemma SortIdempotent(jobs: seq<Job>, sortBy: string)
    ensures SortJobs(SortJobs(jobs, sortBy), sortBy) == SortJobs(jobs, sortBy)
  {
    SortSortedIsIdentity(KeyOf(sortBy), SortJobs(jobs, sortBy));
  }

  // ---------------------------------------------------------------------------
  // Filters

  /** The work-type filter of `handleSearch`: remote jobs only, on-site
      jobs only, or (for "hybrid" and any other value) every job. */
  function FilterWorkType(jobs: seq<Job>, workType: string): (r: seq<Job>)
    ensures workType == "remote" ==> forall j :: j in r <==> j in jobs && j.remote
    ensures workType == "onsite" ==> forall j :: j in r <==> j in jobs && !j.remote
    ensures workType == "remote" ==> forall j :: multiset(r)[j] == if j.remote then multiset(jobs)[j] else 0
    ensures workType == "onsite" ==> forall j :: multiset(r)[j] == if j.remote then 0 else multiset(jobs)[j]
    ensures workType != "remote" && workType != "onsite" ==> r == jobs
    ensures |r| <= |jobs|
  {
    KeepRemoteCounts(jobs, true);
    KeepRemoteCounts(jobs, false);
    if workType == "remote" then KeepRemote(jobs, true)
    else if workType == "onsite" then KeepRemote(jobs, false)
    else jobs
  }

  /** The jobs whose `remote` flag is `remote`, in order: a single job is
      kept or dropped, and `KeepRemoteAppend` extends that to any list. */
  function KeepRemote(jobs: seq<Job>, remote: bool): (r: seq<Job>)
    ensures |r| <= |jobs|
    ensures forall j :: j in r <==> j in jobs && j.remote == remote
    ensures |jobs| == 1 ==> r == if jobs[0].remote == remote then jobs else []
  {
    if jobs == [] then []
    else
      assert jobs == [jobs[0]] + jobs[1..];
      (if jobs[0].remote == remote then [jobs[0]] else []) + KeepRemote(jobs[1..], remote)
  }

  /** The filter keeps every copy of a job whose flag matches and no copy
      of any other job. */
  lemma {:induction false} KeepRemoteCounts(jobs: seq<Job>, remote: bool)
    ensures forall j :: multiset(KeepRemote(jobs, remote))[j] == if j.remote == remote then multiset(jobs)[j] else 0
    decreases |jobs|
  {
    if jobs != [] {
      KeepRemoteCounts(jobs[1..], remote);
      assert jobs == [jobs[0]] + jobs[1..];
    }
  }

  /** The filter keeps the order of the list: it distributes over
      concatenation. */
  lemma {:induction false} KeepRemoteAppend(a: seq<Job>, b: seq<Job>, remote: bool)
    ensures KeepRemote(a + b, remote) == KeepRemote(a, remote) + KeepRemote(b, remote)
    decreases |a|
  {
    if a == [] {
      assert a + b == b;
    } else {
      var ab := a + b;
      assert ab[0] == a[0] && ab[1..] == a[1..] + b;
      KeepRemoteAppend(a[1..], b, remote);
    }
  }

  datatype AdvancedFilters = AdvancedFilters(
    industries: seq<string>, companySize: string, workType: string, experienceRequired: string)

  datatype SearchCriteria = SearchCriteria(
    skills: seq<string>, experience: string, location: string,
    salaryMin: int, salaryMax: int, jobType: string, remote: bool)

  const DefaultFilters := AdvancedFilters([], "any", "any", "any")
  const DefaultCriteria := SearchCriteria([], "entry", "", 0, 150000, "full-time", false)

  /** The seven filter conditions `getActiveFiltersCount` checks. */
  function ActiveFlags(f: AdvancedFilters, c: SearchCriteria): seq<bool> {
    [ |f.industries| > 0, f.companySize != "any", f.workType != "any",
      f.experienceRequired != "any", c.location != "",
      c.salaryMin > 0 || c.salaryMax < 150000, c.remote ]
  }

  /** `getActiveFiltersCount()` */
  function ActiveFiltersCount(f: AdvancedFilters, c: SearchCriteria): (n: nat)
    ensures n <= 7
    ensures n == 0 <==> forall i :: 0 <= i < 7 ==> !ActiveFlags(f, c)[i]
  {
    CountNone(ActiveFlags(f, c));
    CountTrue(ActiveFlags(f, c))
  }

  lemma {:induction false} CountNone(bs: seq<bool>)
    ensures CountTrue(bs) == 0 <==> forall i :: 0 <= i < |bs| ==> !bs[i]
    decreases |bs|
  {
    if bs != [] {
      CountNone(bs[1..]);
      assert forall i :: 1 <= i < |bs| ==> bs[i] == bs[1..][i - 1];
    }
  }

  /** The criteria and filters the page starts with (and returns to on
      "clear all") count no active filter. */
  lemma DefaultsCountZero(skills: seq<string>, experience: string)
    ensures ActiveFiltersCount(DefaultFilters, DefaultCriteria) == 0
    ensures ActiveFiltersCount(DefaultFilters, DefaultCriteria.(skills := skills, experience := experience)) == 0
  {
  }

  /** `handleSearch` up to the storage write: refuse an empty skill list,
      otherwise filter the matched jobs by work type and sort them. */
  function Search(c: SearchCriteria, f: AdvancedFilters, sortBy: string, matched: seq<Job>): (r: Result<seq<Job>>)
    ensures r.Err? <==> c.skills == []
    ensures r.Ok? ==> multiset(r.value) <= multiset(matched)
    ensures r.Ok? ==> multiset(r.value) == multiset(if f.workType != "any" then FilterWorkType(matched, f.workType) else matched)
    ensures r.Ok? ==> Sorted(KeyOf(sortBy), r.value)
    ensures r.Ok? ==> forall k :: WithKey(KeyOf(sortBy), r.value, k) == WithKey(KeyOf(sortBy), if f.workType != "any" then FilterWorkType(matched, f.workType) else matched, k)
    ensures r.Ok? && f.workType == "remote" ==> forall j :: j in r.value <==> j in matched && j.remote
    ensures r.Ok? && f.workType == "onsite" ==> forall j :: j in r.value <==> j in matched && !j.remote
    ensures r.Ok? && f.workType != "remote" && f.workType != "onsite" ==> multiset(r.value) == multiset(matched)
  {
    if c.skills == [] then Err("Please add at least one skill to search for jobs")
    else
      var kept := if f.workType != "any" then FilterWorkType(matched, f.workType) else matched;
      KeptSubMultiset(matched, f.workType);
      var sorted := SortJobs(kept, sortBy);
      SortSorts(KeyOf(sortBy), kept);
      assert forall j :: j in sorted <==> j in kept by {
        forall j ensures j in sorted <==> j in kept {
          assert j in sorted <==> j in multiset(sorted);
          assert j in kept <==> j in multiset(kept);
        }
      }
      Ok(sorted)
  }

  lemma {:induction false} KeepRemoteSubMultiset(jobs: seq<Job>, remote: bool)
    ensures multiset(KeepRemote(jobs, remote)) <= multiset(jobs)
    decreases |jobs|
  {
    if jobs != [] {
      KeepRemoteSubMultiset(jobs[1..], remote);
      assert jobs == [jobs[0]] + jobs[1..];
    }
  }

  lemma KeptSubMultiset(jobs: seq<Job>, workType: string)
    ensures multiset(FilterWorkType(jobs, workType)) <= multiset(jobs)
  {
    KeepRemoteSubMultiset(jobs, true);
    KeepRemoteSubMultiset(jobs, false);
  }
}

=== FILE: js_number.dfy ===
/** JavaScript's conversion of a JSON value to a number, as the AI answers'
    scores go through it: `x || d` keeps any truthy value, and `Math.min` and
    `Math.max` convert it with `Number(x)`, which is NaN for text that is not
    a number. Numbers are whole here, as `Json.Value` holds them. */
module JsNumber {
  import opened Text
  import Json

  /** A JavaScript number: NaN, or a whole number. */
  datatype Number = NaN | Int(value: int)

  /** The text after an optional leading sign. */
  function Unsigned(s: string): string {
    if s != [] && (s[0] == '+' || s[0] == '-') then s[1..] else s
  }

  predicate AllDigits(s: string) {
    forall k :: 0 <= k < |s| ==> IsDigit(s[k])
  }

  /** An optional sign followed by decimal digits. */
  predicate IsIntegerLiteral(s: string) {
    Unsigned(s) != [] && AllDigits(Unsigned(s))
  }

  /** `Number(s)`: white space around the text is ignored, blank text is 0,
      a signed run of decimal digits is its value, and anything else is
      NaN. */
  function StringToNumber(s: string): (r: Number)
    ensures !HasNonSpace(s) ==> r == Int(0)
    ensures r.NaN? <==> HasNonSpace(s) && !IsIntegerLiteral(Trim(s))
  {
    var t := Trim(s);
    if t == [] then Int(0)
    else if !IsIntegerLiteral(t) then NaN
    else if t[0] == '-' then Int(-(DigitsValue(Unsigned(t)) as int))
    else Int(DigitsValue(Unsigned(t)))
  }

  /** `Number(v)`: null and false are 0, true is 1, text is read as above;
      an array reads as its joined text, so [] is 0, a one-element array
      reads as its element (a boolean element as the text "true" or
      "false"), and a longer array holds a comma; an object is NaN. */
  function ToNumber(v: Json.Value): (r: Number)
    ensures v.Num? ==> r == Int(v.n)
    ensures v.Obj? ==> r == NaN
  {
    match v
    case Null => Int(0)
    case Bool(b) => Int(if b then 1 else 0)
    case Num(n) => Int(n)
    case Str(s) => StringToNumber(s)
    case Arr(items) =>
      if items == [] then Int(0)
      else if |items| == 1 && !items[0].Bool? then ToNumber(items[0])
      else NaN
    case Obj(_) => NaN
  }

  /** `x || d` for a default number `d`. */
  function Or(x: Json.Value, d: int): (r: Json.Value)
    ensures Json.Truthy(r) || r == Json.Num(0)
    ensures Json.Truthy(x) ==> r == x
  {
    if Json.Truthy(x) then x else Json.Num(d)
  }

  /** The given value is truthy and converts to a number. */
  predicate Usable(x: Json.Value) {
    Json.Truthy(x) && ToNumber(x).Int?
  }

  function Min(a: int, b: int): int {
    if a <= b then a else b
  }

  function Max(a: int, b: int): int {
    if a >= b then a else b
  }

  /** `Math.max(lo, Math.min(hi, x))`: NaN if `x` is NaN. */
  function ClampNumber(lo: int, hi: int, x: Number): (r: Number)
    requires lo <= hi
    ensures r.NaN? <==> x.NaN?
    ensures r.Int? ==> lo <= r.value <= hi
    ensures x.Int? && lo <= x.value <= hi ==> r == x
  {
    match x
    case NaN => NaN
    case Int(n) => Int(Max(lo, Min(hi, n)))
  }

  /** `Math.max(lo, Math.min(hi, x || d))` as written: a truthy value that
      is not a number passes through the clamp as NaN. */
  function ClampAsWritten(lo: int, hi: int, x: Json.Value, d: int): (r: Number)
    requires lo <= hi
    ensures r.NaN? <==> Json.Truthy(x) && !Usable(x)
    ensures r.Int? ==> lo <= r.value <= hi
  {
    ClampNumber(lo, hi, ToNumber(Or(x, d)))
  }

  /** The clamp the sanitizers intend: a usable value clamped into range,
      the default for anything else. */
  function ClampOrDefault(lo: int, hi: int, x: Json.Value, d: int): (r: int)
    requires lo <= d <= hi
    ensures lo <= r <= hi
    ensures !Usable(x) ==> r == d
    ensures Usable(x) && lo <= ToNumber(x).value <= hi ==> r == ToNumber(x).value
    ensures Usable(x) && ToNumber(x).value < lo ==> r == lo
    ensures Usable(x) && ToNumber(x).value > hi ==> r == hi
  {
    if Usable(x) then Max(lo, Min(hi, ToNumber(x).value)) else d
  }

  /** The two agree wherever the code as written yields a number. */
  lemma AsWrittenAgreesOnNumbers(lo: int, hi: int, x: Json.Value, d: int)
    requires lo <= d <= hi
    ensures ClampAsWritten(lo, hi, x, d).Int? ==> ClampAsWritten(lo, hi, x, d) == Int(ClampOrDefault(lo, hi, x, d))
  {
  }

  /** Text that reads as a number counts as that number: "80" is 80. */
  lemma QuotedScoreIsRead()
    ensures ToNumber(Json.Str("80")) == Int(80)
    ensures ClampOrDefault(15, 95, Json.Str("80"), 50) == 80
  {
    assert !IsSpace("80"[0]) && !IsSpace("80"[1]);
    assert TrimStartIndex("80") == 0;
    assert TrimEndIndex("80") == 2;
    assert Trim("80") == "80";
    assert Unsigned("80") == "80";
    assert IsDigit("80"[0]) && IsDigit("80"[1]);
    assert IsIntegerLiteral("80");
    assert "80"[..1] == "8" && "8"[..0] == [];
    assert DigitsValue("8") == 8;
    assert DigitsValue("80") == 80;
  }

  /** A word in place of a score escapes the clamp as NaN. */
  lemma WordScoreEscapesRange()
    ensures ClampAsWritten(15, 95, Json.Str("high"), 50) == NaN
    ensures ClampOrDefault(15, 95, Json.Str("high"), 50) == 50
  {
    assert HasNonSpace("high") by {
      assert !IsSpace("high"[0]);
    }
    assert TrimStartIndex("high") == 0;
    var t := Trim("high");
    assert t[0] == 'h';
    assert Unsigned(t) == t;
    assert !IsIntegerLiteral(t);
  }
}

=== FILE: json.dfy ===
/** JSON-shaped values as the application stores and passes them around, with
    JavaScript truthiness. */
module Json {

  datatype Value =
    | Null
    | Bool(b: bool)
    | Num(n: int)
    | Str(s: string)
    | Arr(items: seq<Value>)
    | Obj(fields: map<string, Value>)

  /** JavaScript truthiness: null, false, 0 and "" are falsy, every array and
      object is truthy. */
  predicate Truthy(v: Value) {
    match v
    case Null => false
    case Bool(b) => b
    case Num(n) => n != 0
    case Str(s) => s != ""
    case Arr(_) => true
    case Obj(_) => true
  }
}

=== FILE: resume_analysis.dfy ===
/** The resume analysis of src/utils/geminiApi.js: the local classifier and
    scorer `performAdvancedTextAnalysisUltraStrict`, and the post-processing
    of an AI answer by `applyUltraStrictValidation` and
    `sanitizeAnalysisData`.

    A report is split into its verdict (classification and scores), its
    feedback lists and its text statistics. The verdicts are pure functions
    that carry the properties; methods assemble whole reports. The
    `Math.random` draws are parameters with their ranges. */
module ResumeAnalysis {
  import opened Wrappers
  import opened Text
  import Json
  import opened ResumeFeatures
  import opened ResumeScoring
  import opened ResumeFeedback
  import JsNumber

  // ---------------------------------------------------------------------------
  // Reports

  /** Classification and scores of a report. */
  datatype Verdict = Verdict(
    isActualResume: bool,
    contentType: string,
    overallScore: int,
    scores: Scores,
    atsScore: int)

  /** The statistics block of a report. The local analysis stores the number
      of sections found; the sanitized AI report stores the section flags. */
  datatype TextStats =
    | LocalStats(wordCount: nat, lineCount: nat, sectionsFound: nat, skillsFound: nat,
                 keywordsFound: nat, certificateWords: nat)
    | CheckedStats(wordCount: nat, lineCount: nat, sections: Sections, skillsFound: nat,
                   certificateDetected: bool)

  datatype Report = Report(verdict: Verdict, feedback: Feedback, textStats: TextStats, analysisMethod: string)

  /** The documented score ranges of every report. */
  predicate WithinRanges(v: Verdict) {
    && 15 <= v.overallScore <= 95
    && AllWithin(v.scores, 15, 95)
    && 20 <= v.atsScore <= 100
  }

  // ---------------------------------------------------------------------------
  // Random draws

  /** `Math.floor(Math.random() * 15)` */
  type Roll15 = k: int | 0 <= k < 15
  /** `Math.floor(Math.random() * 12)` */
  type Roll12 = k: int | 0 <= k < 12
  /** `Math.floor(Math.random() * 10)` */
  type Roll10 = k: int | 0 <= k < 10

  /** The draws one analysis may use: the local certificate and "other"
      scores, and the two forced scores of the AI validation. The local
      resume branch also draws a score, but overwrites it with the mean. */
  datatype Dice = Dice(certificate: Roll15, other: Roll12, aiCertificate: Roll10, aiMissing: Roll12)

  function Max2(a: int, b: int): int {
    if a >= b then a else b
  }

  /** `Math.max(lo, Math.min(hi, x))` */
  function Clamp(lo: int, hi: int, x: int): (r: int)
    requires lo <= hi
    ensures lo <= r <= hi
    ensures lo <= x <= hi ==> r == x
    ensures x < lo ==> r == lo
    ensures hi < x ==> r == hi
  {
    Max2(lo, Min(hi, x))
  }

  // ---------------------------------------------------------------------------
  // Local classification

  const CertificateWords: seq<string> :=
    ["certificate", "certification", "completion", "awarded", "training", "course", "program"]
  const ResumeWords: seq<string> :=
    ["experience", "employment", "skills", "developer", "engineer", "manager"]
  const WorkWords: seq<string> := ["experience", "employment", "worked", "job"]

  /** `/@/.test(text)` */
  predicate HasEmail(text: string) {
    '@' in text
  }

  predicate Separator(c: char) {
    c == '-' || c == '.' || IsSpace(c)
  }

  /** `\d{3}[-.\s]\d{3}[-.\s]\d{4}` matches at `i`. */
  predicate PhoneAt(t: string, i: int) {
    && DigitsAt(t, i, 3) && DigitsAt(t, i + 8, 4) && DigitsAt(t, i + 4, 3)
    && Separator(t[i + 3]) && Separator(t[i + 7])
  }

  predicate HasPhone(text: string) {
    exists i :: 0 <= i <= |text| && PhoneAt(text, i)
  }

  predicate HasContact(text: string) {
    HasEmail(text) || HasPhone(text)
  }

  predicate HasCertificateWord(text: string) {
    ContainsAny(Lower(text), CertificateWords)
  }

  /** The second rule of the classifier: enough resume words, a work marker,
      a way to reach the candidate and at least 100 words longer than two
      characters. */
  predicate QualifiesAsResume(text: string) {
    var t := Lower(text);
    && |Found(ResumeWords, t)| >= 3
    && ContainsAny(t, WorkWords)
    && HasContact(text)
    && LongWordCount(t) >= 100
  }

  datatype Kind = CertificateKind | ResumeKind | OtherKind

  const CertificateType := "certificate"
  const ResumeType := "resume"
  const OtherType := "other"

  function KindName(k: Kind): string {
    match k
    case CertificateKind => CertificateType
    case ResumeKind => ResumeType
    case OtherKind => OtherType
  }

  /** The strict first-match classification of the local analysis. */
  function Classify(text: string): (k: Kind)
    ensures k == CertificateKind <==> HasCertificateWord(text)
    ensures k == ResumeKind <==> !HasCertificateWord(text) && QualifiesAsResume(text)
  {
    var t := Lower(text);
    FoundNonEmpty(CertificateWords, t);
    if |Found(CertificateWords, t)| >= 1 then CertificateKind
    else if QualifiesAsResume(text) then ResumeKind
    else OtherKind
  }

  // ---------------------------------------------------------------------------
  // Local scoring

  /** Category scores of a rejected document: fixed offsets from its overall
      score, with a lower experience and a higher education score for a
      certificate. */
  function PenaltyScores(overall: int, certificate: bool): (s: Scores)
    ensures 15 <= overall <= 29 ==> AllWithin(s, 15, 95)
    ensures 15 <= overall ==> s.education == overall + (if certificate then 20 else 0)
    ensures s.format == Max2(20, overall + 5)
    ensures s.quality >= s.skills && s.quality >= s.experience
  {
    Scores(
      Max2(15, overall - 5),
      Max2(15, overall - 10),
      Max2(15, if certificate then overall - 15 else overall - 8),
      Max2(15, if certificate then overall + 20 else overall),
      Max2(20, overall + 5))
  }

  /** The five rubric scores of a document accepted as a resume. */
  function RubricScores(text: string): (s: Scores)
    ensures 35 <= s.quality <= 95 && 25 <= s.skills <= 95 && 30 <= s.experience <= 95
    ensures 45 <= s.education <= 95 && 50 <= s.format <= 95
  {
    var t := Lower(text);
    var sections := DetectSections(text);
    Scores(
      QualityScore(text, sections, LongWordCount(t)),
      SkillsScore(ExtractSkills(t), ExtractKeywords(t)),
      ExperienceScore(sections, text),
      EducationScore(sections, t),
      FormattingScore(NonBlankLineCount(text), text))
  }

  /** The verdict on a document accepted as a resume: the rubric scores,
      their rounded mean and the ATS rubric's score. */
  function ResumeVerdict(scores: Scores, ats: int): (v: Verdict)
    requires && 35 <= scores.quality <= 95 && 25 <= scores.skills <= 95 && 30 <= scores.experience <= 95
             && 45 <= scores.education <= 95 && 50 <= scores.format <= 95
    requires 50 <= ats <= 99
    ensures v.isActualResume && v.contentType == ResumeType
    ensures WithinRanges(v)
    ensures v.overallScore == Mean(v.scores) && 50 <= v.atsScore <= 100
    ensures v.scores == scores && v.atsScore == ats
  {
    MeanWithin(scores, 25, 95);
    Verdict(true, ResumeType, Mean(scores), scores, ats)
  }

  /** The verdict on a rejected document: penalty scores around the drawn
      overall score, and an ATS score just above it. */
  function RejectionVerdict(kind: Kind, overall: int): (v: Verdict)
    requires kind != ResumeKind && 15 <= overall <= 29
    ensures !v.isActualResume && v.contentType == KindName(kind) && v.overallScore == overall
    ensures WithinRanges(v)
    ensures v.scores == PenaltyScores(overall, kind == CertificateKind)
    ensures v.atsScore == overall + 5
  {
    Verdict(false, KindName(kind), overall, PenaltyScores(overall, kind == CertificateKind),
            Max2(20, overall + 5))
  }

  /** The verdict of `performAdvancedTextAnalysisUltraStrict(text)`: classify
      with strict priority, then score by the rubrics or by the penalty
      offsets. This verdict is returned as it is, without the sanitizing
      step. */
  function LocalVerdict(text: string, dice: Dice): (v: Verdict)
    ensures v.contentType == CertificateType <==> HasCertificateWord(text)
    ensures v.isActualResume <==> !HasCertificateWord(text) && QualifiesAsResume(text)
    ensures v.contentType == ResumeType <==> v.isActualResume
    ensures v.contentType in {CertificateType, ResumeType, OtherType}
    ensures WithinRanges(v)
    ensures v.isActualResume ==> v.overallScore == Mean(v.scores) && 50 <= v.atsScore <= 100
    ensures v.isActualResume ==>
      && 35 <= v.scores.quality && 25 <= v.scores.skills && 30 <= v.scores.experience
      && 45 <= v.scores.education && 50 <= v.scores.format
    ensures v.contentType == CertificateType ==> 15 <= v.overallScore <= 29
    ensures v.contentType == OtherType ==> 18 <= v.overallScore <= 29
    ensures !v.isActualResume ==>
      && v.scores == PenaltyScores(v.overallScore, v.contentType == CertificateType)
      && v.atsScore == v.overallScore + 5
  {
    match Classify(text)
    case ResumeKind =>
      ResumeVerdict(RubricScores(text), ATSScore(DetectSections(text), ExtractKeywords(Lower(text))))
    case CertificateKind => RejectionVerdict(CertificateKind, 15 + dice.certificate)
    case OtherKind => RejectionVerdict(OtherKind, 18 + dice.other)
  }

  const LocalMethod := "Ultra-Strict Advanced Text Analysis"

  /** The statistics the local analysis reports. */
  method LocalStatsOf(text: string) returns (stats: TextStats)
    ensures stats.LocalStats? && stats.sectionsFound <= 8 && stats.certificateWords <= |CertificateWords|
    ensures stats.certificateWords > 0 <==> HasCertificateWord(text)
  {
    var t := Lower(text);
    FoundNonEmpty(CertificateWords, t);
    stats := LocalStats(LongWordCount(t), NonBlankLineCount(text), SectionCount(DetectSections(text)),
                        |ExtractSkills(t)|, |ExtractKeywords(t)|, |Found(CertificateWords, t)|);
  }

  /** The feedback of the local analysis: the rule-based lists for a resume,
      the fixed non-resume lists naming the content type otherwise. */
  method LocalFeedback(text: string, v: Verdict) returns (f: Feedback)
    ensures |f.strengths| >= 1 && |f.improvements| >= 1
    ensures v.isActualResume ==> |f.strengths| <= 5 && |f.improvements| <= 6 && f.recommendations == Recommendations
    ensures !v.isActualResume ==> f == NonResumeFeedback(v.contentType)
  {
    if v.isActualResume {
      var t := Lower(text);
      f := IntelligentFeedback(text, v.scores, ExtractSkills(t), DetectSections(text), ExtractKeywords(t));
    } else {
      f := NonResumeFeedback(v.contentType);
    }
  }

  /** `performAdvancedTextAnalysisUltraStrict(text)` as a whole report. */
  method AnalyzeLocally(text: string, dice: Dice) returns (r: Report)
    ensures r.verdict == LocalVerdict(text, dice)
    ensures |r.feedback.strengths| >= 1 && |r.feedback.improvements| >= 1
    ensures r.verdict.isActualResume ==> r.feedback.recommendations == Recommendations
    ensures !r.verdict.isActualResume ==> r.feedback.improvements[0] == NotAResume(r.verdict.contentType)
    ensures r.textStats.LocalStats? && (r.textStats.certificateWords > 0 <==> HasCertificateWord(text))
  {
    var v := LocalVerdict(text, dice);
    var f := LocalFeedback(text, v);
    var stats := LocalStatsOf(text);
    r := Report(v, f, stats, LocalMethod);
  }

  // ---------------------------------------------------------------------------
  // Sanitizing an AI answer

  /** An AI answer after JSON parsing. The numeric fields keep the raw
      value, `Null` when absent, because the code reads them through `||`
      and `Number`. The text fields are `None` when absent or null; the list
      fields are `None` when not arrays, which is what `Array.isArray`
      tests. The list elements are taken to be text, where the code keeps
      any JSON element; nothing here depends on the element type.
      `isActualResume` keeps the raw value because the code tests it both
      for truthiness and for identity. */
  datatype AiScores = AiScores(
    quality: Json.Value, skills: Json.Value, experience: Json.Value,
    education: Json.Value, format: Json.Value)

  datatype AiData = AiData(
    isActualResume: Json.Value,
    contentType: Option<string>,
    overallScore: Json.Value,
    scores: Option<AiScores>,
    atsScore: Json.Value,
    strengths: Option<seq<string>>,
    improvements: Option<seq<string>>,
    recommendations: Option<seq<string>>,
    certificateDetected: Option<bool>,
    analysisMethod: Option<string>)

  /** `o || d` for a string. */
  function OrStr(o: Option<string>, d: string): string {
    if o.Some? && o.value != [] then o.value else d
  }

  /** A string interpolation of an optional string, `None` standing for a
      missing field, which prints as "undefined". A JSON null would print
      as "null", but the validated path always sets the content type
      (geminiApi.js:226), so the sanitizer never prints either there. */
  function Interpolate(o: Option<string>): string {
    if o.Some? then o.value else "undefined"
  }

  /** `Math.max(15, Math.min(95, given || default))`, with a value that is
      not a number taking the default instead of becoming NaN: a falsy
      value takes the default, a number (or text that reads as one) is
      clamped. */
  function CleanScore(given: Json.Value, default: int): (r: int)
    requires 15 <= default <= 95
    ensures 15 <= r <= 95
    ensures !JsNumber.Usable(given) ==> r == default
    ensures JsNumber.Usable(given) && 15 <= JsNumber.ToNumber(given).value <= 95 ==> r == JsNumber.ToNumber(given).value
    ensures JsNumber.Usable(given) && JsNumber.ToNumber(given).value > 95 ==> r == 95
    ensures JsNumber.Usable(given) && JsNumber.ToNumber(given).value < 15 ==> r == 15
    ensures JsNumber.ClampAsWritten(15, 95, given, default).Int? ==>
      JsNumber.ClampAsWritten(15, 95, given, default) == JsNumber.Int(r)
  {
    JsNumber.AsWrittenAgreesOnNumbers(15, 95, given, default);
    JsNumber.ClampOrDefault(15, 95, given, default)
  }

  /** `data.scores?.x` reads every score of a missing block as absent. */
  function ScoresOrAbsent(s: Option<AiScores>): AiScores {
    if s.Some? then s.value else AiScores(Json.Null, Json.Null, Json.Null, Json.Null, Json.Null)
  }

  /** The per-category defaults of the sanitizer, for a truthy and for a
      falsy `isActualResume`. */
  function DefaultScores(actual: bool): Scores {
    if actual then Scores(50, 45, 55, 60, 65) else Scores(25, 20, 18, 30, 35)
  }

  /** The sanitized category scores. */
  function SanitizeScores(given: AiScores, actual: bool): (s: Scores)
    ensures AllWithin(s, 15, 95)
    ensures !JsNumber.Usable(given.quality) ==> s.quality == DefaultScores(actual).quality
    ensures !JsNumber.Usable(given.skills) ==> s.skills == DefaultScores(actual).skills
    ensures !JsNumber.Usable(given.experience) ==> s.experience == DefaultScores(actual).experience
    ensures !JsNumber.Usable(given.education) ==> s.education == DefaultScores(actual).education
    ensures !JsNumber.Usable(given.format) ==> s.format == DefaultScores(actual).format
    ensures JsNumber.Usable(given.quality) && 15 <= JsNumber.ToNumber(given.quality).value <= 95 ==>
      s.quality == JsNumber.ToNumber(given.quality).value
    ensures JsNumber.Usable(given.skills) && 15 <= JsNumber.ToNumber(given.skills).value <= 95 ==>
      s.skills == JsNumber.ToNumber(given.skills).value
    ensures JsNumber.Usable(given.experience) && 15 <= JsNumber.ToNumber(given.experience).value <= 95 ==>
      s.experience == JsNumber.ToNumber(given.experience).value
    ensures JsNumber.Usable(given.education) && 15 <= JsNumber.ToNumber(given.education).value <= 95 ==>
      s.education == JsNumber.ToNumber(given.education).value
    ensures JsNumber.Usable(given.format) && 15 <= JsNumber.ToNumber(given.format).value <= 95 ==>
      s.format == JsNumber.ToNumber(given.format).value
  {
    var d := DefaultScores(actual);
    Scores(
      CleanScore(given.quality, d.quality),
      CleanScore(given.skills, d.skills),
      CleanScore(given.experience, d.experience),
      CleanScore(given.education, d.education),
      CleanScore(given.format, d.format))
  }

  /** The verdict part of `sanitizeAnalysisData(data, text)`. */
  function SanitizeVerdict(data: AiData): (v: Verdict)
    ensures WithinRanges(v)
    ensures v.isActualResume <==> data.isActualResume == Json.Bool(true)
    ensures v.scores == SanitizeScores(ScoresOrAbsent(data.scores), Json.Truthy(data.isActualResume))
    ensures JsNumber.Usable(data.overallScore) && 15 <= JsNumber.ToNumber(data.overallScore).value <= 95 ==>
      v.overallScore == JsNumber.ToNumber(data.overallScore).value
    ensures !JsNumber.Usable(data.overallScore) ==> v.overallScore == Mean(v.scores)
    ensures JsNumber.Usable(data.atsScore) && 20 <= JsNumber.ToNumber(data.atsScore).value <= 100 ==>
      v.atsScore == JsNumber.ToNumber(data.atsScore).value
    ensures !JsNumber.Usable(data.atsScore) ==> v.atsScore == (if Json.Truthy(data.isActualResume) then 75 else 30)
    ensures v.contentType != []
    ensures data.contentType.Some? && data.contentType.value != [] ==> v.contentType == data.contentType.value
  {
    var actual := Json.Truthy(data.isActualResume);
    var scores := SanitizeScores(ScoresOrAbsent(data.scores), actual);
    MeanWithin(scores, 15, 95);
    Verdict(
      data.isActualResume == Json.Bool(true),
      OrStr(data.contentType, OtherType),
      JsNumber.ClampOrDefault(15, 95, data.overallScore, Mean(scores)),
      scores,
      JsNumber.ClampOrDefault(20, 100, data.atsScore, if actual then 75 else 30))
  }

  /** `Array.isArray(given) ? given.slice(0, 5) : default` */
  function SanitizeList(given: Option<seq<string>>, default: seq<string>): (r: seq<string>)
    ensures given.Some? ==> |r| <= 5 && r <= given.value
    ensures given.Some? && |given.value| <= 5 ==> r == given.value
    ensures given.None? ==> r == default
  {
    if given.None? then default
    else if |given.value| <= 5 then given.value
    else given.value[..5]
  }

  const DefaultResumeStrengths: seq<string> :=
    ["Resume shows professional structure", "Contains relevant work experience", "Skills section is present"]
  const DefaultResumeImprovements: seq<string> :=
    ["Add more quantified achievements", "Include relevant keywords", "Improve formatting consistency"]
  const DefaultResumeRecommendations: seq<string> :=
    ["Use action verbs to start bullet points", "Quantify achievements with numbers",
     "Tailor keywords to job descriptions"]
  const DefaultOtherStrengths: seq<string> := ["Document is readable"]
  const UploadActualResume := "Upload an actual resume with work experience"
  const DefaultOtherRecommendations: seq<string> :=
    ["Create a professional resume", "Include work experience and skills"]

  /** The default first improvement for a rejected document. */
  function ThisIsA(contentType: Option<string>): string {
    "This is a " + Interpolate(contentType) + ", not a professional resume"
  }

  /** The feedback part of `sanitizeAnalysisData(data, text)`: each list the
      AI gave, cut to five, or the defaults for its verdict. */
  function SanitizeFeedback(data: AiData): (f: Feedback)
    ensures |f.strengths| <= 5 && |f.improvements| <= 5 && |f.recommendations| <= 5
    ensures data.strengths.Some? ==> f.strengths <= data.strengths.value
    ensures data.improvements.Some? ==> f.improvements <= data.improvements.value
    ensures data.recommendations.Some? ==> f.recommendations <= data.recommendations.value
    ensures data.strengths.None? ==> |f.strengths| >= 1
    ensures data.improvements.None? ==> |f.improvements| >= 1
    ensures data.recommendations.None? ==> |f.recommendations| >= 1
    ensures data.improvements.None? && !Json.Truthy(data.isActualResume) ==>
      f.improvements[0] == ThisIsA(data.contentType)
  {
    var actual := Json.Truthy(data.isActualResume);
    Feedback(
      SanitizeList(data.strengths, if actual then DefaultResumeStrengths else DefaultOtherStrengths),
      SanitizeList(data.improvements,
        if actual then DefaultResumeImprovements else [ThisIsA(data.contentType), UploadActualResume]),
      SanitizeList(data.recommendations,
        if actual then DefaultResumeRecommendations else DefaultOtherRecommendations))
  }

  /** The statistics of a sanitized report. */
  function CheckedStatsOf(data: AiData, text: string): TextStats {
    CheckedStats(LongWordCount(text), NonBlankLineCount(text), DetectSections(text),
                 |ExtractSkills(Lower(text))|, data.certificateDetected == Some(true))
  }

  /** `sanitizeAnalysisData(data, text)` as a whole report. */
  method Sanitize(data: AiData, text: string) returns (r: Report)
    ensures r.verdict == SanitizeVerdict(data) && r.feedback == SanitizeFeedback(data)
    ensures r.textStats.CheckedStats? && (r.textStats.certificateDetected <==> data.certificateDetected == Some(true))
    ensures r.analysisMethod != []
  {
    r := Report(SanitizeVerdict(data), SanitizeFeedback(data), CheckedStatsOf(data, text),
                OrStr(data.analysisMethod, "Ultra-Strict AI Analysis"));
  }

  // ---------------------------------------------------------------------------
  // Validating an AI answer

  const StrictCertificateWords: seq<string> := [
    "certificate", "certification", "completion", "awarded", "training",
    "course", "program", "workshop", "seminar", "hereby certify",
    "has successfully completed", "course completion"]
  const StrictWorkWords: seq<string> :=
    ["experience", "employment", "worked", "job", "developer", "engineer", "manager"]

  predicate HasStrictCertificateWord(text: string) {
    ContainsAny(Lower(text), StrictCertificateWords)
  }

  predicate HasStrictWorkMarker(text: string) {
    ContainsAny(Lower(text), StrictWorkWords)
  }

  /** The AI verdict survives only for a document with a work marker, a way
      of contact and no certificate word. */
  predicate LocallyValidated(text: string) {
    !HasStrictCertificateWord(text) && HasStrictWorkMarker(text) && HasContact(text)
  }

  /** The seven words of the local classifier are the first seven of the
      validation's list, so the validation vetoes whatever the classifier
      would. */
  lemma CertificateWordsAreStrict(text: string)
    ensures HasCertificateWord(text) ==> HasStrictCertificateWord(text)
  {
    if HasCertificateWord(text) {
      var k :| 0 <= k < |CertificateWords| && Contains(Lower(text), CertificateWords[k]);
      assert StrictCertificateWords[k] == CertificateWords[k];
    }
  }

  /** The score a validated resume keeps: `Math.max(50, Math.min(95, x))`.
      JSON has no NaN, so the NaN that text which is not a number turns into
      is kept as null, which the sanitizer's `||` treats the same way. */
  function ValidatedOverall(x: Json.Value): (r: Json.Value)
    ensures JsNumber.ToNumber(x).Int? ==> r.Num? && 50 <= r.n <= 95
    ensures JsNumber.ToNumber(x).Int? && 50 <= JsNumber.ToNumber(x).value <= 95 ==> r == Json.Num(JsNumber.ToNumber(x).value)
    ensures JsNumber.ToNumber(x).NaN? ==> r == Json.Null
  {
    match JsNumber.ToNumber(x)
    case Int(k) => Json.Num(Clamp(50, 95, k))
    case NaN => Json.Null
  }

  /** The overrides of `applyUltraStrictValidation(data, text)`, applied to
      the AI answer before it is sanitized. */
  function Override(data: AiData, text: string, dice: Dice): (d: AiData)
    ensures d.isActualResume == Json.Bool(data.isActualResume != Json.Bool(false) && LocallyValidated(text))
    ensures d.certificateDetected == Some(HasStrictCertificateWord(text))
    ensures HasStrictCertificateWord(text) ==> d.contentType == Some(CertificateType)
    ensures !LocallyValidated(text) ==> d.overallScore.Num? && 18 <= d.overallScore.n <= 29
    ensures d.isActualResume == Json.Bool(true) && JsNumber.Usable(data.overallScore) ==>
      d.overallScore.Num? && 50 <= d.overallScore.n <= 95
    ensures d.isActualResume == Json.Bool(true) && !Json.Truthy(data.overallScore) ==> d.overallScore == Json.Num(50)
    ensures d.isActualResume == Json.Bool(true) && Json.Truthy(data.overallScore) && !JsNumber.Usable(data.overallScore) ==>
      d.overallScore == Json.Null
    ensures LocallyValidated(text) && data.isActualResume == Json.Bool(false) ==>
      d.overallScore == JsNumber.Or(data.overallScore, 50)
    ensures d.contentType.Some? && d.contentType.value != []
    ensures d.scores == data.scores && d.atsScore == data.atsScore
    ensures d.strengths == data.strengths && d.improvements == data.improvements
    ensures d.recommendations == data.recommendations && d.analysisMethod == data.analysisMethod
  {
    var t := Lower(text);
    FoundNonEmpty(StrictCertificateWords, t);
    var certificate := |Found(StrictCertificateWords, t)| >= 1;
    var work := HasStrictWorkMarker(text);
    var contact := HasContact(text);
    var actual0 := data.isActualResume != Json.Bool(false);
    var overall0 := JsNumber.Or(data.overallScore, 50);
    var contentType0 := OrStr(data.contentType, ResumeType);
    var actual1 := if certificate then false else actual0;
    var contentType1 := if certificate then CertificateType else contentType0;
    var overall1 := if certificate then Json.Num(Clamp(15, 30, 20 + dice.aiCertificate)) else overall0;
    var actual2 := if !work || !contact then false else actual1;
    var overall2 := if !work || !contact then Json.Num(Clamp(15, 30, 18 + dice.aiMissing)) else overall1;
    var overall3 := if actual2 && !certificate && work && contact then ValidatedOverall(overall2) else overall2;
    data.(isActualResume := Json.Bool(actual2), contentType := Some(contentType1),
          overallScore := overall3, certificateDetected := Some(certificate))
  }

  /** The verdict of `applyUltraStrictValidation(data, text)`: the local
      checks veto the AI, then the answer is sanitized. A validated resume
      keeps an AI score of at least 50; one whose score is text that is not
      a number gets the mean of its category scores. */
  function ValidatedVerdict(data: AiData, text: string, dice: Dice): (v: Verdict)
    ensures WithinRanges(v)
    ensures HasStrictCertificateWord(text) ==>
      !v.isActualResume && v.contentType == CertificateType && 18 <= v.overallScore <= 29
    ensures !HasStrictWorkMarker(text) || !HasContact(text) ==>
      !v.isActualResume && 18 <= v.overallScore <= 29
    ensures v.isActualResume <==> data.isActualResume != Json.Bool(false) && LocallyValidated(text)
    ensures v.isActualResume && (JsNumber.Usable(data.overallScore) || !Json.Truthy(data.overallScore)) ==>
      50 <= v.overallScore
    ensures v.isActualResume && Json.Truthy(data.overallScore) && !JsNumber.Usable(data.overallScore) ==>
      v.overallScore == Mean(v.scores)
  {
    SanitizeVerdict(Override(data, text, dice))
  }

  /** `applyUltraStrictValidation(data, text)` as a whole report. */
  method ValidateAi(data: AiData, text: string, dice: Dice) returns (r: Report)
    ensures r.verdict == ValidatedVerdict(data, text, dice)
    ensures |r.feedback.strengths| <= 5 && |r.feedback.improvements| <= 5 && |r.feedback.recommendations| <= 5
    ensures data.strengths.Some? ==> r.feedback.strengths <= data.strengths.value
    ensures data.improvements.Some? ==> r.feedback.improvements <= data.improvements.value
    ensures data.recommendations.Some? ==> r.feedback.recommendations <= data.recommendations.value
    ensures r.textStats.CheckedStats? && (r.textStats.certificateDetected <==> HasStrictCertificateWord(text))
  {
    var d := Override(data, text, dice);
    r := Sanitize(d, text);
  }
}

=== FILE: resume_features.dfy ===
/** Feature extraction of the resume engine: section detection, vocabulary
    look-ups, pattern counts and the education-level table
    (src/utils/geminiApi.js). All look-ups are substring tests on the
    lower-cased text, as in the source. */
module ResumeFeatures {
  import opened Text
  import opened Wrappers

  /** Which of the eight resume sections were detected. */
  datatype Sections = Sections(
    summary: bool,
    experience: bool,
    education: bool,
    skills: bool,
    projects: bool,
    certifications: bool,
    contact: bool,
    achievements: bool)

  function Flags(s: Sections): seq<bool> {
    [s.summary, s.experience, s.education, s.skills,
     s.projects, s.certifications, s.contact, s.achievements]
  }

  function CountTrue(bs: seq<bool>): (n: nat)
    ensures n <= |bs|
  {
    if bs == [] then 0 else (if bs[0] then 1 else 0) + CountTrue(bs[1..])
  }

  /** `Object.values(sections).filter(Boolean).length` */
  function SectionCount(s: Sections): (n: nat)
    ensures n <= 8
  {
    CountTrue(Flags(s))
  }

  const SummaryWords: seq<string> := ["summary", "profile", "about", "objective"]
  const ExperienceWords: seq<string> :=
    ["experience", "work", "employment", "career", "professional", "history"]
  const EducationWords: seq<string> :=
    ["education", "academic", "degree", "university", "college", "school"]
  const SkillsWords: seq<string> :=
    ["skills", "competencies", "technologies", "technical", "proficiencies"]
  const ProjectsWords: seq<string> := ["projects", "portfolio", "work samples"]
  const CertificationsWords: seq<string> :=
    ["certifications", "certificates", "licenses", "credentials"]
  const ContactWords: seq<string> :=
    ["contact", "phone", "email", "address", "linkedin", "github"]
  const AchievementsWords: seq<string> :=
    ["achievements", "awards", "honors", "recognition"]

  /** `detectSections`: one case-insensitive alternation per section. */
  function DetectSections(resumeText: string): Sections {
    var t := Lower(resumeText);
    Sections(
      ContainsAny(t, SummaryWords),
      ContainsAny(t, ExperienceWords),
      ContainsAny(t, EducationWords),
      ContainsAny(t, SkillsWords),
      ContainsAny(t, ProjectsWords),
      ContainsAny(t, CertificationsWords),
      ContainsAny(t, ContactWords),
      ContainsAny(t, AchievementsWords))
  }

  const SkillVocabulary: seq<string> := [
    "javascript", "typescript", "python", "java", "c++", "c#", "php", "ruby", "go", "rust", "kotlin", "swift",
    "react", "angular", "vue", "nodejs", "express", "html", "css", "sass", "scss", "tailwind",
    "mongodb", "mysql", "postgresql", "redis", "sqlite", "oracle", "firebase",
    "aws", "azure", "gcp", "docker", "kubernetes", "jenkins", "terraform", "ansible",
    "git", "github", "gitlab", "jira", "confluence", "figma", "sketch", "photoshop",
    "sql", "tableau", "power bi", "excel", "r", "matlab", "pandas", "numpy",
    "leadership", "communication", "teamwork", "management", "problem solving", "analytical thinking"]

  const KeywordVocabulary: seq<string> := [
    "agile", "scrum", "api", "rest", "microservices", "ci/cd", "testing", "debugging",
    "optimization", "performance", "scalability", "security", "authentication", "authorization"]

  /** `extractSkills(text)` on already lower-cased text. */
  function ExtractSkills(text: string): (r: seq<string>)
    ensures |r| <= |SkillVocabulary|
    ensures forall w :: w in r <==> w in SkillVocabulary && Contains(text, w)
  {
    Found(SkillVocabulary, text)
  }

  /** `extractKeywords(text)` on already lower-cased text. */
  function ExtractKeywords(text: string): (r: seq<string>)
    ensures |r| <= |KeywordVocabulary|
    ensures forall w :: w in r <==> w in KeywordVocabulary && Contains(text, w)
  {
    Found(KeywordVocabulary, text)
  }

  /** The five skill categories of `categorizeSkills`. */
  const SkillCategories: seq<seq<string>> := [
    ["javascript", "python", "java", "typescript"],
    ["react", "angular", "vue", "nodejs"],
    ["mongodb", "mysql", "postgresql"],
    ["aws", "azure", "gcp", "docker"],
    ["git", "jira", "figma"]]

  /** Some skill of the list contains one of the category's entries. */
  predicate Covers(skills: seq<string>, category: seq<string>) {
    exists s :: s in skills && ContainsAny(s, category)
  }

  function CountCovered(categories: seq<seq<string>>, skills: seq<string>): (n: nat)
    ensures n <= |categories|
  {
    if categories == [] then 0
    else (if Covers(skills, categories[0]) then 1 else 0) + CountCovered(categories[1..], skills)
  }

  /** `Object.keys(categorizeSkills(skills)).length`: the number of
      categories that hold at least one of the skills. */
  function CategoryCount(skills: seq<string>): (n: nat)
    ensures n <= 5
  {
    CountCovered(SkillCategories, skills)
  }

  /** More skills never cover fewer categories. */
  lemma {:induction false} CountCoveredMonotone(categories: seq<seq<string>>, a: seq<string>, b: seq<string>)
    requires forall s :: s in a ==> s in b
    ensures CountCovered(categories, a) <= CountCovered(categories, b)
  {
    if categories != [] {
      CountCoveredMonotone(categories[1..], a, b);
    }
  }

  /** `getEducationLevel(text)`: points for the highest credential named, on
      lower-cased text. */
  function EducationLevel(text: string): (points: int)
    ensures points in {10, 15, 20, 25, 30}
    ensures points == 30 <==> Contains(text, "phd") || Contains(text, "doctorate")
  {
    if Contains(text, "phd") || Contains(text, "doctorate") then 30
    else if Contains(text, "master") || Contains(text, "mba") then 25
    else if Contains(text, "bachelor") || Contains(text, "degree") then 20
    else if Contains(text, "diploma") || Contains(text, "certificate") then 15
    else 10
  }

  // ---------------------------------------------------------------------------
  // Pattern counts used by the rubrics (all case-insensitive)

  const AchievementVerbs: Pattern := Words([
    "achieved", "improved", "increased", "managed", "led", "developed", "created",
    "implemented", "designed", "built", "launched", "optimized", "streamlined"])

  /** `years?`, `months?`, ... are written out with the plural first, which is
      what the greedy optional `s` tries first. */
  const Quantifiers: Pattern := Quantity([
    "%", "$", "k", "million", "thousand", "years", "year", "months", "month",
    "projects", "project", "clients", "client", "team", "people"])

  const JobTitleWords: Pattern := Words([
    "developer", "engineer", "manager", "analyst", "specialist", "coordinator",
    "assistant", "intern", "consultant", "director", "lead", "senior", "junior"])

  function AchievementCount(resumeText: string): nat {
    CountMatches(AchievementVerbs, Lower(resumeText), 0)
  }

  function QuantifierCount(resumeText: string): nat {
    CountMatches(Quantifiers, Lower(resumeText), 0)
  }

  function JobTitleCount(resumeText: string): nat {
    CountMatches(JobTitleWords, Lower(resumeText), 0)
  }

  const YearUnits: seq<string> := ["years", "year", "yrs"]

  /** The match of `(\d+)\+?\s*(?:years?|yrs)` that starts at `i`, as the
      number it captures and the index where it ends. Backtracking cannot
      produce another match: a shorter digit run, a skipped `+` or fewer
      spaces leave a digit, `+` or space where the unit must start. */
  function YearsMatchAt(t: string, i: nat): (m: Option<(nat, nat)>)
    requires i <= |t|
    ensures m.Some? ==> i < m.value.1 <= |t|
  {
    if i < |t| && IsDigit(t[i]) then
      var j := DigitRunEnd(t, i);
      var k := if j < |t| && t[j] == '+' then j + 1 else j;
      var e := SpaceRunEnd(t, k);
      var l := FirstAltLen(t, e, YearUnits);
      if l > 0 then Some((DigitsValue(t[i..j]), e + l)) else None
    else None
  }

  /** The numbers captured by every match of the global years pattern. */
  function YearsMentioned(t: string, i: nat): seq<nat>
    requires i <= |t|
    decreases |t| - i
  {
    if i == |t| then []
    else
      match YearsMatchAt(t, i)
      case Some((n, e)) => [n] + YearsMentioned(t, e)
      case None => YearsMentioned(t, i + 1)
  }

  function Max(xs: seq<nat>): (m: nat)
    requires |xs| > 0
    ensures m in xs
    ensures forall x :: x in xs ==> x <= m
  {
    if |xs| == 1 then xs[0]
    else
      var rest := Max(xs[1..]);
      assert forall x :: x in xs ==> x == xs[0] || x in xs[1..];
      if xs[0] >= rest then xs[0] else rest
  }

  /** Points for the largest number of years mentioned: three per year, at
      most 20, and none when no years are mentioned. */
  function YearsPoints(resumeText: string): (p: nat)
    ensures p <= 20
  {
    var ys := YearsMentioned(Lower(resumeText), 0);
    if ys == [] then 0 else Min(Max(ys) * 3, 20)
  }

  function Min(a: int, b: int): int {
    if a <= b then a else b
  }

  /** `/(?:EXPERIENCE|EDUCATION|SKILLS)/gi.test` */
  predicate HasSectionHeading(resumeText: string) {
    ContainsAny(Lower(resumeText), ["experience", "education", "skills"])
  }

  /** `/(?:@|email|phone|linkedin)/gi.test` */
  predicate HasContactMarker(resumeText: string) {
    ContainsAny(Lower(resumeText), ["@", "email", "phone", "linkedin"])
  }

  /** `/\d{4}/.test`: four consecutive digits, such as a year. */
  predicate HasFourDigits(resumeText: string) {
    exists i :: 0 <= i <= |resumeText| && DigitsAt(resumeText, i, 4)
  }
}

=== FILE: resume_feedback.dfy ===
/** Feedback lists of the resume engine (src/utils/geminiApi.js,
    `generateIntelligentFeedback` and `generateNonResumeFeedback`). */
module ResumeFeedback {
  import opened Text
  import opened ResumeFeatures
  import opened ResumeScoring

  datatype Feedback = Feedback(
    strengths: seq<string>,
    improvements: seq<string>,
    recommendations: seq<string>)

  /** A message that is added when its condition holds. */
  datatype Rule = Rule(holds: bool, message: string)

  /** The messages of the rules that hold, in rule order. */
  function Fired(rules: seq<Rule>): (r: seq<string>)
    ensures |r| <= |rules|
    ensures forall m :: m in r <==> exists k :: 0 <= k < |rules| && rules[k].holds && rules[k].message == m
    ensures |rules| == 1 ==> r == if rules[0].holds then [rules[0].message] else []
  {
    if rules == [] then []
    else
      var rest := Fired(rules[1..]);
      assert forall k :: 1 <= k < |rules| ==> rules[k] == rules[1..][k - 1];
      (if rules[0].holds then [rules[0].message] else []) + rest
  }

  /** Rules fire piece by piece: the messages of a list of rules are those of
      its first part followed by those of the rest, so each holding rule
      adds its one message in rule order. */
  lemma {:induction false} FiredAppend(a: seq<Rule>, b: seq<Rule>)
    ensures Fired(a + b) == Fired(a) + Fired(b)
    decreases |a|
  {
    if a == [] {
      assert a + b == b;
    } else {
      assert (a + b)[0] == a[0] && (a + b)[1..] == a[1..] + b;
      FiredAppend(a[1..], b);
    }
  }

  /** `if (xs.length === 0) xs.push(fallback)` */
  function OrFallback(xs: seq<string>, fallback: string): (r: seq<string>)
    ensures |r| >= 1
  {
    if xs == [] then [fallback] else xs
  }

  const StrengthFallback := "Resume demonstrates relevant professional background and skills"
  const ImprovementFallback := "Consider adding more quantified achievements to strengthen impact"

  /** The six recommendations every real resume receives, in order. */
  const Recommendations: seq<string> := [
    "Use strong action verbs to begin each accomplishment (managed, developed, achieved, optimized)",
    "Quantify achievements with specific numbers, percentages, and dollar amounts",
    "Tailor keywords and skills to match target job descriptions",
    "Include relevant certifications, training, and professional development",
    "Optimize for ATS systems while maintaining human readability",
    "Keep resume concise but comprehensive (1-2 pages for most roles)"]

  // Strength messages
  const StrongExperience := "Strong professional experience with clear career progression"
  const BroadSkills := "Comprehensive skill set covering multiple technical areas"
  const AllSections := "Well-structured resume with all essential sections"
  const AtsFormatting := "Professional formatting optimized for ATS systems"
  const Quantified := "Includes quantified achievements and measurable results"

  // Improvement messages
  const EnhanceContent := "Enhance content with more specific achievements and impact statements"
  const AddSkills := "Add more relevant technical and industry-specific skills"
  const AddSummary := "Include a compelling professional summary or objective statement"
  const ImproveFormatting := "Improve formatting consistency and visual hierarchy"
  const AddNumbers := "Add quantified results using numbers, percentages, and metrics"
  const AddKeywords := "Include more industry-relevant keywords and buzzwords"

  function StrengthRules(resumeText: string, scores: Scores, skills: seq<string>, sections: Sections): seq<Rule> {
    [ Rule(scores.experience >= 70, StrongExperience),
      Rule(|skills| >= 10, BroadSkills),
      Rule(sections.education && sections.experience && sections.skills, AllSections),
      Rule(scores.format >= 75, AtsFormatting),
      Rule(DigitFollowedBy(Lower(resumeText), ["%", "$", "projects", "clients"]), Quantified) ]
  }

  function ImprovementRules(resumeText: string, scores: Scores, skills: seq<string>,
                            sections: Sections, keywords: seq<string>): seq<Rule> {
    [ Rule(scores.quality < 65, EnhanceContent),
      Rule(|skills| < 8, AddSkills),
      Rule(!sections.summary, AddSummary),
      Rule(scores.format < 70, ImproveFormatting),
      Rule(!DigitFollowedBy(Lower(resumeText), ["%", "$", "k"]), AddNumbers),
      Rule(|keywords| < 5, AddKeywords) ]
  }

  /** `generateIntelligentFeedback`: the strengths and improvements whose
      rules hold (or one fallback each), then the six fixed recommendations.
      Nothing here truncates the lists to five. */
  function IntelligentFeedback(resumeText: string, scores: Scores, skills: seq<string>,
                               sections: Sections, keywords: seq<string>): (f: Feedback)
    ensures 1 <= |f.strengths| <= 5
    ensures 1 <= |f.improvements| <= 6
    ensures f.recommendations == Recommendations
    ensures scores.experience >= 70 ==> StrongExperience in f.strengths
    ensures |skills| < 8 ==> AddSkills in f.improvements
  {
    var strengthRules := StrengthRules(resumeText, scores, skills, sections);
    var improvementRules := ImprovementRules(resumeText, scores, skills, sections, keywords);
    assert strengthRules[0].holds ==> strengthRules[0].message in Fired(strengthRules);
    assert improvementRules[1].holds ==> improvementRules[1].message in Fired(improvementRules);
    Feedback(
      OrFallback(Fired(strengthRules), StrengthFallback),
      OrFallback(Fired(improvementRules), ImprovementFallback),
      Recommendations)
  }

  const ReadableDocument := "Document is readable and well-formatted"
  const UploadResume := "Please upload an actual resume with work experience and skills"
  const StandardSections := "Include standard resume sections: contact info, experience, education, skills"
  const NonResumeRecommendations: seq<string> := [
    "Create a professional resume document with your career information",
    "Include your work experience and key accomplishments",
    "Add education background and relevant technical skills",
    "Use a standard resume format with clear sections"]

  /** The first improvement for a rejected document names what it is. */
  function NotAResume(contentType: string): string {
    "This appears to be a " + contentType + ", not a professional resume"
  }

  /** `generateNonResumeFeedback(contentType)` */
  function NonResumeFeedback(contentType: string): (f: Feedback)
    ensures f.strengths == [ReadableDocument]
    ensures |f.improvements| == 3 && f.improvements[0] == NotAResume(contentType)
    ensures f.recommendations == NonResumeRecommendations
  {
    Feedback([ReadableDocument], [NotAResume(contentType), UploadResume, StandardSections],
             NonResumeRecommendations)
  }
}

=== FILE: resume_scoring.dfy ===
/** The additive rubrics that score a document classified as a real resume
    (src/utils/geminiApi.js, `calculate*Score`). Each rubric starts from a
    base, adds capped contributions and is capped at 95 (100 for ATS). */
module ResumeScoring {
  import opened Text
  import opened ResumeFeatures

  /** Points for the number of words longer than two characters. */
  function WordCountPoints(wordCount: nat): (p: nat)
    ensures p in {5, 10, 15, 20}
    ensures p == 20 <==> 300 <= wordCount <= 800
  {
    if 300 <= wordCount <= 800 then 20
    else if 200 <= wordCount <= 1000 then 15
    else if wordCount >= 150 then 10
    else 5
  }

  /** `calculateQualityScore`: base 35, word-count band, three points per
      section (at most 20), two per achievement verb (at most 20), three per
      quantified result (at most 15), capped at 95. */
  function QualityScore(resumeText: string, sections: Sections, wordCount: nat): (r: int)
    ensures 35 + WordCountPoints(wordCount) <= r <= 95
  {
    Min(35 + WordCountPoints(wordCount)
           + Min(SectionCount(sections) * 3, 20)
           + Min(AchievementCount(resumeText) * 2, 20)
           + Min(QuantifierCount(resumeText) * 3, 15), 95)
  }

  /** `calculateSkillsScore`: base 25, two points per skill (at most 25),
      five per skill category (at most 25), one per keyword (at most 25). */
  function SkillsScore(skills: seq<string>, keywords: seq<string>): (r: int)
    ensures 25 <= r <= 95
  {
    Min(25 + Min(|skills| * 2, 25) + Min(CategoryCount(skills) * 5, 25) + Min(|keywords|, 25), 95)
  }

  /** Adding skills, all else equal, never lowers the skills score. */
  lemma SkillsScoreMonotone(a: seq<string>, b: seq<string>, keywords: seq<string>)
    requires forall s :: s in a ==> s in b
    requires |a| <= |b|
    ensures SkillsScore(a, keywords) <= SkillsScore(b, keywords)
  {
    CountCoveredMonotone(SkillCategories, a, b);
  }

  /** `calculateExperienceScore`: base 30, 25 for an experience section, the
      years points, four per job-title word (at most 20), capped at 95. */
  function ExperienceScore(sections: Sections, resumeText: string): (r: int)
    ensures 30 <= r <= 95
    ensures sections.experience ==> r >= 55
  {
    Min(30 + (if sections.experience then 25 else 0)
           + YearsPoints(resumeText)
           + Min(JobTitleCount(resumeText) * 4, 20), 95)
  }

  /** `calculateEducationScore` on lower-cased text: base 35, 30 for an
      education section, plus the education level (at least 10). */
  function EducationScore(sections: Sections, text: string): (r: int)
    ensures 45 <= r <= 95
    ensures sections.education <==> r >= 75
  {
    Min(35 + (if sections.education then 30 else 0) + EducationLevel(text), 95)
  }

  /** `calculateFormattingScore`: base 40, a band on the number of non-blank
      lines, 15 for a section heading, 10 for contact details, 10 for a
      four-digit number. */
  function FormattingScore(lineCount: nat, resumeText: string): (r: int)
    ensures 50 <= r <= 95
    ensures !HasSectionHeading(resumeText) ==> r <= 80
  {
    var lengthPoints :=
      if 20 <= lineCount <= 80 then 20
      else if 15 <= lineCount <= 100 then 15
      else 10;
    Min(40 + lengthPoints
           + (if HasSectionHeading(resumeText) then 15 else 0)
           + (if HasContactMarker(resumeText) then 10 else 0)
           + (if HasFourDigits(resumeText) then 10 else 0), 95)
  }

  /** The essential sections counted by the ATS rubric. */
  function EssentialSections(s: Sections): (n: nat)
    ensures n <= 3
  {
    CountTrue([s.experience, s.education, s.skills])
  }

  /** `calculateATSScore`: base 50, two points per keyword (at most 25), eight
      per essential section. The cap at 100 never binds: the score is at most
      99. */
  function ATSScore(sections: Sections, keywords: seq<string>): (r: int)
    ensures 50 <= r <= 99
    ensures r >= 50 + 8 * EssentialSections(sections)
  {
    Min(50 + Min(|keywords| * 2, 25) + EssentialSections(sections) * 8, 100)
  }

  /** `Math.round(n / d)` for a positive divisor: the nearest integer, halves
      rounded up. */
  function RoundDiv(n: int, d: int): (r: int)
    requires d > 0
    ensures 2 * d * r <= 2 * n + d < 2 * d * r + 2 * d
  {
    (2 * n + d) / (2 * d)
  }

  /** The five category scores of a report. */
  datatype Scores = Scores(quality: int, skills: int, experience: int, education: int, format: int)

  function Total(s: Scores): int {
    s.quality + s.skills + s.experience + s.education + s.format
  }

  predicate AllWithin(s: Scores, lo: int, hi: int) {
    && lo <= s.quality <= hi && lo <= s.skills <= hi && lo <= s.experience <= hi
    && lo <= s.education <= hi && lo <= s.format <= hi
  }

  /** `Math.round(Object.values(scores).reduce((a, b) => a + b) / 5)` */
  function Mean(s: Scores): (r: int)
    ensures 10 * r <= 2 * Total(s) + 5 < 10 * r + 10
  {
    RoundDiv(Total(s), 5)
  }

  /** The rounded mean stays within any bounds all five scores share. */
  lemma MeanWithin(s: Scores, lo: int, hi: int)
    requires AllWithin(s, lo, hi)
    ensures lo <= Mean(s) <= hi
  {
  }
}

=== FILE: resume_service.dfy ===
/** The entry point `analyzeResume` of src/utils/geminiApi.js: the input
    guard, the result cache in browser storage keyed by the text's hash, the
    removal of older cache versions, and the choice between the AI answer
    and the local analysis. Storage is a map passed in and returned; the AI
    call is its outcome. */
module ResumeService {
  import opened Wrappers
  import opened Text
  import opened TextHash
  import opened ResumeAnalysis

  /** What the AI call produced: nothing because no key is configured, a
      failure (network error, no JSON object in the answer, a parse error),
      or a parsed answer. */
  datatype AiOutcome = NotConfigured | Unusable | Answered(data: AiData)

  /** A cache slot: a report that parses, or text that does not. */
  datatype CacheEntry = Cached(report: Report) | Unreadable

  type Cache = map<string, CacheEntry>

  const CachePrefix := "resume-analysis-v4-"

  /** Keys holding any of these are left over from earlier versions. */
  const OldTags: seq<string> := ["resume-analysis-v3", "resume-analysis-v2", "resume-analysis-fixed"]

  function CacheKey(text: string): string {
    CachePrefix + CreateTextHash(text)
  }

  predicate IsOld(key: string) {
    ContainsAny(key, OldTags)
  }

  /** `clearOldCache`: drop every key holding an old tag. */
  function ClearOldCache(cache: Cache): (c: Cache)
    ensures forall k :: k in c <==> k in cache && !IsOld(k)
    ensures forall k :: k in c ==> c[k] == cache[k]
  {
    map k | k in cache && !IsOld(k) :: cache[k]
  }

  /** A current key is never dropped as an old one: the hash is all digits,
      so no old tag fits anywhere in the key. */
  lemma CacheKeyIsCurrent(text: string)
    ensures !IsOld(CacheKey(text))
  {
    var key := CacheKey(text);
    var h := CreateTextHash(text);
    assert |CachePrefix| == 19;
    forall k, i | 0 <= k < |OldTags| && 0 <= i <= |key|
      ensures !StartsAt(key, i, OldTags[k])
    {
      var tag := OldTags[k];
      if i + |tag| <= |key| {
        assert |tag| >= 18;
        if i == 0 {
          assert key[16] == 'v' && key[17] == '4';
          if k == 2 {
            assert key[i..i + |tag|][16] != tag[16];
          } else {
            assert key[i..i + |tag|][17] != tag[17];
          }
        } else {
          assert tag[16] == 'v' || tag[16] == 'f';
          if i + 16 == 17 {
            assert key[17] == '4';
          } else if i + 16 == 18 {
            assert key[18] == '-';
          } else {
            assert key[i + 16] == h[i + 16 - 19];
            assert IsDigit(key[i + 16]);
          }
          assert key[i..i + |tag|][16] != tag[16];
        }
      }
    }
  }

  /** The report in the slot for `key` after old versions are cleared, if
      that slot holds one. */
  predicate Hit(key: string, cache: Cache) {
    var c := ClearOldCache(cache);
    key in c && c[key].Cached?
  }

  /** The cache step of `analyzeResume` for text long enough to analyze,
      given the report a new analysis produces: clear old versions, answer
      from the slot if it holds a readable report, otherwise store the new
      report there. */
  function Lookup(key: string, cache: Cache, computed: Report): (r: (Report, Cache))
    ensures Hit(key, cache) ==> r.0 == cache[key].report
    ensures !Hit(key, cache) ==> r.0 == computed
    ensures key in r.1 && r.1[key] == Cached(r.0)
    ensures !IsOld(key) ==> r.1.Keys == ClearOldCache(cache).Keys + {key}
    ensures forall k :: k in r.1 && k != key ==> k in cache && r.1[k] == cache[k] && !IsOld(k)
  {
    var c := ClearOldCache(cache);
    if key in c && c[key].Cached? then (c[key].report, c)
    else (computed, c[key := Cached(computed)])
  }

  /** Looking the same key up again returns the stored report and leaves the
      cache as it is, whatever a new analysis would now produce. */
  lemma LookupIdempotent(key: string, cache: Cache, computed: Report, computed': Report)
    requires !IsOld(key)
    ensures var first := Lookup(key, cache, computed);
            Lookup(key, first.1, computed') == first
  {
    var first := Lookup(key, cache, computed);
    assert ClearOldCache(first.1) == first.1;
  }

  predicate CacheWithinRanges(cache: Cache) {
    forall k :: k in cache && cache[k].Cached? ==> WithinRanges(cache[k].report.verdict)
  }

  /** If the cache only held reports within the documented ranges and the
      new report is within them, so is every report handed out and
      stored. */
  lemma LookupWithinRanges(key: string, cache: Cache, computed: Report)
    requires CacheWithinRanges(cache) && WithinRanges(computed.verdict)
    ensures var r := Lookup(key, cache, computed);
            WithinRanges(r.0.verdict) && CacheWithinRanges(r.1)
  {
  }

  /** A new analysis: the validated AI answer when there is one, the local
      analysis when the AI is not configured or its call fails. */
  method Compute(text: string, ai: AiOutcome, dice: Dice) returns (r: Report)
    ensures WithinRanges(r.verdict)
    ensures HasCertificateWord(text) ==> !r.verdict.isActualResume && r.verdict.contentType == CertificateType
    ensures ai.Answered? ==> r.verdict == ValidatedVerdict(ai.data, text, dice)
    ensures !ai.Answered? ==> r.verdict == LocalVerdict(text, dice)
  {
    CertificateWordsAreStrict(text);
    if ai.Answered? {
      r := ValidateAi(ai.data, text, dice);
    } else {
      r := AnalyzeLocally(text, dice);
    }
  }

  /** `analyzeResume(text)`: reject absent text and text shorter than 50
      code units, then answer from the cache or analyze and store. */
  method AnalyzeResume(text: Option<string>, cache: Cache, ai: AiOutcome, dice: Dice)
    returns (r: Result<(Report, Cache)>)
    ensures r.Err? <==> text.None? || Length(text.value) < 50
    ensures r.Ok? ==> r.value == Lookup(CacheKey(text.value), cache, r.value.0)
    ensures r.Ok? && !Hit(CacheKey(text.value), cache) ==>
      && WithinRanges(r.value.0.verdict)
      && (HasCertificateWord(text.value) ==> !r.value.0.verdict.isActualResume)
      && (ai.Answered? ==> r.value.0.verdict == ValidatedVerdict(ai.data, text.value, dice))
      && (!ai.Answered? ==> r.value.0.verdict == LocalVerdict(text.value, dice))
  {
    if text.None? || Length(text.value) < 50 {
      return Err("Resume text is too short or empty for analysis");
    }
    var key := CacheKey(text.value);
    var cleared := ClearOldCache(cache);
    if key in cleared && cleared[key].Cached? {
      r := Ok((cleared[key].report, cleared));
    } else {
      var computed := Compute(text.value, ai, dice);
      r := Ok((computed, cleared[key := Cached(computed)]));
    }
  }
}

=== FILE: score_display.dfy ===
/** The score banding of src/components/resume/ScoreDisplay.jsx: the label,
    the colour, the letter grade and the rounding of a shown score, and the
    count on the "Sections" tile. Scores are whole numbers here. */
module ScoreDisplay {
  import opened Wrappers
  import opened ResumeFeatures
  import opened ResumeAnalysis

  /** `Math.round(score || 0)`: a missing score shows as 0. */
  function FormatScore(score: Option<int>): (r: int)
    ensures score.None? ==> r == 0
    ensures score.Some? ==> r == score.value
  {
    score.GetOr(0)
  }

  /** The seven bands, from 0 (below 40) to 6 (90 and above). */
  function Band(score: int): (b: nat)
    ensures b <= 6
    ensures b == 0 <==> score < 40
    ensures b == 6 <==> score >= 90
    ensures 0 < b < 6 ==> 30 + 10 * b <= score < 40 + 10 * b
  {
    if score >= 90 then 6
    else if score >= 80 then 5
    else if score >= 70 then 4
    else if score >= 60 then 3
    else if score >= 50 then 2
    else if score >= 40 then 1
    else 0
  }

  /** A higher score is never in a lower band. */
  lemma BandMonotone(s: int, t: int)
    requires s <= t
    ensures Band(s) <= Band(t)
  {
  }

  const Labels: seq<string> := ["Needs Improvement", "Fair", "Average", "Good", "Very Good", "Excellent", "Outstanding"]
  const Grades: seq<string> := ["D", "C", "C+", "B", "B+", "A", "A+"]

  /** `getScoreLabel(score)` */
  function ScoreLabel(score: int): (l: string)
    ensures l == Labels[Band(score)]
  {
    if score >= 90 then "Outstanding"
    else if score >= 80 then "Excellent"
    else if score >= 70 then "Very Good"
    else if score >= 60 then "Good"
    else if score >= 50 then "Average"
    else if score >= 40 then "Fair"
    else "Needs Improvement"
  }

  /** The letter grade on the "Grade" tile. */
  function Grade(score: int): (grade: string)
    ensures grade == Grades[Band(score)]
  {
    if score >= 90 then "A+"
    else if score >= 80 then "A"
    else if score >= 70 then "B+"
    else if score >= 60 then "B"
    else if score >= 50 then "C+"
    else if score >= 40 then "C"
    else "D"
  }

  /** No two bands share a label. */
  lemma LabelsDistinct(i: nat, j: nat)
    requires i < j < 7
    ensures Labels[i] != Labels[j]
  {
    assert |Labels[i]| != |Labels[j]| || Labels[i][0] != Labels[j][0];
  }

  /** The grade follows the label: the grade is the n-th grade exactly when
      the label is the n-th label, so "A+" goes with "Outstanding" and "D"
      with "Needs Improvement". */
  lemma GradeMatchesLabel(score: int, n: nat)
    requires n < 7
    ensures Grade(score) == Grades[n] <==> ScoreLabel(score) == Labels[n]
  {
    var b := Band(score);
    if n < b {
      LabelsDistinct(n, b);
      assert Grades[n] != Grades[b];
    } else if b < n {
      LabelsDistinct(b, n);
      assert Grades[n] != Grades[b];
    }
  }

  datatype Color = Green | Yellow | Orange | Red

  /** `getScoreColor(score)`: every score gets one of four colours. */
  function ScoreColor(score: int): (c: Color)
    ensures c == Green <==> score >= 80
    ensures c == Yellow <==> 60 <= score < 80
    ensures c == Orange <==> 40 <= score < 60
    ensures c == Red <==> score < 40
  {
    if score >= 80 then Green
    else if score >= 60 then Yellow
    else if score >= 40 then Orange
    else Red
  }

  /** The colour pairs the label bands: green for the top two labels, yellow
      and orange for the next two each, red for the last. */
  lemma ColorFollowsBand(score: int)
    ensures ScoreColor(score) == [Red, Orange, Orange, Yellow, Yellow, Green, Green][Band(score)]
  {
  }

  // ---------------------------------------------------------------------------
  // The "Sections" tile

  /** The shapes `textStats.sectionsFound` takes in a report: absent, the
      number of sections (local analysis), or the detected sections
      (sanitized AI answer). */
  datatype SectionsFound = Absent | Count(n: int) | Found(sections: Sections)

  function SectionsFoundOf(stats: TextStats): SectionsFound {
    match stats
    case LocalStats(_, _, n, _, _, _) => Count(n)
    case CheckedStats(_, _, sections, _, _) => Found(sections)
  }

  /** `getSectionsCount()` as written: 0 for a missing or falsy value, the
      number of true flags for an object, and 0 for anything else, a
      number included. */
  function SectionsCountAsWritten(found: SectionsFound): (n: nat)
    ensures found.Found? ==> n == SectionCount(found.sections)
    ensures !found.Found? ==> n == 0
  {
    match found
    case Absent => 0
    case Count(_) => 0
    case Found(s) => CountTrue(Flags(s))
  }

  /** The count the tile is meant to show: the sections found, whichever
      shape the report stores them in. */
  function SectionsCount(found: SectionsFound): (n: nat)
    ensures found.Found? ==> n == SectionCount(found.sections)
    ensures found.Count? && found.n >= 0 ==> n == found.n
    ensures found.Absent? ==> n == 0
  {
    match found
    case Absent => 0
    case Count(k) => if k > 0 then k else 0
    case Found(s) => CountTrue(Flags(s))
  }

  /** A local report that found sections shows 0 on the tile as written;
      the intended count shows them. */
  lemma LocalReportShowsNoSections(stats: TextStats)
    requires stats.LocalStats? && stats.sectionsFound > 0
    ensures SectionsCountAsWritten(SectionsFoundOf(stats)) == 0
    ensures SectionsCount(SectionsFoundOf(stats)) == stats.sectionsFound
  {
  }

  /** Both readings agree on the shape the AI path stores. */
  lemma CheckedReportsAgree(stats: TextStats)
    requires stats.CheckedStats?
    ensures SectionsCountAsWritten(SectionsFoundOf(stats)) == SectionsCount(SectionsFoundOf(stats))
  {
  }
}

=== FILE: skills_input.dfy ===
/** The skill-tag list of src/components/jobs/SkillsInput.jsx: adding a
    trimmed skill, removing one, and the suggestions offered for the text
    typed so far. */
module SkillsInput {
  import opened Text

  /** No skill appears twice. */
  predicate Distinct(skills: seq<string>) {
    forall i, j :: 0 <= i < j < |skills| ==> skills[i] != skills[j]
  }

  /** `addSkill(skill)`: append the trimmed skill unless it is blank or
      already chosen. */
  function AddSkill(skills: seq<string>, input: string): (r: seq<string>)
    ensures r == skills || r == skills + [Trim(input)]
    ensures r != skills <==> HasNonSpace(input) && Trim(input) !in skills
    ensures HasNonSpace(input) ==> Trim(input) in r
    ensures Distinct(skills) ==> Distinct(r)
  {
    var t := Trim(input);
    if t != [] && t !in skills then skills + [t] else skills
  }

  /** Adding what is already there changes nothing, so adding twice is
      adding once. */
  lemma AddSkillIdempotent(skills: seq<string>, input: string)
    ensures AddSkill(AddSkill(skills, input), input) == AddSkill(skills, input)
  {
  }

  /** `removeSkill(skill)`: keep every other skill, in order. */
  function RemoveSkill(skills: seq<string>, skill: string): (r: seq<string>)
    ensures skill !in r
    ensures forall s :: s in r <==> s in skills && s != skill
    ensures multiset(r) == multiset(skills)[skill := 0]
  {
    if skills == [] then []
    else
      assert skills == [skills[0]] + skills[1..];
      (if skills[0] == skill then [] else [skills[0]]) + RemoveSkill(skills[1..], skill)
  }

  /** Removal works piece by piece, so the kept skills stay in their order. */
  lemma {:induction false} RemoveSkillAppend(a: seq<string>, b: seq<string>, skill: string)
    ensures RemoveSkill(a + b, skill) == RemoveSkill(a, skill) + RemoveSkill(b, skill)
    decreases |a|
  {
    if a == [] {
      assert a + b == b;
    } else {
      assert (a + b)[0] == a[0] && (a + b)[1..] == a[1..] + b;
      RemoveSkillAppend(a[1..], b, skill);
    }
  }

  /** Removing a skill nobody chose changes nothing. */
  lemma {:induction false} RemoveAbsent(skills: seq<string>, skill: string)
    requires skill !in skills
    ensures RemoveSkill(skills, skill) == skills
    decreases |skills|
  {
    if skills != [] {
      RemoveAbsent(skills[1..], skill);
    }
  }

  /** Removing a skill just added restores the list. */
  lemma RemoveUndoesAdd(skills: seq<string>, input: string)
    requires Trim(input) !in skills
    ensures RemoveSkill(AddSkill(skills, input), Trim(input)) == skills
  {
    var t := Trim(input);
    RemoveAbsent(skills, t);
    if t != [] {
      RemoveSkillAppend(skills, [t], t);
      assert RemoveSkill([t], t) == [] + RemoveSkill([], t);
    }
  }

  const Suggestions: seq<string> := [
    "JavaScript", "React", "Node.js", "Python", "Java", "TypeScript",
    "HTML/CSS", "Vue.js", "Angular", "PHP", "C++", "C#", "Ruby",
    "Swift", "Kotlin", "Go", "Rust", "SQL", "MongoDB", "PostgreSQL",
    "AWS", "Docker", "Kubernetes", "Git", "Linux", "DevOps",
    "Machine Learning", "Data Science", "UI/UX Design", "Project Management"]

  /** A suggestion is offered when it contains the typed text, ignoring
      case, and is not chosen yet. */
  predicate Offered(suggestion: string, skills: seq<string>, typed: string) {
    Contains(Lower(suggestion), Lower(typed)) && suggestion !in skills
  }

  /** The candidates that are offered, in their order. */
  function Matching(candidates: seq<string>, skills: seq<string>, typed: string): (r: seq<string>)
    ensures |r| <= |candidates|
    ensures forall s :: s in r <==> s in candidates && Offered(s, skills, typed)
  {
    if candidates == [] then []
    else
      (if Offered(candidates[0], skills, typed) then [candidates[0]] else [])
      + Matching(candidates[1..], skills, typed)
  }

  /** Matching works piece by piece, so the offered suggestions keep their
      order. */
  lemma {:induction false} MatchingAppend(a: seq<string>, b: seq<string>, skills: seq<string>, typed: string)
    ensures Matching(a + b, skills, typed) == Matching(a, skills, typed) + Matching(b, skills, typed)
    decreases |a|
  {
    if a == [] {
      assert a + b == b;
    } else {
      assert (a + b)[0] == a[0] && (a + b)[1..] == a[1..] + b;
      MatchingAppend(a[1..], b, skills, typed);
    }
  }

  /** `filteredSuggestions`: the first six offered suggestions. */
  function FilteredSuggestions(skills: seq<string>, typed: string): (r: seq<string>)
    ensures |r| <= 6
    ensures r <= Matching(Suggestions, skills, typed)
    ensures |r| == 6 || r == Matching(Suggestions, skills, typed)
    ensures forall s :: s in r ==> s in Suggestions && Offered(s, skills, typed)
  {
    var m := Matching(Suggestions, skills, typed);
    if |m| <= 6 then m else m[..6]
  }

  /** Every string contains the empty one. */
  lemma ContainsEmpty(t: string)
    ensures Contains(t, [])
  {
    assert StartsAt(t, 0, []);
  }

  /** With nothing typed and nothing chosen, the first six suggestions are
      offered. */
  lemma NothingTypedOffersFirstSix()
    ensures FilteredSuggestions([], "") == Suggestions[..6]
  {
    assert Lower("") == [];
    forall s | s in Suggestions ensures Offered(s, [], "") {
      ContainsEmpty(Lower(s));
    }
    AllOffered(Suggestions, [], "");
    assert Matching(Suggestions, [], "") == Suggestions;
  }

  /** When every candidate is offered, all of them are, in order. */
  lemma {:induction false} AllOffered(candidates: seq<string>, skills: seq<string>, typed: string)
    requires forall s :: s in candidates ==> Offered(s, skills, typed)
    ensures Matching(candidates, skills, typed) == candidates
    decreases |candidates|
  {
    if candidates != [] {
      AllOffered(candidates[1..], skills, typed);
    }
  }
}

=== FILE: storage.dfy ===
/** The storage service of src/utils/localStorage.js over browser storage
    modelled as a map from key to stored item. An item is the JSON value it
    parses to, or text that does not parse (the empty string included,
    which every reader treats like unparsable text). Timestamps and ids are
    parameters; a failed write is not modelled. */
module Storage {
  import opened Json
  import opened Wrappers
  import JsNumber

  datatype Item = Parsed(value: Value) | Unparsable

  type Store = map<string, Item>

  const UserPreferencesKey := "ai-career-coach-user-preferences"
  const ResumeAnalysisKey := "ai-career-coach-resume-analysis"
  const InterviewSessionsKey := "ai-career-coach-interview-sessions"
  const JobMatchesKey := "ai-career-coach-job-matches"

  /** The four keys the service manages. */
  const ManagedKeys: set<string> := {UserPreferencesKey, ResumeAnalysisKey, InterviewSessionsKey, JobMatchesKey}

  const ResumeHistoryCap := 5
  const InterviewHistoryCap := 10

  /** What a key holds once parsed, or nothing when it is absent or does not
      parse. */
  function Read(st: Store, key: string): (r: Option<Value>)
    ensures r.Some? <==> key in st && st[key].Parsed?
    ensures r.Some? ==> r.value == st[key].value
  {
    if key in st && st[key].Parsed? then Some(st[key].value) else None
  }

  // ---------------------------------------------------------------------------
  // Histories

  /** `getAllResumeAnalyses` / `getAllInterviewSessions`: the parsed list, or
      the empty list when the key is absent or does not parse. The parsed
      value is returned whatever its shape. */
  function GetAll(st: Store, key: string): (r: Value)
    ensures key !in st ==> r == Arr([])
    ensures Read(st, key).Some? ==> r == Read(st, key).value
  {
    Read(st, key).GetOr(Arr([]))
  }

  /** `obj.length > 0` for a parsed object: its `length` field read through
      `Number`; a missing field is undefined, which is not above 0. */
  predicate HasPositiveLength(fields: map<string, Value>) {
    "length" in fields && JsNumber.ToNumber(fields["length"]).Int? && JsNumber.ToNumber(fields["length"]).value > 0
  }

  /** `list.length > 0 ? list[0] : null` on whatever `GetAll` returned: a
      string has a length and a first character too, an object may carry a
      `length` field and a "0" field, and other values have no length (on
      null the read throws, and the handler returns null too). */
  function First(v: Value): (r: Value)
    ensures v.Arr? && v.items != [] ==> r == v.items[0]
    ensures v.Arr? && v.items == [] ==> r == Null
    ensures v.Str? && v.s == [] ==> r == Null
    ensures v.Obj? && HasPositiveLength(v.fields) && "0" in v.fields ==> r == v.fields["0"]
    ensures v.Obj? && !(HasPositiveLength(v.fields) && "0" in v.fields) ==> r == Null
    ensures !v.Arr? && !v.Str? && !v.Obj? ==> r == Null
  {
    match v
    case Arr(items) => if items != [] then items[0] else Null
    case Str(s) => if s != [] then Str([s[0]]) else Null
    case Obj(fields) => if HasPositiveLength(fields) && "0" in fields then fields["0"] else Null
    case _ => Null
  }

  /** `getLatestResumeAnalysis` / `getLatestInterviewSession` */
  function GetLatest(st: Store, key: string): (r: Value)
    ensures key !in st ==> r == Null
    ensures GetAll(st, key).Arr? ==> (r == Null <==> GetAll(st, key).items == [] || GetAll(st, key).items[0] == Null)
    ensures GetAll(st, key).Arr? && GetAll(st, key).items != [] ==> r == GetAll(st, key).items[0]
    ensures GetAll(st, key).Str? && GetAll(st, key).s != [] ==> r == Str([GetAll(st, key).s[0]])
    ensures GetAll(st, key).Str? && GetAll(st, key).s == [] ==> r == Null
    ensures GetAll(st, key).Obj? && HasPositiveLength(GetAll(st, key).fields) && "0" in GetAll(st, key).fields ==> r == GetAll(st, key).fields["0"]
    ensures GetAll(st, key).Obj? && !HasPositiveLength(GetAll(st, key).fields) ==> r == Null
    ensures !GetAll(st, key).Arr? && !GetAll(st, key).Str? && !GetAll(st, key).Obj? ==> r == Null
  {
    First(GetAll(st, key))
  }

  /** An array-like object is read like a list: `{"length": 1, "0": "x"}`
      yields "x". */
  lemma ArrayLikeObjectIsRead(st: Store, key: string)
    requires key in st && st[key] == Parsed(Obj(map["length" := Num(1), "0" := Str("x")]))
    ensures GetLatest(st, key) == Str("x")
  {
  }

  /** The stored record `{ id, ...fields, savedAt }`: later keys win. */
  function Stamped(id: Value, fields: map<string, Value>, savedAt: Value): (entry: Value)
    ensures entry.Obj? && entry.fields.Keys == fields.Keys + {"id", "savedAt"}
    ensures entry.fields["savedAt"] == savedAt
    ensures "id" !in fields ==> entry.fields["id"] == id
    ensures forall k :: k in fields && k != "savedAt" ==> entry.fields[k] == fields[k]
  {
    Obj((map["id" := id] + fields)["savedAt" := savedAt])
  }

  /** `list.unshift(entry); list.slice(0, cap)` */
  function Push(list: seq<Value>, entry: Value, cap: nat): (r: seq<Value>)
    requires cap > 0
    ensures |r| == if |list| + 1 <= cap then |list| + 1 else cap
    ensures r[0] == entry && r[1..] == list[..|r| - 1]
  {
    var l := [entry] + list;
    if |l| <= cap then l else l[..cap]
  }

  /** `unshift` the entry onto the stored list and keep the first `cap`.
      When the stored value is not a list, `unshift` throws, the error is
      caught and nothing is written. */
  function SaveNewestFirst(st: Store, key: string, cap: nat, entry: Value): (r: Store)
    requires cap > 0
    ensures !GetAll(st, key).Arr? ==> r == st
    ensures GetAll(st, key).Arr? ==>
      var before := GetAll(st, key).items;
      && r.Keys == st.Keys + {key}
      && r[key].Parsed? && r[key].value.Arr?
      && var now := r[key].value.items;
         && |now| == (if |before| + 1 <= cap then |before| + 1 else cap)
         && now[0] == entry
         && now[1..] == before[..|now| - 1]
    ensures forall k :: k in st && k != key ==> k in r && r[k] == st[k]
  {
    match GetAll(st, key)
    case Arr(items) => st[key := Parsed(Arr(Push(items, entry, cap)))]
    case _ => st
  }

  /** `saveResumeAnalysis(analysisId, analysis)` */
  function SaveResumeAnalysis(st: Store, id: Value, analysis: map<string, Value>, savedAt: Value): (r: Store)
    ensures GetAll(st, ResumeAnalysisKey).Arr? ==>
      && GetLatest(r, ResumeAnalysisKey) == Stamped(id, analysis, savedAt)
      && GetAll(r, ResumeAnalysisKey).Arr?
      && 1 <= |GetAll(r, ResumeAnalysisKey).items| <= ResumeHistoryCap
    ensures forall k :: k in st && k != ResumeAnalysisKey ==> k in r && r[k] == st[k]
  {
    SaveNewestFirst(st, ResumeAnalysisKey, ResumeHistoryCap, Stamped(id, analysis, savedAt))
  }

  /** `saveInterviewSession(sessionId, session)` */
  function SaveInterviewSession(st: Store, id: Value, session: map<string, Value>, savedAt: Value): (r: Store)
    ensures GetAll(st, InterviewSessionsKey).Arr? ==>
      && GetLatest(r, InterviewSessionsKey) == Stamped(id, session, savedAt)
      && GetAll(r, InterviewSessionsKey).Arr?
      && 1 <= |GetAll(r, InterviewSessionsKey).items| <= InterviewHistoryCap
    ensures forall k :: k in st && k != InterviewSessionsKey ==> k in r && r[k] == st[k]
  {
    SaveNewestFirst(st, InterviewSessionsKey, InterviewHistoryCap, Stamped(id, session, savedAt))
  }

  /** The list after pushing the entries one after the other. */
  function PushAll(list: seq<Value>, entries: seq<Value>, cap: nat): seq<Value>
    requires cap > 0
  {
    if entries == [] then list
    else Push(PushAll(list, entries[..|entries| - 1], cap), entries[|entries| - 1], cap)
  }

  /** The store after saving the entries one after the other. */
  function SaveAll(st: Store, key: string, cap: nat, entries: seq<Value>): Store
    requires cap > 0
  {
    if entries == [] then st
    else SaveNewestFirst(SaveAll(st, key, cap, entries[..|entries| - 1]), key, cap, entries[|entries| - 1])
  }

  /** Saving one entry after another into a stored list pushes them onto it. */
  lemma {:induction false} SaveAllPushes(st: Store, key: string, cap: nat, entries: seq<Value>)
    requires cap > 0
    requires GetAll(st, key).Arr?
    ensures GetAll(SaveAll(st, key, cap, entries), key) == Arr(PushAll(GetAll(st, key).items, entries, cap))
    decreases |entries|
  {
    if entries != [] {
      SaveAllPushes(st, key, cap, entries[..|entries| - 1]);
    }
  }

  /** Pushing onto an empty list keeps the newest `cap` entries, newest first. */
  lemma {:induction false} PushAllKeepsNewest(entries: seq<Value>, cap: nat)
    requires cap > 0
    ensures PushAll([], entries, cap) == Reverse(entries)[..if |entries| <= cap then |entries| else cap]
    decreases |entries|
  {
    if entries != [] {
      var init := entries[..|entries| - 1];
      var last := entries[|entries| - 1];
      PushAllKeepsNewest(init, cap);
      assert Reverse(entries) == [last] + Reverse(init);
    }
  }

  /** Saving entries in a row into an empty history leaves the newest `cap`
      of them, newest first: the oldest are pushed out. */
  lemma HistoryKeepsNewest(st: Store, key: string, cap: nat, entries: seq<Value>)
    requires cap > 0
    requires GetAll(st, key) == Arr([])
    ensures GetAll(SaveAll(st, key, cap, entries), key)
         == Arr(Reverse(entries)[..if |entries| <= cap then |entries| else cap])
  {
    SaveAllPushes(st, key, cap, entries);
    PushAllKeepsNewest(entries, cap);
  }

  function Reverse<T>(xs: seq<T>): (r: seq<T>)
    ensures |r| == |xs|
    ensures forall i :: 0 <= i < |xs| ==> r[i] == xs[|xs| - 1 - i]
  {
    if xs == [] then [] else [xs[|xs| - 1]] + Reverse(xs[..|xs| - 1])
  }

  // ---------------------------------------------------------------------------
  // Job matches and preferences

  /** `saveJobMatches(matches)`: the list with its save time and search id. */
  function SaveJobMatches(st: Store, matches: Value, savedAt: Value, searchId: Value): (r: Store)
    ensures r.Keys == st.Keys + {JobMatchesKey}
    ensures forall k :: k in st && k != JobMatchesKey ==> r[k] == st[k]
  {
    st[JobMatchesKey := Parsed(Obj(map["matches" := matches, "savedAt" := savedAt, "searchId" := searchId]))]
  }

  /** `getJobMatches()`: the saved `matches` when they are truthy, otherwise
      null (absent key, unparsable text, or a record without matches). */
  function GetJobMatches(st: Store): (r: Value)
    ensures JobMatchesKey !in st ==> r == Null
    ensures r != Null ==> Truthy(r)
    ensures Truthy(r) <==>
      && Read(st, JobMatchesKey).Some? && Read(st, JobMatchesKey).value.Obj?
      && "matches" in Read(st, JobMatchesKey).value.fields
      && Truthy(Read(st, JobMatchesKey).value.fields["matches"])
    ensures Truthy(r) ==> r == Read(st, JobMatchesKey).value.fields["matches"]
  {
    match Read(st, JobMatchesKey)
    case Some(Obj(fields)) =>
      if "matches" in fields && Truthy(fields["matches"]) then fields["matches"] else Null
    case _ => Null
  }

  /** What was saved is what is read back, unless it is falsy. */
  lemma JobMatchesRoundTrip(st: Store, matches: Value, savedAt: Value, searchId: Value)
    ensures GetJobMatches(SaveJobMatches(st, matches, savedAt, searchId)) == if Truthy(matches) then matches else Null
  {
  }

  /** `clearJobMatches()` */
  function ClearJobMatches(st: Store): (r: Store)
    ensures r.Keys == st.Keys - {JobMatchesKey}
    ensures forall k :: k in r ==> r[k] == st[k]
    ensures GetJobMatches(r) == Null
  {
    st - {JobMatchesKey}
  }

  /** `clearAllData()`: remove the four managed keys and nothing else. */
  function ClearAllData(st: Store): (r: Store)
    ensures r.Keys == st.Keys - ManagedKeys
    ensures forall k :: k in r ==> r[k] == st[k]
  {
    st - ManagedKeys
  }

  /** After clearing, every getter gives its empty answer. */
  lemma ClearedGettersAreEmpty(st: Store)
    ensures var r := ClearAllData(st);
      && GetAll(r, ResumeAnalysisKey) == Arr([]) && GetAll(r, InterviewSessionsKey) == Arr([])
      && GetLatest(r, ResumeAnalysisKey) == Null && GetLatest(r, InterviewSessionsKey) == Null
      && GetJobMatches(r) == Null && GetUserPreferences(r) == DefaultPreferences
  {
  }

  const DefaultPreferences: Value := Obj(map[
    "name" := Str(""), "email" := Str(""), "skills" := Arr([]),
    "experience" := Str("entry"), "location" := Str("")])

  /** `getUserPreferences()`: the saved record, or the default one. */
  function GetUserPreferences(st: Store): (r: Value)
    ensures Read(st, UserPreferencesKey).None? ==> r == DefaultPreferences
    ensures Read(st, UserPreferencesKey).Some? ==> r == Read(st, UserPreferencesKey).value
  {
    Read(st, UserPreferencesKey).GetOr(DefaultPreferences)
  }

  /** `saveUserPreferences(preferences)`: the record with its update time. */
  function SaveUserPreferences(st: Store, preferences: map<string, Value>, lastUpdated: Value): (r: Store)
    ensures r.Keys == st.Keys + {UserPreferencesKey}
    ensures forall k :: k in st && k != UserPreferencesKey ==> r[k] == st[k]
  {
    st[UserPreferencesKey := Parsed(Obj(preferences["lastUpdated" := lastUpdated]))]
  }

  /** The saved preferences are read back with their update time added. */
  lemma PreferencesRoundTrip(st: Store, preferences: map<string, Value>, lastUpdated: Value)
    ensures GetUserPreferences(SaveUserPreferences(st, preferences, lastUpdated))
         == Obj(preferences["lastUpdated" := lastUpdated])
  {
  }
}

=== FILE: text.dfy ===
/** String predicates the application builds from JavaScript's `String`
    methods and from the regular expressions it uses. Each regular expression
    is modelled as the specific predicate or scanner it amounts to; there is no
    general regular-expression engine. */
module Text {
  import opened Wrappers

  predicate IsDigit(c: char) {
    '0' <= c <= '9'
  }

  /** The characters JavaScript's `\s` class and `String.prototype.trim`
      treat as white space (WhiteSpace and LineTerminator). */
  predicate IsSpace(c: char) {
    || c == ' ' || c == '\t' || c == '\n' || c == '\r'
    || c == '\U{000B}' || c == '\U{000C}' || c == '\U{00A0}' || c == '\U{1680}'
    || ('\U{2000}' <= c <= '\U{200A}')
    || c == '\U{2028}' || c == '\U{2029}' || c == '\U{202F}' || c == '\U{205F}'
    || c == '\U{3000}' || c == '\U{FEFF}'
  }

  function LowerChar(c: char): char {
    if 'A' <= c <= 'Z' then (c as int + 32) as char else c
  }

  /** `toLowerCase`, restricted to the ASCII letters. */
  function Lower(s: string): (r: string)
    ensures |r| == |s|
    ensures forall i :: 0 <= i < |s| ==> r[i] == LowerChar(s[i])
  {
    seq(|s|, i requires 0 <= i < |s| => LowerChar(s[i]))
  }

  lemma LowerAppend(a: string, b: string)
    ensures Lower(a + b) == Lower(a) + Lower(b)
  {
    assert forall i :: 0 <= i < |a + b| ==> Lower(a + b)[i] == (Lower(a) + Lower(b))[i];
  }

  // ---------------------------------------------------------------------------
  // UTF-16

  /** A UTF-16 code unit: JavaScript strings are sequences of these, and
      `length` and `charCodeAt` count and read them. */
  type CodeUnit = u: int | 0 <= u < 0x1_0000

  predicate IsHighSurrogate(u: int) {
    0xD800 <= u < 0xDC00
  }

  predicate IsLowSurrogate(u: int) {
    0xDC00 <= u < 0xE000
  }

  /** The character a surrogate pair stands for. */
  function Combine(high: int, low: int): int {
    0x1_0000 + (high - 0xD800) * 0x400 + (low - 0xDC00)
  }

  /** The code units of one character: the character itself below U+10000,
      a high and a low surrogate above. */
  function CharUnits(c: char): (u: seq<CodeUnit>)
    ensures c as int < 0x1_0000 ==> u == [c as int]
    ensures c as int >= 0x1_0000 ==> |u| == 2 && IsHighSurrogate(u[0]) && IsLowSurrogate(u[1])
    ensures c as int >= 0x1_0000 ==> c as int == Combine(u[0], u[1])
  {
    if c as int < 0x1_0000 then [c as int]
    else
      var v := c as int - 0x1_0000;
      [0xD800 + v / 0x400, 0xDC00 + v % 0x400]
  }

  /** The UTF-16 encoding of a string. */
  function Utf16(s: string): (u: seq<CodeUnit>)
    ensures |u| >= |s|
  {
    if s == [] then [] else CharUnits(s[0]) + Utf16(s[1..])
  }

  /** `s.length`: the number of UTF-16 code units, which is one more than the
      number of characters for every character above U+FFFF. */
  function Length(s: string): nat {
    |Utf16(s)|
  }

  /** Reading the code units back as characters; `None` for a surrogate
      without its partner, which no string encodes to. */
  function Decode(u: seq<CodeUnit>): (r: Option<string>)
    ensures r.Some? ==> |r.value| <= |u|
  {
    if u == [] then Some([])
    else if IsHighSurrogate(u[0]) then
      if |u| >= 2 && IsLowSurrogate(u[1]) then
        var rest := Decode(u[2..]);
        if rest.Some? then
          Some([Combine(u[0], u[1]) as char] + rest.value)
        else None
      else None
    else if IsLowSurrogate(u[0]) then None
    else
      var rest := Decode(u[1..]);
      if rest.Some? then Some([u[0] as char] + rest.value) else None
  }

  /** Encoding and decoding again gives the string back. */
  lemma {:induction false} Utf16RoundTrip(s: string)
    ensures Decode(Utf16(s)) == Some(s)
    decreases |s|
  {
    if s != [] {
      var u := Utf16(s);
      var head := CharUnits(s[0]);
      assert u == head + Utf16(s[1..]);
      Utf16RoundTrip(s[1..]);
      if s[0] as int < 0x1_0000 {
        assert u[1..] == Utf16(s[1..]);
        assert [s[0]] + s[1..] == s;
      } else {
        assert u[2..] == Utf16(s[1..]);
        assert [s[0]] + s[1..] == s;
      }
    }
  }

  /** A string without characters above U+FFFF has one code unit per
      character, so its `length` is its number of characters. */
  lemma {:induction false} LengthOfBasicText(s: string)
    requires forall k :: 0 <= k < |s| ==> s[k] as int < 0x1_0000
    ensures Length(s) == |s|
    decreases |s|
  {
    if s != [] {
      LengthOfBasicText(s[1..]);
    }
  }

  /** A character above U+FFFF counts twice. */
  lemma AstralCharCountsTwice()
    ensures Length("\U{1D400}") == 2
    ensures Utf16("\U{1D400}") == [0xD835, 0xDC00]
  {
    assert CharUnits('\U{1D400}') == [0xD835, 0xDC00];
    assert "\U{1D400}"[1..] == [];
  }

  // ---------------------------------------------------------------------------
  // Substrings

  /** `w` occurs in `t` starting at index `i`. */
  predicate StartsAt(t: string, i: int, w: string) {
    0 <= i && i + |w| <= |t| && t[i..i + |w|] == w
  }

  /** `t.includes(w)`. */
  predicate Contains(t: string, w: string) {
    exists i :: 0 <= i <= |t| && StartsAt(t, i, w)
  }

  /** `/(?:w1|w2|...)/.test(t)`: some alternative occurs somewhere. */
  predicate ContainsAny(t: string, words: seq<string>) {
    exists k :: 0 <= k < |words| && Contains(t, words[k])
  }

  lemma ContainsExtend(a: string, b: string, w: string)
    requires Contains(a, w)
    ensures Contains(a + b, w)
  {
    var i :| 0 <= i <= |a| && StartsAt(a, i, w);
    assert i + |w| <= |a|;
    assert (a + b)[i..i + |w|] == a[i..i + |w|];
    assert StartsAt(a + b, i, w);
  }

  /** The entries of `words` that occur in `t`, in vocabulary order:
      `words.filter(w => t.includes(w))`. */
  function Found(words: seq<string>, t: string): (r: seq<string>)
    ensures |r| <= |words|
    ensures forall w :: w in r <==> w in words && Contains(t, w)
  {
    if words == [] then []
    else (if Contains(t, words[0]) then [words[0]] else []) + Found(words[1..], t)
  }

  /** Some vocabulary word is found exactly when the filter keeps one. */
  lemma FoundNonEmpty(words: seq<string>, t: string)
    ensures |Found(words, t)| > 0 <==> ContainsAny(t, words)
  {
    var r := Found(words, t);
    if |r| > 0 {
      assert r[0] in r;
      var k :| 0 <= k < |words| && words[k] == r[0];
    }
    if ContainsAny(t, words) {
      var k :| 0 <= k < |words| && Contains(t, words[k]);
      assert words[k] in r;
    }
  }

  // ---------------------------------------------------------------------------
  // Scanning with a global regular expression

  /** Length of the first alternative (in the order written) that occurs at
      `i`, or 0 when none does: how a JavaScript alternation of literals picks
      its match at one position. */
  function FirstAltLen(t: string, i: int, alts: seq<string>): (n: nat)
    ensures n > 0 ==> exists k :: 0 <= k < |alts| && |alts[k]| == n && StartsAt(t, i, alts[k])
    ensures n == 0 ==> forall k :: 0 <= k < |alts| && alts[k] != [] ==> !StartsAt(t, i, alts[k])
  {
    if alts == [] then 0
    else if alts[0] != [] && StartsAt(t, i, alts[0]) then |alts[0]|
    else FirstAltLen(t, i, alts[1..])
  }

  /** The end of the run of digits that starts at `i`. */
  function DigitRunEnd(t: string, i: nat): (j: nat)
    requires i <= |t|
    ensures i <= j <= |t|
    ensures forall k :: i <= k < j ==> IsDigit(t[k])
    ensures j == |t| || !IsDigit(t[j])
    decreases |t| - i
  {
    if i == |t| || !IsDigit(t[i]) then i else DigitRunEnd(t, i + 1)
  }

  /** The end of the run of white space that starts at `i`. */
  function SpaceRunEnd(t: string, i: nat): (j: nat)
    requires i <= |t|
    ensures i <= j <= |t|
    ensures forall k :: i <= k < j ==> IsSpace(t[k])
    ensures j == |t| || !IsSpace(t[j])
    decreases |t| - i
  {
    if i == |t| || !IsSpace(t[i]) then i else SpaceRunEnd(t, i + 1)
  }

  /** `parseInt` of a string of decimal digits. */
  function DigitsValue(s: string): nat
    requires forall k :: 0 <= k < |s| ==> IsDigit(s[k])
  {
    if s == [] then 0
    else
      assert IsDigit(s[|s| - 1]);
      10 * DigitsValue(s[..|s| - 1]) + (s[|s| - 1] as int - '0' as int)
  }

  /** The two shapes of global pattern whose matches the application counts. */
  datatype Pattern =
      /** `/(?:a|b|...)/g` with literal alternatives */
    | Words(alts: seq<string>)
      /** `/\d+(?:a|b|...)/g`: a digit run followed by a literal suffix */
    | Quantity(suffixes: seq<string>)

  /** Length of the match of `p` that starts at `i`, or 0 when there is none.
      For `Quantity`, backtracking into the digit run can never help because
      no suffix starts with a digit, so only the maximal run is tried. */
  function MatchLen(p: Pattern, t: string, i: nat): (n: nat)
    requires i <= |t|
    ensures i + n <= |t|
  {
    match p
    case Words(alts) => FirstAltLen(t, i, alts)
    case Quantity(sfx) =>
      if i < |t| && IsDigit(t[i]) then
        var j := DigitRunEnd(t, i);
        var l := FirstAltLen(t, j, sfx);
        if l > 0 then j - i + l else 0
      else 0
  }

  /** The length of the array `t.match(p)` returns for a global pattern (0 for
      the `|| []` of no match), scanning from `i`: after a match the scan
      resumes where it ended, otherwise one character further on. */
  function CountMatches(p: Pattern, t: string, i: nat): (n: nat)
    requires i <= |t|
    ensures n <= |t| - i
    decreases |t| - i
  {
    if i == |t| then 0
    else
      var l := MatchLen(p, t, i);
      if l > 0 then 1 + CountMatches(p, t, i + l) else CountMatches(p, t, i + 1)
  }

  /** `/\d+(?:a|b|...)/.test(t)`: some digit is immediately followed by a suffix. */
  predicate DigitFollowedBy(t: string, suffixes: seq<string>) {
    exists i :: 0 <= i < |t| && IsDigit(t[i]) && FirstAltLen(t, i + 1, suffixes) > 0
  }

  /** `/\d/.test(t)`, equivalently `/\d+/.test(t)`. */
  predicate HasDigit(t: string) {
    exists i :: 0 <= i < |t| && IsDigit(t[i])
  }

  /** `n` digits start at `i`. */
  predicate DigitsAt(t: string, i: int, n: nat) {
    0 <= i && i + n <= |t| && forall k :: i <= k < i + n ==> IsDigit(t[k])
  }

  // ---------------------------------------------------------------------------
  // Splitting and trimming

  /** The end of the run of non-space characters that starts at `i`. */
  function WordEnd(t: string, i: nat): (j: nat)
    requires i <= |t|
    ensures i <= j <= |t|
    ensures forall k :: i <= k < j ==> !IsSpace(t[k])
    ensures j == |t| || IsSpace(t[j])
    decreases |t| - i
  {
    if i == |t| || IsSpace(t[i]) then i else WordEnd(t, i + 1)
  }

  predicate IsWord(w: string) {
    w != [] && forall c :: c in w ==> !IsSpace(c)
  }

  /** The non-empty pieces of `t.split(/\s+/)`: its maximal runs of
      non-space characters, in order. */
  function Tokens(t: string): (r: seq<string>)
    ensures forall k :: 0 <= k < |r| ==> IsWord(r[k])
    decreases |t|
  {
    if t == [] then []
    else if IsSpace(t[0]) then Tokens(t[1..])
    else
      var j := WordEnd(t, 0);
      [t[..j]] + Tokens(t[j..])
  }

  /** `t.split(/\s+/).filter(w => w.length > 2).length`, with `length` in
      code units. */
  function LongWordCount(t: string): nat {
    |LongWords(Tokens(t))|
  }

  function LongWords(ws: seq<string>): (r: seq<string>)
    ensures |r| <= |ws|
    ensures forall w :: w in r <==> w in ws && Length(w) > 2
  {
    if ws == [] then []
    else (if Length(ws[0]) > 2 then [ws[0]] else []) + LongWords(ws[1..])
  }

  /** Index of the first occurrence of `c`. */
  function IndexOf(t: string, c: char): (j: nat)
    requires c in t
    ensures j < |t| && t[j] == c && c !in t[..j]
  {
    if t[0] == c then 0 else 1 + IndexOf(t[1..], c)
  }

  /** `t.split(sep)` for a one-character separator. */
  function SplitOn(t: string, sep: char): (r: seq<string>)
    ensures |r| >= 1
    ensures forall k :: 0 <= k < |r| ==> sep !in r[k]
    decreases |t|
  {
    if sep !in t then [t]
    else
      var j := IndexOf(t, sep);
      [t[..j]] + SplitOn(t[j + 1..], sep)
  }

  /** `parts.join(sep)`. */
  function Join(parts: seq<string>, sep: char): string
    requires |parts| >= 1
  {
    if |parts| == 1 then parts[0] else parts[0] + [sep] + Join(parts[1..], sep)
  }

  /** Joining the pieces of a split with the same separator gives the text back. */
  lemma {:induction false} JoinSplit(t: string, sep: char)
    ensures Join(SplitOn(t, sep), sep) == t
    decreases |t|
  {
    if sep in t {
      var j := IndexOf(t, sep);
      var parts, rest := SplitOn(t, sep), SplitOn(t[j + 1..], sep);
      assert parts == [t[..j]] + rest;
      assert |parts| >= 2 && parts[0] == t[..j] && parts[1..] == rest;
      assert Join(parts, sep) == t[..j] + [sep] + Join(rest, sep);
      JoinSplit(t[j + 1..], sep);
      assert t == t[..j] + [sep] + t[j + 1..];
    }
  }

  predicate HasNonSpace(s: string) {
    exists k :: 0 <= k < |s| && !IsSpace(s[k])
  }

  /** Index of the first non-space character, or |s|. */
  function TrimStartIndex(s: string): (i: nat)
    ensures i <= |s|
    ensures forall k :: 0 <= k < i ==> IsSpace(s[k])
    ensures i < |s| ==> !IsSpace(s[i])
  {
    if s == [] || !IsSpace(s[0]) then 0 else 1 + TrimStartIndex(s[1..])
  }

  /** One past the last non-space character, or 0. */
  function TrimEndIndex(s: string): (j: nat)
    ensures j <= |s|
    ensures forall k :: j <= k < |s| ==> IsSpace(s[k])
    ensures j > 0 ==> !IsSpace(s[j - 1])
  {
    if s == [] || !IsSpace(s[|s| - 1]) then |s| else TrimEndIndex(s[..|s| - 1])
  }

  /** `s.trim()`: the slice between the surrounding white space. */
  function Trim(s: string): (r: string)
    ensures HasNonSpace(s) <==> r != []
    ensures r != [] ==> !IsSpace(r[0]) && !IsSpace(r[|r| - 1])
    ensures r != [] ==> r == s[TrimStartIndex(s)..TrimEndIndex(s)]
    ensures |r| <= |s|
  {
    var i := TrimStartIndex(s);
    var j := TrimEndIndex(s);
    if i < j then s[i..j] else []
  }

  /** `t.split('\n').filter(line => line.trim()).length` */
  function NonBlankLineCount(t: string): nat {
    |NonBlank(SplitOn(t, '\n'))|
  }

  function NonBlank(lines: seq<string>): (r: seq<string>)
    ensures |r| <= |lines|
    ensures forall l :: l in r <==> l in lines && HasNonSpace(l)
  {
    if lines == [] then []
    else (if HasNonSpace(lines[0]) then [lines[0]] else []) + NonBlank(lines[1..])
  }
}

=== FILE: text_hash.dfy ===
/** The cache-key hash of the resume engine (`createTextHash` in
    src/utils/geminiApi.js): a multiply-by-31 rolling hash over the UTF-16
    code units `charCodeAt` reads, kept in 32-bit two's complement, printed as the decimal digits of its
    absolute value. */
module TextHash {
  import opened Text

  const TwoTo32: int := 0x1_0000_0000
  const TwoTo31: int := 0x8000_0000

  /** JavaScript's ToInt32: the 32-bit two's complement value congruent to `x`. */
  function ToInt32(x: int): (r: int)
    ensures -TwoTo31 <= r < TwoTo31
    ensures (x - r) % TwoTo32 == 0
  {
    var m := x % TwoTo32;
    if m >= TwoTo31 then m - TwoTo32 else m
  }

  lemma ToInt32Congruent(x: int, y: int, k: int)
    requires x - y == k * TwoTo32
    ensures ToInt32(x) == ToInt32(y)
  {
    assert x % TwoTo32 == y % TwoTo32 by {
      assert x == y + k * TwoTo32;
    }
  }

  /** One step of the loop: `hash = ((hash << 5) - hash) + char; hash = hash & hash`.
      The shift already wraps to 32 bits; the `&` wraps the sum. */
  function Step(hash: int, c: CodeUnit): int {
    ToInt32(ToInt32(hash * 32) - hash + c)
  }

  /** The hash of `s`, folding the step over its code units from the left. */
  function Fold(s: seq<CodeUnit>): int {
    if s == [] then 0 else Step(Fold(s[..|s| - 1]), s[|s| - 1])
  }

  /** The reference value: the polynomial sum of the code units with powers
      of 31, without any wrapping. */
  function Poly(s: seq<CodeUnit>): int {
    if s == [] then 0 else 31 * Poly(s[..|s| - 1]) + s[|s| - 1]
  }

  /** Wrapping after every step gives the same as wrapping once at the end. */
  lemma StepWraps(h: int, p: int, c: CodeUnit)
    requires h == ToInt32(p)
    ensures Step(h, c) == ToInt32(31 * p + c)
  {
    var a := ToInt32(h * 32);
    var k1 := (h * 32 - a) / TwoTo32;
    assert h * 32 - a == k1 * TwoTo32;
    var k2 := (p - h) / TwoTo32;
    assert p - h == k2 * TwoTo32;
    var x := a - h + c;
    var y := 31 * p + c;
    assert x - y == (-31 * k2 - k1) * TwoTo32;
    ToInt32Congruent(x, y, -31 * k2 - k1);
  }

  lemma {:induction false} FoldIsWrappedPoly(s: seq<CodeUnit>)
    ensures Fold(s) == ToInt32(Poly(s))
  {
    if s != [] {
      var p, c := s[..|s| - 1], s[|s| - 1];
      assert Fold(s) == Step(Fold(p), c);
      assert Poly(s) == 31 * Poly(p) + c;
      FoldIsWrappedPoly(p);
      StepWraps(Fold(p), Poly(p), c);
    }
  }

  /** The loop of `createTextHash` over `text.length` code units, before the
      absolute value. */
  method HashLoop(text: string) returns (hash: int)
    ensures hash == ToInt32(Poly(Utf16(text)))
    ensures -TwoTo31 <= hash < TwoTo31
  {
    var units := Utf16(text);
    hash := 0;
    var i := 0;
    while i < |units|
      invariant 0 <= i <= |units|
      invariant hash == ToInt32(Poly(units[..i]))
    {
      assert units[..i + 1][..i] == units[..i];
      StepWraps(hash, Poly(units[..i]), units[i]);
      hash := Step(hash, units[i]);
      i := i + 1;
    }
    assert units[..i] == units;
  }

  function Abs(x: int): nat {
    if x < 0 then -x else x
  }

  /** Decimal digits of a natural number, as `Number.prototype.toString`. */
  function NatToString(n: nat): (s: string)
    ensures |s| >= 1
    ensures forall k :: 0 <= k < |s| ==> IsDigit(s[k])
  {
    if n < 10 then [('0' as int + n) as char]
    else NatToString(n / 10) + [('0' as int + n % 10) as char]
  }

  /** Printing and parsing the digits returns the number. */
  lemma {:induction false} NatToStringRoundTrip(n: nat)
    ensures DigitsValue(NatToString(n)) == n
  {
    if n >= 10 {
      NatToStringRoundTrip(n / 10);
      var s := NatToString(n);
      assert s[..|s| - 1] == NatToString(n / 10);
    }
  }

  /** `createTextHash(text)`: the decimal string of |hash|; "0" for "". */
  function CreateTextHash(text: string): (r: string)
    ensures forall k :: 0 <= k < |r| ==> IsDigit(r[k])
    ensures DigitsValue(r) == Abs(ToInt32(Poly(Utf16(text))))
    ensures DigitsValue(r) <= TwoTo31
  {
    FoldIsWrappedPoly(Utf16(text));
    NatToStringRoundTrip(Abs(Fold(Utf16(text))));
    NatToString(Abs(Fold(Utf16(text))))
  }

  /** A character above U+FFFF is hashed as its two surrogates:
      31 * 0xD835 + 0xDC00 for U+1D400. */
  lemma AstralCharHash()
    ensures CreateTextHash("\U{1D400}") == "1772139"
  {
    AstralCharCountsTwice();
    var u := Utf16("\U{1D400}");
    assert u[..1] == [0xD835] && u[..1][..0] == [];
    assert Poly(u) == 1772139;
    assert Fold(u) == 1772139 by {
      FoldIsWrappedPoly(u);
    }
  }
}

=== FILE: wrappers.dfy ===
/** Failure-compatible wrappers used across the model: an optional value and a
    result that is either a value or an error message. */
module Wrappers {

  datatype Option<+T> = None | Some(value: T) {
    function GetOr(default: T): T {
      match this
      case Some(v) => v
      case None => default
    }
  }

  datatype Result<+T> = Ok(value: T) | Err(message: string) {
    predicate IsFailure() {
      Err?
    }
  }
}
